=== FILE: README.md ===
# Mini expense tracker — a verified model of its core

The expense tracker keeps expense transactions, one per spending category,
and invoices pulled from a mock of the Xero accounting API. An invoice can be
linked to transactions. Its backend (AdonisJS over PostgreSQL) has a service
layer and controllers. Its front end (Vue and Pinia) has state stores and
formatting helpers. This project models that logic in Dafny:

- **Database.** The four tables (categories, transactions, invoices,
  transaction_invoices) are sequences in the class `Schema.Database`. Its
  `Valid()` invariant states the migrations' constraints:
  - ids are ascending and below the next id;
  - `xero_invoice_id` is unique;
  - each (transaction, invoice) pair is linked at most once;
  - every link references an existing transaction and invoice, and
    cascading deletes keep it that way.
- **Invoice service.** Sync, as an upsert keyed by the external id; create
  with defaults; partial update under JavaScript truthiness; delete with
  cascade; link and unlink; the two link queries.
- **Transaction service.** The one-transaction-per-category insert; the
  per-category balances (a left join, a fold, then a stable sort by total,
  descending); the joined transaction list.
- **Xero service.** Status and type conversion, record flattening,
  pagination, filters and lookup, over an invoice feed given as a value.
- **Currency service.** The conversion to CAD with its skip rule, the EUR
  special case, cross rates, rounding to two places and fail-open error
  handling. The rate lookup is an input.
- **Controllers.** Each action maps a service outcome (a value, null, false
  or a thrown error) to a status and a JSON envelope.
- **Stores.** `authStore`, `categoryStore`, `transactionStore` and
  `invoiceStore` are classes whose methods update fields as the Pinia
  actions do. Each HTTP reply and the session-storage token are parameters.
- **Utilities.** `formatNumber` (the thousands-separator regex, modelled
  exactly), `formatAmount` and friends over integer cents, `mathUtils`, and
  the category lookup tables.

Service operations that mutate tables are methods on a `Database`. Each is
proved against value-level functions (`SyncAll`, `CategoryBalances`,
`ApplyUpdate`, `Filter`). Lemmas about those functions state the promised
properties.

## Model

| member | source | states |
|---|---|---|
| InvoiceTypes.StatusNameInjective | backend/app/types/invoice.ts:6-13 | distinct statuses have distinct names |
| Schema.Database.constructor | backend/database/migrations/1757092307068_create_create_invoices_table.ts:8-25 | empty tables, ids start at 1, and the schema invariant holds (unique external id, unique link pair, links reference both parents) |
| InvoiceService.GetInvoiceTransactions | backend/app/services/invoice_service.ts:258-280 | the result holds exactly the links whose invoiceId is the given id, each with its transaction |
| InvoiceService.LinkedTransactionsLoaded | backend/app/services/invoice_service.ts:264-278 | in a valid database every listed link carries its transaction, with the link's transactionId |
| InvoiceService.GetInvoiceById | backend/app/services/invoice_service.ts:97-102 | some invoice comes back exactly when a row with that id exists; it is that row, and its linked transactions are exactly that invoice's `getInvoiceTransactions` answer |
| InvoiceService.FormatInvoiceResponse | backend/app/services/invoice_service.ts:296-329 | the row's columns with its links and their transactions; stated through `GetInvoiceTransactions` and `LinkedTransactionsLoaded` |
| InvoiceService.InvoicesOfLinks | backend/app/services/invoice_service.ts:285-291 | one invoice per link, in link order, each the row the link names, with that invoice's own linked transactions |
| InvoiceService.GetTransactionInvoices | backend/app/services/invoice_service.ts:285-291 | one invoice per link of the transaction, in link order, each the row its link names, with that invoice's own linked transactions |
| InvoiceService.MergeFields | backend/app/services/invoice_service.ts:55-74 | a sync merge takes every converted field except `xeroInvoiceId`, which it keeps |
| InvoiceService.UpsertRow | backend/app/services/invoice_service.ts:31-77 | one upsert step writes the converted record, keeps every existing id, creation time and external id, leaves other invoices untouched and only appends the new row |
| InvoiceService.Upsert | backend/app/services/invoice_service.ts:33-75 | find by external id, then create or merge; what it writes and keeps is stated by `UpsertRow`, `UpsertSchema` and `UpsertKeepsXeroId` |
| InvoiceService.SyncAll | backend/app/services/invoice_service.ts:31-78 | the sync loop as a fold of `Upsert` over the feed; stated by `SyncRows`, `SyncKeeps`, `SyncSchema` and `SyncExactlyOne` |
| InvoiceService.UpsertSchema | backend/app/services/invoice_service.ts:33-54 | an upsert keeps ids ascending and external ids unique |
| InvoiceService.SyncRows | backend/app/services/invoice_service.ts:29-80 | sync returns one row per feed record, in feed order, carrying that record's converted fields |
| InvoiceService.SyncKeeps | backend/app/services/invoice_service.ts:55-74 | sync never changes an existing invoice's id, creation time or external id, and leaves invoices absent from the feed untouched |
| InvoiceService.SyncSchema | backend/app/services/invoice_service.ts:31-78 | sync keeps ids ascending and external ids unique |
| InvoiceService.UpsertKeepsXeroId | backend/app/services/invoice_service.ts:33-75 | an external id that is present stays present after an upsert |
| InvoiceService.SyncCoversOne | backend/app/services/invoice_service.ts:31-78 | after sync, the external id of any one feed record is present |
| InvoiceService.SyncCovers | backend/app/services/invoice_service.ts:31-78 | after sync, every feed record's external id is present |
| InvoiceService.XeroIdMatches | backend/database/migrations/1757092307068_create_create_invoices_table.ts:9 | with unique external ids, an id matches one row if present and none otherwise |
| InvoiceService.SyncExactlyOne | backend/app/services/invoice_service.ts:31-79 | after sync, every feed id matches exactly one invoice |
| InvoiceService.UpsertInvoice | backend/app/services/invoice_service.ts:32-75 | the loop body creates or merges exactly as `Upsert` specifies and touches no other table |
| InvoiceService.UpsertTables | backend/app/services/invoice_service.ts:31-78 | an upsert keeps the invoice tables' invariant |
| InvoiceService.SyncStep | backend/app/services/invoice_service.ts:31-78 | syncing one more record is one more upsert step |
| InvoiceService.SyncInvoicesFromXero | backend/app/services/invoice_service.ts:24-84 | the loop leaves the invoice table as `SyncAll` specifies and returns each synced row formatted, with the invariant kept |
| InvoiceService.KeepsInvoiceIds | backend/database/migrations/1757092316654_create_create_transaction_invoices_table.ts:9-20 | links keep referencing existing invoices when invoice ids are kept and rows are only appended |
| InvoiceService.NewInvoiceFields | backend/app/services/invoice_service.ts:118-134 | external id, number, contact name and email, subtotal, total, invoice date, description and reference are copied from the request; a falsy tax amount becomes 0, currency 'CAD', status DRAFT and type ACCREC; due and paid dates are the request's when truthy and null otherwise |
| InvoiceService.NoLinksOfFreshInvoice | backend/app/services/invoice_service.ts:136 | no link references the id a new invoice receives, so it is created with no linked transactions |
| InvoiceService.FoundXeroId | backend/database/migrations/1757092307068_create_create_invoices_table.ts:9 | a found external id is present |
| InvoiceService.MissingXeroId | backend/database/migrations/1757092307068_create_create_invoices_table.ts:9 | an external id not found is absent |
| InvoiceService.CreateInvoice | backend/app/services/invoice_service.ts:117-137 | with a fresh external id: appends one row with the request's fields and defaults and returns it with no links; with a taken id: the unique-key error, no row added, and the id the serial handed out is used up |
| InvoiceService.InsertInvoice | backend/app/services/invoice_service.ts:118-136 | appends the row under the next id and keeps the schema invariant |
| InvoiceService.CreateSchema | backend/database/migrations/1757092307068_create_create_invoices_table.ts:8-9 | appending a row with the next id and a fresh external id keeps the invariant, and the row has no links |
| InvoiceService.AppendInvoiceSchema | backend/database/migrations/1757092307068_create_create_invoices_table.ts:8-9 | appending such a row keeps ids ascending and external ids unique |
| InvoiceService.UpdateSkipsFalsy | backend/app/services/invoice_service.ts:148-164 | fields guarded by truthiness keep their value when the update is falsy: an empty string, 0, or absent |
| InvoiceService.UpdateAppliesSent | backend/app/services/invoice_service.ts:148-164 | truthy fields are applied; the `!== undefined` fields are applied even when falsy; a sent due or paid date is stored when truthy and becomes null when falsy |
| InvoiceService.ApplyUpdate | backend/app/services/invoice_service.ts:148-168 | the merge of `updateData` into the stored columns; what it writes and keeps is stated by `UpdateSkipsFalsy` and `UpdateAppliesSent` |
| InvoiceService.UpdateIdempotent | backend/app/services/invoice_service.ts:146-166 | applying the same update twice is applying it once |
| InvoiceService.EmptyUpdateIdentity | backend/app/services/invoice_service.ts:146-166 | an update with no fields changes nothing |
| InvoiceService.UpdateInvoice | backend/app/services/invoice_service.ts:142-170 | an unknown id gives null; otherwise only that row's fields change, to the merge of the update, unless another row holds the new external id |
| InvoiceService.ReplaceKeepsUnique | backend/database/migrations/1757092307068_create_create_invoices_table.ts:9 | with unique external ids, two different rows have different ids |
| InvoiceService.ReplaceFieldsSchema | backend/app/services/invoice_service.ts:166-167 | replacing one row's fields, with an external id no other row holds, keeps the invariant |
| InvoiceService.DeleteInvoiceSchema | backend/database/migrations/1757092316654_create_create_transaction_invoices_table.ts:15-20 | deleting an invoice with its links, as the cascade does, keeps the invariant and leaves no row or link with that id |
| InvoiceService.DeleteInvoice | backend/app/services/invoice_service.ts:175-181 | returns true exactly when the invoice exists; then removes it and, by cascade, all its links; otherwise nothing changes |
| InvoiceService.RemoveInvoice | backend/app/services/invoice_service.ts:179 | removes the invoice and its links and keeps the invariant |
| InvoiceService.LinkAmount | backend/app/services/invoice_service.ts:211 | an absent or zero amount is stored as null, any other as given |
| InvoiceService.AppendLinkSchema | backend/database/migrations/1757092316654_create_create_transaction_invoices_table.ts:9-27 | a new link to existing parents with a new pair and the next id keeps the invariant |
| InvoiceService.NewLink | backend/app/services/invoice_service.ts:207-212 | the inserted link row; `LinkTransactionToInvoice` states that it is the one row appended |
| InvoiceService.FoundTransaction | backend/app/services/invoice_service.ts:190 | a found transaction exists |
| InvoiceService.MissingTransaction | backend/app/services/invoice_service.ts:190 | a transaction not found does not exist |
| InvoiceService.FoundInvoice | backend/app/services/invoice_service.ts:191 | a found invoice exists |
| InvoiceService.MissingInvoice | backend/app/services/invoice_service.ts:191 | an invoice not found does not exist |
| InvoiceService.FoundPair | backend/app/services/invoice_service.ts:198-203 | a found link means the pair is linked |
| InvoiceService.MissingPair | backend/app/services/invoice_service.ts:198-203 | a link not found means the pair is not linked |
| InvoiceService.LinkResponseLoaded | backend/app/services/invoice_service.ts:216-233 | a link to an existing transaction is returned with that transaction |
| InvoiceService.LinkTransactionToInvoice | backend/app/services/invoice_service.ts:186-235 | a missing parent gives "Transaction or invoice not found" and a linked pair gives "already linked", both with no change; otherwise exactly one link is appended, with a falsy amount or notes stored as null, and returned with its transaction |
| InvoiceService.RemoveLinkSchema | backend/app/services/invoice_service.ts:251 | removing any one link keeps the invariant |
| InvoiceService.UnlinkTransactionFromInvoice | backend/app/services/invoice_service.ts:240-253 | returns true exactly when the pair is linked; then exactly that link is removed and the others keep their order, otherwise nothing changes |
| InvoiceService.UnlinkRemovesPair | backend/app/services/invoice_service.ts:244-252 | after an unlink the pair is no longer linked, and every other link is still there |
| TransactionService.ExpectedBalances | backend/app/services/transaction_service.ts:72-123 | one expected entry per category, in category order |
| TransactionService.ExpectedBalance | backend/app/services/transaction_service.ts:70-123 | one category's entry: all its transactions and their sum; the reference the fold is proved equal to (`AccumulateMatchesExpected`) |
| TransactionService.CategoryBalances | backend/app/services/transaction_service.ts:70-126 | the reference entries in stable total-descending order; stated by `BalancesOnePerCategory`, `BalancesSorted` and `BalanceTotals` |
| TransactionService.AccumulateAllAppend | backend/app/services/transaction_service.ts:89-123 | folding two row lists is folding the first, then the second |
| TransactionService.Accumulate | backend/app/services/transaction_service.ts:89-123 | one step of the `reduce`: create the category's entry if missing, then add the row's transaction; stated by `AccumulateOneMore` and `AccumulateCategory` |
| TransactionService.AccumulateAll | backend/app/services/transaction_service.ts:89-123 | the whole `reduce` over the joined rows; equal to `ExpectedBalances` by `AccumulateMatchesExpected` |
| TransactionService.AccumulateOneMore | backend/app/services/transaction_service.ts:102-115 | a row with a transaction appends it to its category's entry and adds its amount to the total |
| TransactionService.AccumulateTransactions | backend/app/services/transaction_service.ts:89-123 | the rows of one category fold into one entry listing its transactions, with their sum as total |
| TransactionService.AccumulateCategory | backend/app/services/transaction_service.ts:89-123 | a category's joined rows, with or without transactions, fold into its expected entry |
| TransactionService.AccumulateMatchesExpected | backend/app/services/transaction_service.ts:72-123 | the fold over the left join yields exactly the expected entry of every category, in id order |
| TransactionService.GetCategoryBalances | backend/app/services/transaction_service.ts:70-127 | the loop, with its per-category accumulator and sort, returns `CategoryBalances` |
| TransactionService.BalanceIsExpected | backend/app/services/transaction_service.ts:89-126 | every returned entry is the expected entry of some category |
| TransactionService.BalancesOnePerCategory | backend/app/services/transaction_service.ts:72-126 | there are as many entries as categories, and every category's expected entry is among them |
| TransactionService.SameIdSameEntry | backend/app/services/transaction_service.ts:91-100 | two entries with the same category id are the same entry |
| TransactionService.BalancesDistinctCategories | backend/app/services/transaction_service.ts:91-100 | no two entries share a category id |
| TransactionService.ExpectedIdsAscending | backend/app/services/transaction_service.ts:86 | before the sort, entries are in ascending category id |
| StableSort.SortDesc | backend/app/services/transaction_service.ts:126 | `Array.prototype.sort` by key descending: a permutation of its input |
| StableSort.SortDescLexSorted | backend/app/services/transaction_service.ts:126 | on input with ascending ids, the sort is by key descending with ties by ascending id, which is what a stable sort gives |
| TransactionService.BalancesSorted | backend/app/services/transaction_service.ts:86-126 | entries are sorted by total, descending; ties keep ascending category id |
| TransactionService.ExpectedBalanceFacts | backend/app/services/transaction_service.ts:94-115 | an entry's total is the sum of the raw amounts it lists, an empty list has total 0, and each listed item is a row of that category |
| TransactionService.BalanceTotals | backend/app/services/transaction_service.ts:94-115 | the same three facts for every returned entry |
| TransactionService.BalancesListEveryTransaction | backend/app/services/transaction_service.ts:74-113 | every transaction of an existing category is listed in that category's entry |
| TransactionService.MatchingAtMostOne | backend/app/services/transaction_service.ts:44-51 | with one transaction per category, a category matches at most one row |
| TransactionService.BalancesAtMostOne | backend/app/services/transaction_service.ts:44-51 | with one transaction per category, every entry lists at most one transaction |
| TransactionService.AppendTransaction | backend/app/services/transaction_service.ts:53-62 | inserting a row under the next id keeps ids ascending and links valid |
| TransactionService.AppendKeepsOnePerCategory | backend/app/services/transaction_service.ts:44-62 | inserting into a free category keeps one transaction per category |
| TransactionService.CreateTransaction | backend/app/services/transaction_service.ts:36-65 | a taken category gives the one-to-one error and inserts nothing; otherwise exactly one row with the given fields is appended and returned; one-per-category is preserved |
| TransactionService.CategoryIdsDistinct | backend/app/services/transaction_service.ts:12 | categories kept in ascending id have distinct ids |
| TransactionService.JoinMembers | backend/app/services/transaction_service.ts:10-23 | the inner join holds exactly the views of transactions whose category exists |
| TransactionService.JoinCategories | backend/app/services/transaction_service.ts:10-23 | the inner join of transactions with categories; stated by `JoinMembers`, `JoinFromTransactions` and `JoinIdsAscending` |
| TransactionService.JoinFromTransactions | backend/app/services/transaction_service.ts:10-23 | every joined view comes from a transaction with the same id |
| TransactionService.JoinIdsAscending | backend/app/services/transaction_service.ts:10-23 | the join keeps ascending transaction id |
| TransactionService.SplitMembers | backend/app/services/transaction_service.ts:24 | ordering by creation time keeps exactly the joined views |
| TransactionService.AllTransactionsMembers | backend/app/services/transaction_service.ts:9-31 | the listing holds exactly the transactions whose category exists, each joined with it |
| TransactionService.ConcatListed | backend/app/services/transaction_service.ts:24 | untimed rows in id order followed by timed rows, newest first, are ordered by the listing order |
| TransactionService.AllTransactionsOrdered | backend/app/services/transaction_service.ts:24 | the listing is ordered by creation time, descending, with null times first |
| TransactionService.GetAllTransactions | backend/app/services/transaction_service.ts:9-31 | the joined rows, untimed first, then newest first; stated by `AllTransactionsMembers` and `AllTransactionsOrdered` |
| XeroService.ConvertStatus | backend/app/services/xero_service.ts:132-143 | the six status names map to themselves; any other string maps to DRAFT (inherited keys are admitted under Left out) |
| XeroService.ConvertStatusOfName | backend/app/services/xero_service.ts:132-143 | converting a status's name gives that status back |
| XeroService.ConvertStatusSent | backend/app/services/xero_service.ts:132-143 | the feed's 'SENT' maps to DRAFT |
| XeroService.ConvertType | backend/app/services/xero_service.ts:148-150 | ACCPAY exactly when the input is 'ACCPAY' |
| XeroService.ConvertTypeOfName | backend/app/services/xero_service.ts:148-150 | converting a type's name gives that type back |
| XeroService.ConvertToInternalFormat | backend/app/services/xero_service.ts:155-173 | copies id, number, contact name, amounts, currency and date; maps status and type; email, due date, paid date, description and reference are their input when truthy and null otherwise |
| XeroService.ConvertToInternalFormatRoundTrip | backend/app/services/xero_service.ts:155-173 | normalised internal fields survive a trip to a feed record and back |
| XeroService.ConvertToInternalFormatNormalized | backend/app/services/xero_service.ts:155-173 | the result never holds an empty optional text |
| XeroService.NumberOrZero | backend/app/services/xero_service.ts:235-237 | a missing amount is 0 |
| XeroService.FirstLineDescription | backend/app/services/xero_service.ts:243 | the first line item's truthy description, else null |
| XeroService.ConvertFullXeroToInternalFormat | backend/app/services/xero_service.ts:227-247 | id and number default to '', amounts to 0, currency to 'CAD', invoice date to today; status and type are converted, DRAFT and ACCREC when falsy; email, due date, paid date and reference are their input when truthy and null otherwise; the description is the first line item's when truthy |
| XeroService.SliceIndex | backend/app/services/xero_service.ts:193 | a slice bound is clamped into the list and kept when in range |
| XeroService.Slice | backend/app/services/xero_service.ts:193 | an in-range slice is the subsequence between the bounds |
| XeroService.CeilDiv | backend/app/services/xero_service.ts:200 | for a positive limit, the least page count covering n; none for limit 0 |
| XeroService.FetchInvoicesPaginated | backend/app/services/xero_service.ts:178-202 | total is n, page and limit default to 1 and 10, totalPages is ceil(n/limit), and the page is the slice from (page-1)*limit |
| XeroService.PageStart | backend/app/services/xero_service.ts:191 | the start index is non-negative for page ≥ 1 |
| XeroService.PaginationCoversFeed | backend/app/services/xero_service.ts:191-200 | every feed record appears on page j/limit+1 at offset j%limit, within totalPages |
| XeroService.PageOfIndex | backend/app/services/xero_service.ts:191 | page j/limit+1 starts j%limit records before j |
| XeroService.PagesCoverIndex | backend/app/services/xero_service.ts:200 | the page of any record is at most totalPages |
| XeroService.FetchInvoiceById | backend/app/services/xero_service.ts:122-127 | the first record with that id, or null exactly when none has it |
| XeroService.FetchInvoicesByStatus | backend/app/services/xero_service.ts:207-212 | exactly the records whose converted status is the argument, with their multiplicities |
| XeroService.FetchInvoicesByType | backend/app/services/xero_service.ts:217-222 | exactly the records whose converted type is the argument, with their multiplicities |
| XeroService.FiltersKeepOrder | backend/app/services/xero_service.ts:207-222 | both filters keep feed order |
| CurrencyService.Pow10 | backend/app/services/currency_service.ts:51 | 10^n is positive |
| CurrencyService.Scale | backend/app/services/currency_service.ts:51 | the factor is at least 1 |
| CurrencyService.RoundTo | backend/app/services/currency_service.ts:50-53 | the result has at most `decimals` places and is the scaled value rounded half up |
| CurrencyService.RoundToIdempotent | backend/app/services/currency_service.ts:50-53 | rounding a rounded value changes nothing |
| CurrencyService.ApplyRate | backend/app/services/currency_service.ts:29-43 | amount × rate rounded: two places, within half a cent |
| CurrencyService.CrossRate | backend/app/services/currency_service.ts:39 | CAD per unit of the source currency: multiplied by the source's EUR rate it gives the CAD rate |
| CurrencyService.TryConvert | backend/app/services/currency_service.ts:13-43 | succeeds exactly when the date is valid, the response is ok with rates and the needed rates are non-zero; a success has two decimal places |
| CurrencyService.ConvertToCAD | backend/app/services/currency_service.ts:7-48 | the result is the original amount or a value with two decimal places |
| CurrencyService.ConvertSkips | backend/app/services/currency_service.ts:9-11 | CAD or a non-positive amount is returned unchanged |
| CurrencyService.ConvertFailOpen | backend/app/services/currency_service.ts:7-48 | an invalid date, a failed or non-ok response, or a missing or zero rate returns the original amount |
| CurrencyService.ConvertWithRates | backend/app/services/currency_service.ts:29-43 | EUR: amount × CAD rate, rounded; others: amount × (CAD rate / source rate), rounded |
| CurrencyService.ConvertExample | backend/app/services/currency_service.ts:34-43 | 100 USD at 1.3357 CAD per USD gives 133.57 |
| Envelope.FromResult | backend/app/services/invoice_service.ts:193-205 | a service error becomes a thrown `Error` carrying its message |
| TransactionsController.ErrorText | backend/app/controllers/transactions_controller.ts:24 | an `Error`'s message, otherwise 'Unknown error' |
| TransactionsController.Wrap | backend/app/controllers/transactions_controller.ts:12-27 | success with the data and the default status, or 500 with the action's message and error text |
| TransactionsController.Index | backend/app/controllers/transactions_controller.ts:12-27 | `{success: true, data}`, or 500 "Failed to fetch transactions" |
| TransactionsController.GetBalanceByCategory | backend/app/controllers/transactions_controller.ts:74-89 | `{success: true, data}`, or 500 "Failed to fetch balance by category" |
| TransactionsController.Store | backend/app/controllers/transactions_controller.ts:32-69 | a falsy field gives 400 "All fields are required"; otherwise 201 with the data, or 500 "Failed to create transaction" |
| TransactionsController.StoreRejectsBeforeService | backend/app/controllers/transactions_controller.ts:43-48 | with a falsy field the reply does not depend on the service outcome |
| TransactionsController.UnknownErrorEverywhere | backend/app/controllers/transactions_controller.ts:20-88 | a thrown non-Error gives 'Unknown error' in all three actions |
| TransactionsController.StoreReportsServiceError | backend/app/controllers/transactions_controller.ts:62-68 | a service error gives 500 with its message as `error` |
| InvoicesController.MessageOf | backend/app/controllers/invoices_controller.ts:51 | `error.message`: present only for an `Error` |
| InvoicesController.Caught | backend/app/controllers/invoices_controller.ts:47-53 | a failed envelope with the action's message and the error's message |
| InvoicesController.SyncFromXero | backend/app/controllers/invoices_controller.ts:38-54 | 200 with the list and "Successfully synced N invoices from Xero", or 500 |
| InvoicesController.SyncMessageCount | backend/app/controllers/invoices_controller.ts:44 | the number in the message reads back as the list's length |
| InvoicesController.Index | backend/app/controllers/invoices_controller.ts:80-95 | 200 with the data, or 500 "Failed to fetch invoices" |
| InvoicesController.Show | backend/app/controllers/invoices_controller.ts:128-150 | 404 exactly on null, 200 exactly on an invoice, 500 on a throw |
| InvoicesController.Store | backend/app/controllers/invoices_controller.ts:188-222 | 201 exactly on success, 500 "Failed to create invoice" otherwise |
| InvoicesController.Update | backend/app/controllers/invoices_controller.ts:267-308 | 404 exactly on null, 200 exactly on an invoice, 500 on a throw |
| InvoicesController.Destroy | backend/app/controllers/invoices_controller.ts:345-367 | 404 exactly on false, 200 exactly on true, 500 on a throw |
| InvoicesController.GetTransactions | backend/app/controllers/invoices_controller.ts:402-417 | 200 with the data, or 500 |
| InvoicesController.LinkTransaction | backend/app/controllers/invoices_controller.ts:455-478 | 201 exactly on success, 400 exactly on any throw, carrying its message |
| InvoicesController.LinkFailuresAreBadRequest | backend/app/controllers/invoices_controller.ts:471-477 | not-found and already-linked both give 400 with the service message |
| InvoicesController.UnlinkTransaction | backend/app/controllers/invoices_controller.ts:522-553 | a falsy id gives 400 before the service; then 404 exactly on false, 200 exactly on true, 500 on a throw |
| InvoicesController.UnlinkRefusesZeroId | backend/app/controllers/invoices_controller.ts:526-531 | an id of 0 gives 400 whatever the service would do |
| InvoicesController.GetTransactionInvoices | backend/app/controllers/invoices_controller.ts:582-597 | 200 with the data, or 500 |
| ApiReply.Settle | frontend/src/stores/transactionStore.ts:53-65 | a success reply yields its data; a failure reply throws its message or the fallback; a rejection keeps an `Error`'s message, else the fallback |
| ApiReply.SettleTextNonEmpty | frontend/src/stores/transactionStore.ts:56-64 | the recorded error text is never empty |
| TransactionStore.TotalAppend | frontend/src/stores/transactionStore.ts:20-25 | the total of an empty list is 0, and totals add over concatenation |
| TransactionStore.Total | frontend/src/stores/transactionStore.ts:20-25 | the `reduce` sum of the amounts; stated by `TotalAppend` |
| TransactionStore.CategoryLabel | frontend/src/stores/transactionStore.ts:29-31 | the category name, or `Category <id>` when it is missing or empty |
| Grouping.GroupBy | frontend/src/stores/transactionStore.ts:28-37 | the `reduce` into an object of arrays; `Grouping.GroupByFacts` states its result |
| Grouping.GroupByFacts | frontend/src/stores/transactionStore.ts:28-37 | the keys are the distinct keys in first-appearance order, and each group holds exactly the elements with its key, in order |
| TransactionStore.ByCategoryFacts | frontend/src/stores/transactionStore.ts:28-37 | keys are the distinct labels in first-appearance order; each group is its transactions in original order; every transaction is in its label's group |
| TransactionStore.ByCategory | frontend/src/stores/transactionStore.ts:27-40 | the transactions grouped by label; stated by `ByCategoryFacts` |
| TransactionStore.Store.TotalBalance | frontend/src/stores/transactionStore.ts:20-25 | the getter over the store's list; `AddTransactionTotal` states how an add changes it |
| TransactionStore.Store.TransactionsByCategory | frontend/src/stores/transactionStore.ts:27-40 | the getter over the store's list; stated by `ByCategoryFacts` |
| TransactionStore.Store.constructor | frontend/src/stores/transactionStore.ts:12-17 | empty lists, not loading, no error |
| TransactionStore.Store.FetchTransactions | frontend/src/stores/transactionStore.ts:44-69 | success replaces the list; failure keeps it and records the error; loading ends false |
| TransactionStore.Store.AddTransaction | frontend/src/stores/transactionStore.ts:71-112 | no token: throws the fixed message with the list unchanged; success appends the returned transaction at the end; loading ends false |
| TransactionStore.Store.FetchCategoryBalances | frontend/src/stores/transactionStore.ts:114-140 | success replaces the balances; failure keeps them and records the error |
| TransactionStore.Store.ClearError | frontend/src/stores/transactionStore.ts:142-144 | error becomes null and nothing else changes |
| TransactionStore.AddTransactionTotal | frontend/src/stores/transactionStore.ts:20-97 | after a successful add, the total balance grows by the new amount |
| InvoiceStore.GroupingsFacts | frontend/src/stores/invoiceStore.ts:21-41 | each invoice is in exactly the group of its status and of its type, in original order, and keys are distinct |
| InvoiceStore.ByStatus | frontend/src/stores/invoiceStore.ts:21-30 | the invoices grouped by status; stated by `GroupingsFacts` |
| InvoiceStore.ByType | frontend/src/stores/invoiceStore.ts:32-41 | the invoices grouped by type; stated by `GroupingsFacts` |
| InvoiceStore.OneBucket | frontend/src/stores/invoiceStore.ts:43-56 | an invoice counts as outstanding, paid or neither, exactly one of them |
| InvoiceStore.TotalsPartition | frontend/src/stores/invoiceStore.ts:43-56 | outstanding + paid + the rest is the sum of all totals |
| InvoiceStore.Outstanding | frontend/src/stores/invoiceStore.ts:43-50 | the sum over 'SENT' and 'DRAFT' invoices; stated by `TotalsPartition` |
| InvoiceStore.Paid | frontend/src/stores/invoiceStore.ts:52-56 | the sum over 'PAID' invoices; stated by `TotalsPartition` |
| InvoiceStore.Store.constructor | frontend/src/stores/invoiceStore.ts:14-18 | no invoices, not loading, no error |
| InvoiceStore.Store.InvoicesByStatus | frontend/src/stores/invoiceStore.ts:21-30 | the getter over the store's list; stated by `GroupingsFacts` |
| InvoiceStore.Store.InvoicesByType | frontend/src/stores/invoiceStore.ts:32-41 | the getter over the store's list; stated by `GroupingsFacts` |
| InvoiceStore.Store.TotalOutstanding | frontend/src/stores/invoiceStore.ts:43-50 | the getter over the store's list; stated by `TotalsPartition` |
| InvoiceStore.Store.TotalPaid | frontend/src/stores/invoiceStore.ts:52-56 | the getter over the store's list; stated by `TotalsPartition` |
| InvoiceStore.Store.FetchInvoices | frontend/src/stores/invoiceStore.ts:60-85 | success replaces the list wholesale; failure keeps it and records the error |
| InvoiceStore.Store.SyncFromXero | frontend/src/stores/invoiceStore.ts:87-129 | no token: throws with the list unchanged; success replaces the list with the reply |
| InvoiceStore.Store.GetInvoiceById | frontend/src/stores/invoiceStore.ts:131-156 | returns the fetched invoice or records the error; the list is unchanged |
| InvoiceStore.Store.CreateInvoice | frontend/src/stores/invoiceStore.ts:158-199 | no token: throws with the list unchanged; success prepends the returned invoice |
| InvoiceStore.Store.UpdateInvoice | frontend/src/stores/invoiceStore.ts:201-247 | success replaces the first invoice with that id by the reply's invoice, changes no other entry, and leaves the list as it was if there is none |
| InvoiceStore.Store.DeleteInvoice | frontend/src/stores/invoiceStore.ts:249-291 | success removes every invoice with that id, keeping the others in order |
| InvoiceStore.Store.GetInvoiceTransactions | frontend/src/stores/invoiceStore.ts:293-321 | returns the links or records the error; the list is unchanged |
| InvoiceStore.Store.LinkTransactionToInvoice | frontend/src/stores/invoiceStore.ts:323-364 | no token: throws; otherwise returns the link or records the error; the list is unchanged |
| InvoiceStore.Store.UnlinkTransactionFromInvoice | frontend/src/stores/invoiceStore.ts:366-413 | no token: throws; otherwise returns true or records the error; the list is unchanged |
| InvoiceStore.Store.GetTransactionInvoices | frontend/src/stores/invoiceStore.ts:415-441 | returns the invoices or records the error; the list is unchanged |
| InvoiceStore.Store.ClearError | frontend/src/stores/invoiceStore.ts:443-445 | error becomes null and nothing else changes |
| AuthStore.FailureText | frontend/src/stores/authStore.ts:38-75 | no error exactly on acceptance; otherwise a non-empty text: the server's or the error's message when truthy, else the fixed text for the kind of failure |
| AuthStore.StatusTextsDistinct | frontend/src/stores/authStore.ts:59-61 | different HTTP statuses give different texts |
| AuthStore.SessionStorage.constructor | frontend/src/stores/authStore.ts:97 | storage starts empty |
| AuthStore.Store.constructor | frontend/src/stores/authStore.ts:7-12 | not authenticated, no token, not loading, no error |
| AuthStore.Store.ValidateToken | frontend/src/stores/authStore.ts:21-79 | valid exactly on acceptance, then authenticated with that token; otherwise unauthenticated with no token and the failure text; loading ends false |
| AuthStore.Store.SetToken | frontend/src/stores/authStore.ts:82-86 | token set, authenticated, no error |
| AuthStore.Store.ClearAuth | frontend/src/stores/authStore.ts:89-93 | no token, not authenticated, no error |
| AuthStore.Store.CheckExistingToken | frontend/src/stores/authStore.ts:96-114 | true exactly when a truthy stored token is accepted, which keeps it; otherwise no token and not authenticated; a rejected token is removed from storage |
| AuthStore.Store.Logout | frontend/src/stores/authStore.ts:117-120 | the stored token is removed; no token, not authenticated, no error; loading unchanged |
| AuthStore.Store.ClearError | frontend/src/stores/authStore.ts:123-125 | error becomes null and nothing else changes |
| AuthStore.TokenValidIffPresent | frontend/src/stores/authStore.ts:15-16 | in every reachable state, `isTokenValid` holds exactly when `hasToken` does |
| AuthStore.Store.HasToken | frontend/src/stores/authStore.ts:15 | `!!token`; `TokenValidIffPresent` relates it to `isTokenValid` |
| AuthStore.Store.IsTokenValid | frontend/src/stores/authStore.ts:16 | authenticated with a truthy token; `TokenValidIffPresent` relates it to `hasToken` |
| CategoryStore.DefaultNamesDistinct | frontend/src/stores/categoryStore.ts:30 | fallback names of different ids differ |
| CategoryStore.CategoryName | frontend/src/stores/categoryStore.ts:25-31 | the first category with that id decides: its name when non-empty, else `Category <id>`; `Category <id>` when none matches |
| CategoryStore.Store.GetCategoryName | frontend/src/stores/categoryStore.ts:25-31 | the getter over the store's categories; stated by `CategoryName` |
| CategoryStore.Store.constructor | frontend/src/stores/categoryStore.ts:18-22 | no categories, not loading, no error |
| CategoryStore.Store.FetchCategories | frontend/src/stores/categoryStore.ts:35-60 | success replaces the categories; failure keeps them and records the error; loading ends false |
| CategoryStore.Store.ClearError | frontend/src/stores/categoryStore.ts:62-64 | error becomes null and nothing else changes |
| CategoryUtils.LookupOr | frontend/src/utils/categoryUtils.ts:19-21 | the table's entry when present and non-empty, else the default |
| CategoryUtils.BadgeClass | frontend/src/utils/categoryUtils.ts:6-22 | never empty; `ListedNames` and `UnlistedNames` give its value |
| CategoryUtils.DotClass | frontend/src/utils/categoryUtils.ts:29-43 | never empty; `ListedNames` and `UnlistedNames` give its value |
| CategoryUtils.ChartColor | frontend/src/utils/categoryUtils.ts:50-64 | never empty; `ListedNames` and `UnlistedNames` give its value |
| CategoryUtils.TablesAgree | frontend/src/utils/categoryUtils.ts:6-64 | the three tables list the same ten names, each with a non-empty value |
| CategoryUtils.ListedNames | frontend/src/utils/categoryUtils.ts:6-64 | a listed name gets its listed badge class, dot class and colour |
| CategoryUtils.UnlistedNames | frontend/src/utils/categoryUtils.ts:19-63 | any other name gets the gray defaults |
| CategoryUtils.OtherIsDefault | frontend/src/utils/categoryUtils.ts:17-63 | 'Other' gets the default value in all three |
| CategoryUtils.LowerCaseIsDefault | frontend/src/utils/categoryUtils.ts:19-21 | lookup is case-sensitive: 'food & dining' gets the defaults |
| CategoryUtils.ChartColorsDistinct | frontend/src/utils/categoryUtils.ts:51-62 | listed names have distinct chart colours |
| MathUtils.TotalAppend | frontend/src/utils/mathUtils.ts:17-19 | the total adds over concatenation |
| MathUtils.Total | frontend/src/utils/mathUtils.ts:17-19 | the `reduce` sum; stated by `TotalAppend` and `TotalBounds` |
| MathUtils.TotalBounds | frontend/src/utils/mathUtils.ts:17-19 | the total of n values within [lo, hi] is within [n·lo, n·hi] |
| MathUtils.Average | frontend/src/utils/mathUtils.ts:26-29 | 0 for an empty list; otherwise average × length = total |
| MathUtils.AverageBounds | frontend/src/utils/mathUtils.ts:26-29 | when every value lies within [lo, hi], so does the average |
| MathUtils.Tenths | frontend/src/utils/mathUtils.ts:9 | the magnitude rounded to tenths |
| MathUtils.ToFixed1 | frontend/src/utils/mathUtils.ts:9 | one digit after '.', and a leading '-' exactly for a negative value |
| MathUtils.ToFixed1Value | frontend/src/utils/mathUtils.ts:9 | the digits read back as the magnitude rounded to tenths |
| MathUtils.Percentage | frontend/src/utils/mathUtils.ts:7-10 | a zero total gives '0.0' |
| MathUtils.PercentageSymmetric | frontend/src/utils/mathUtils.ts:9 | the sign of the value does not matter |
| MathUtils.ShareSign | frontend/src/utils/mathUtils.ts:9 | a non-negative share of a total is negative exactly when it is non-zero and the total is negative |
| MathUtils.PercentageValue | frontend/src/utils/mathUtils.ts:9 | the text is \|v\|/t·100 to one place, negative exactly when v ≠ 0 and t < 0 |
| AmountFormat.TwoDigits | frontend/src/utils/formatAmount.ts:9 | two digits, zero-padded |
| AmountFormat.FormatAmount | frontend/src/utils/formatAmount.ts:8-10 | digits, '.', exactly two digits; never '-' or ',' |
| AmountFormat.FormatAmountSymmetric | frontend/src/utils/formatAmount.ts:9 | formatAmount(-x) = formatAmount(x) |
| AmountFormat.TwoDigitsValue | frontend/src/utils/formatAmount.ts:9 | the padded digits read back as the number |
| AmountFormat.FormatAmountValue | frontend/src/utils/formatAmount.ts:9 | the text reads back as the absolute amount in cents |
| AmountFormat.FormatAmountZero | frontend/src/utils/formatAmount.ts:9 | zero formats as '0.00' |
| AmountFormat.GroupedAmount | frontend/src/utils/formatAmount.ts:18-29 | formatNumber of the amount groups the whole units and keeps the cents |
| AmountFormat.CurrencyText | frontend/src/utils/formatAmount.ts:18-20 | the symbol ('$' by default) followed by the amount, once commas are removed |
| AmountFormat.CADText | frontend/src/utils/formatAmount.ts:27-29 | the amount followed by ' CAD', once commas are removed |
| AmountFormat.FormatCurrency | frontend/src/utils/formatAmount.ts:18-20 | the symbol and the grouped amount; stated by `CurrencyText` and `GroupedAmount` |
| AmountFormat.FormatCAD | frontend/src/utils/formatAmount.ts:27-29 | the grouped amount and ' CAD'; stated by `CADText` and `GroupedAmount` |
| NumberFormat.RunLength | frontend/src/utils/formatNumber.ts:20 | the digit run from i stays within the text |
| NumberFormat.RunLengthFacts | frontend/src/utils/formatNumber.ts:20 | the run is all digits and ends at a non-digit or the end |
| NumberFormat.RunLengthUnique | frontend/src/utils/formatNumber.ts:20 | any maximal digit run from i is the run |
| NumberFormat.CommaAtMatchesRegex | frontend/src/utils/formatNumber.ts:20 | the regex `\B(?=(\d{3})+(?!\d))` matches at i exactly where a comma is inserted |
| NumberFormat.GroupFrom | frontend/src/utils/formatNumber.ts:20 | grouping never drops characters |
| NumberFormat.Group | frontend/src/utils/formatNumber.ts:20 | empty exactly for an empty text; a comma never leads |
| NumberFormat.StripCommasAppend | frontend/src/utils/formatNumber.ts:20 | removing commas distributes over concatenation |
| NumberFormat.StripCommasNone | frontend/src/utils/formatNumber.ts:20 | a text without commas is unchanged |
| NumberFormat.GroupFromStrip | frontend/src/utils/formatNumber.ts:20 | removing the inserted commas gives the input back |
| NumberFormat.RunLengthDigits | frontend/src/utils/formatNumber.ts:20 | in a digit string the run reaches the end |
| NumberFormat.CommaPositions | frontend/src/utils/formatNumber.ts:20 | in a digit string a comma precedes position i exactly when 0 < i and (length − i) is a multiple of 3 |
| NumberFormat.NoCommasFrom | frontend/src/utils/formatNumber.ts:20 | with no insertion point, grouping is the identity |
| NumberFormat.ShortIntegerUnchanged | frontend/src/utils/formatNumber.ts:20 | up to three digits are unchanged |
| NumberFormat.UpToDot | frontend/src/utils/formatNumber.ts:17 | the prefix before the first '.' |
| NumberFormat.SplitDot | frontend/src/utils/formatNumber.ts:17 | the integer part has no '.'; the fraction is present exactly when the text has a '.', and is the text up to the next '.' |
| NumberFormat.FormatNumber | frontend/src/utils/formatNumber.ts:6-34 | null or undefined gives '0' |
| NumberFormat.SignKept | frontend/src/utils/formatNumber.ts:13-31 | the result starts with '-' exactly when the input does |
| NumberFormat.SplitDotWhole | frontend/src/utils/formatNumber.ts:17 | with at most one '.', the split keeps everything |
| NumberFormat.StripUnsigned | frontend/src/utils/formatNumber.ts:17-26 | with no comma and at most one '.', removing commas from the unsigned result gives the input |
| NumberFormat.StripCommasRoundTrip | frontend/src/utils/formatNumber.ts:10-33 | with no comma and at most one '.', removing commas from the result gives the input back |
| NumberFormat.SplitWithFraction | frontend/src/utils/formatNumber.ts:13-17 | a text with a fraction splits into its integer and fraction parts |
| NumberFormat.FractionKept | frontend/src/utils/formatNumber.ts:17-26 | the part after '.' is copied unchanged after the formatted integer part |
| NumberFormat.DigitsFormatted | frontend/src/utils/formatNumber.ts:13-31 | a digit string, signed or not, is grouped with its sign kept |
| Strings.NatToString | frontend/src/stores/categoryStore.ts:30 | decimal digits with no leading zero |
| Strings.ParseNatToString | frontend/src/stores/categoryStore.ts:30 | the decimal text reads back as the number |
| Strings.IntToString | frontend/src/stores/categoryStore.ts:30 | a leading '-' exactly for a negative number |
| Strings.IntToStringInjective | frontend/src/stores/categoryStore.ts:30 | different numbers have different texts |
| Strings.OrElse | frontend/src/stores/transactionStore.ts:57 | `s \|\| d`: s when non-empty, else d |
| Strings.OrNull | backend/app/services/invoice_service.ts:212 | `s \|\| null`: null exactly when s is absent or empty |

## Left out

- Floating point. Amounts and rates are exact reals. `Math.round`, `toFixed`
  and `parseFloat` are modelled on exact values: rounding is half up (half
  away from zero for `toFixed`), with no binary rounding error and no
  exponent notation. `parseFloat(amount)` and `parseInt(category_id)` in
  the transactions controller's `store` are not modelled.
- The amount formatters take an integer number of cents, as the absolute
  value after `toFixed(2)`. `formatNumber` takes the text of its argument;
  JavaScript's number-to-text conversion is not part of this model.
- I/O is passed in as parameters: HTTP replies (axios in the stores, `fetch`
  in the currency service), the session-storage token, the Xero feed, and
  the current time (the creation time of an invoice).
  `new Date(date)` validity in the currency service is a boolean input.
  The `setTimeout` delays are not modelled.
- Dates are opaque strings; luxon's `fromISO` and `toISODate` are the
  identity. Invoice and link `updatedAt`, and link `createdAt`, are not
  modelled.
- The invoice field `type` is named `invoiceType` in the model, because
  `type` is a Dafny keyword.
- TransactionService.CreateTransaction: the `amount` column is
  `decimal(10,2)`. PostgreSQL rounds a stored amount to two places and
  rejects one of 10^8 or more in magnitude; the model stores the amount as
  given, so the balances it sums are the unrounded amounts.
- InvoiceService.NewInvoiceFields: the same `decimal(10,2)` rounding and
  overflow of `sub_total`, `tax_amount` and `total_amount` are not
  modelled, nor the length limits of the `varchar` columns (3 for
  `currency`, 255 for the others). The same holds for
  `InvoiceService.ApplyUpdate`, for `InvoiceService.Upsert` on the sync
  path, and for the link `amount` in `InvoiceService.NewLink`.
- InvoiceService.CreateInvoiceData and InvoiceService.UpdateInvoiceData:
  `status` and `type` are plain string columns, and the controller passes
  the request body through unchecked, so the backend stores any string a
  client sends (for example 'SENT'). The model types these two fields with
  the `InvoiceStatus` and `InvoiceType` enums, so a row holding any other
  string is not representable in the backend model; the front-end stores
  keep status and type as strings and do handle such rows.
- Database errors other than the unique-key violations the model reports
  are not modelled. The unique-key error text in
  `InvoiceService.XeroIdTaken` stands for the driver's message. A failing
  sync keeps the rows it already processed, as the loop does; the error
  that rewraps the failure is not modelled.
- SQL returns rows with equal sort keys in an unspecified order. The model
  takes table order. For `getAllTransactions`, rows that
  `createTransaction` inserted have a null `created_at`; the model lists
  them first, as PostgreSQL does for a descending sort.
- `getAllInvoices` and `getInvoiceByXeroId` in the invoice service are not
  modelled. They are plain reads with no rule to state.
  `InvoicesController.Index` takes their result as a parameter.
- `fetchFullInvoiceById` and `fetchAllFullInvoices` in the Xero service are
  stubs that return null and an empty list. They are not modelled.
  `fetchInvoices` returns a copy of the feed; values have no aliasing.
- `Grouping.GroupBy` keys groups in first-appearance order. JavaScript
  enumerates integer-like keys of an object ascending first; that order is
  not modelled.
- The category lookup tables in `categoryUtils.ts` are exact maps.
  Inherited prototype keys such as 'constructor' are not modelled.
- XeroService.ConvertStatus: `statusMap` is a plain object, so an inherited
  key such as 'constructor' or 'toString' yields an `Object.prototype`
  member rather than DRAFT. The model treats every string outside the six
  names as absent, so its "any other string is DRAFT" holds only for
  strings that are not inherited property names.
- TransactionStore.ByCategory: the JavaScript `reduce` throws when a label
  is an inherited property name such as 'constructor', because
  `acc[label]` is then a function without `push`. The model, through
  `Grouping.GroupBy`, groups such a label like any other; the same holds
  for `InvoiceStore.ByStatus` and `InvoiceStore.ByType` on a status or
  type with such a name.
- The stores model the final state of each action. The intermediate state
  (loading true, error cleared) visible while a request is pending is not
  modelled.
- A thrown `null` or `undefined` in the invoices controller would make
  `error.message` itself throw. `InvoicesController.MessageOf` treats it as
  an absent message.
- Authentication middleware, the category service and controller,
  `formatDate.ts`, routes, swagger and the ORM models are not part of this
  model.
- XeroService.FetchInvoicesByStatus: states membership and multiplicity; feed order is stated separately by `XeroService.FiltersKeepOrder` rather than in its own contract.

=== FILE: api_reply.dfy ===
/** What a store action gets back from an awaited axios call, and the
    try/catch pattern every action shares: a reply whose `success` is false
    is turned into a thrown `Error`, and the catch block records the error
    text and rethrows. */
module ApiReply {
  import opened Wrappers
  import opened Strings

  /** `response.data`: the backend envelope. */
  datatype Body<T> = Body(success: bool, message: Option<string>, data: T)

  /** The awaited call: a reply, or a rejection with the thrown value. */
  datatype Call<T> = Answered(body: Body<T>) | Rejected(thrown: Thrown)

  /** How an action ends: it resolves with a value or rethrows. */
  datatype Settled<T> = Resolved(value: T) | Raised(thrown: Thrown)

  /** What the try block yields: the reply's data, or the value the catch
      block sees together with the error text it records. */
  datatype Step<T> = Done(value: T) | Failed(thrown: Thrown, text: string)

  const NoTokenMessage := "JWT token not found. Please authenticate first."

  /** The try/catch of an action whose fallback message is `fallback`. */
  function Settle<T>(call: Call<T>, fallback: string): (r: Step<T>)
    ensures r.Done? <==> call.Answered? && call.body.success
    ensures r.Done? ==> r.value == call.body.data
    ensures call.Answered? && !call.body.success ==>
      r == Failed(ErrorValue(OrElse(call.body.message, fallback)), OrElse(call.body.message, fallback))
    ensures call.Rejected? && call.thrown.ErrorValue? ==> r == Failed(call.thrown, call.thrown.message)
    ensures call.Rejected? && call.thrown.NonError? ==> r == Failed(NonError, fallback)
  {
    match call
    case Answered(b) =>
      if b.success then Done(b.data)
      else
        var m := OrElse(b.message, fallback);
        Failed(ErrorValue(m), m)
    case Rejected(t) =>
      Failed(t, if t.ErrorValue? then t.message else fallback)
  }

  /** The recorded error text is never empty as long as the fallback is not:
      an empty message from the server falls back too. */
  lemma SettleTextNonEmpty<T>(call: Call<T>, fallback: string)
    requires fallback != "" && Settle(call, fallback).Failed?
    requires call.Rejected? && call.thrown.ErrorValue? ==> call.thrown.message != ""
    ensures Settle(call, fallback).text != ""
  {
  }
}

=== FILE: auth_store.dfy ===
/** The front-end authentication store: the validated token, the two
    getters over it, token validation against the backend, and the copy of
    the token kept in the browser's session storage. */
module AuthStore {
  import opened Wrappers
  import opened Strings

  /** The session-storage key the token is kept under. */
  const TokenKey := "jwt_token"

  const ValidationFailed := "Token validation failed"
  const Unreachable := "Unable to reach the server. Please check your connection."
  const Unexpected := "An unexpected error occurred"

  /** How the validation request ends: the server answers with a success
      flag (2xx), answers with an error status, never answers, or the call
      fails for another reason; the messages are what the reply or the error
      carries. */
  datatype ValidateReply =
    | Replied(success: bool, message: Option<string>)
    | ErrorStatus(status: int, message: Option<string>)
    | NoResponse
    | OtherFailure(message: Option<string>)

  predicate Accepted(reply: ValidateReply) {
    reply.Replied? && reply.success
  }

  /** The error recorded by `validateToken`: none when the token is
      accepted; otherwise the message the server or the error gives when it
      is truthy, and a fixed text chosen by the way the request failed. */
  function FailureText(reply: ValidateReply): (r: Option<string>)
    ensures r.None? <==> Accepted(reply)
    ensures r.Some? ==> r.value != ""
    ensures r.Some? && !reply.NoResponse? && Truthy(reply.message) ==> r == reply.message
    ensures reply.NoResponse? ==> r == Some(Unreachable)
    ensures reply.Replied? && !reply.success && !Truthy(reply.message) ==> r == Some(ValidationFailed)
    ensures reply.OtherFailure? && !Truthy(reply.message) ==> r == Some(Unexpected)
    ensures reply.ErrorStatus? && !Truthy(reply.message) ==>
      r == Some("Validation failed (" + IntToString(reply.status) + ")")
  {
    match reply
    case Replied(success, message) =>
      if success then None else Some(OrElse(message, ValidationFailed))
    case ErrorStatus(status, message) =>
      Some(OrElse(message, "Validation failed (" + IntToString(status) + ")"))
    case NoResponse => Some(Unreachable)
    case OtherFailure(message) => Some(OrElse(message, Unexpected))
  }

  /** Two error statuses without a message are reported differently. */
  lemma StatusTextsDistinct(a: int, b: int)
    requires a != b
    ensures FailureText(ErrorStatus(a, None)) != FailureText(ErrorStatus(b, None))
  {
    var pa, pb := "Validation failed (" + IntToString(a), "Validation failed (" + IntToString(b);
    if FailureText(ErrorStatus(a, None)) == FailureText(ErrorStatus(b, None)) {
      var p := "Validation failed (";
      assert pa + ")" == pb + ")";
      assert pa == (pa + ")")[..|pa + ")"| - 1] == (pb + ")")[..|pb + ")"| - 1] == pb;
      assert IntToString(a) == pa[|p|..] == pb[|p|..] == IntToString(b);
      IntToStringInjective(a, b);
    }
  }

  /** What `validateToken` resolves with. */
  datatype Validation = Validation(isValid: bool, error: Option<string>)

  /** The browser's `sessionStorage`. */
  class SessionStorage {
    var items: map<string, string>

    constructor ()
      ensures items == map[]
    {
      items := map[];
    }

    /** `getItem`: null when the key is absent. */
    function Get(key: string): Option<string>
      reads this
    {
      if key in items then Some(items[key]) else None
    }
  }

  class Store {
    var isAuthenticated: bool
    var token: Option<string>
    var loading: bool
    var error: Option<string>

    /** The store is authenticated exactly when it holds a token. */
    predicate Valid()
      reads this
    {
      isAuthenticated <==> token.Some?
    }

    constructor ()
      ensures Valid() && !isAuthenticated && token == None && !loading && error == None
    {
      isAuthenticated := false;
      token := None;
      loading := false;
      error := None;
    }

    /** `hasToken`. */
    predicate HasToken()
      reads this
    {
      Truthy(token)
    }

    /** `isTokenValid`. */
    predicate IsTokenValid()
      reads this
    {
      isAuthenticated && Truthy(token)
    }

    /** `validateToken`: the store takes the token exactly when the server
        accepts it, and otherwise drops any token it had; the error it
        records is also what it resolves with. */
    method ValidateToken(candidate: string, reply: ValidateReply) returns (r: Validation)
      modifies this
      ensures Valid() && !loading
      ensures r.isValid <==> Accepted(reply)
      ensures r.error == error == FailureText(reply)
      ensures r.isValid ==> isAuthenticated && token == Some(candidate)
      ensures !r.isValid ==> !isAuthenticated && token == None
    {
      loading := true;
      error := None;
      match reply {
        case Replied(success, message) =>
          if success {
            isAuthenticated := true;
            token := Some(candidate);
            error := None;
            r := Validation(true, None);
          } else {
            isAuthenticated := false;
            token := None;
            error := Some(OrElse(message, ValidationFailed));
            r := Validation(false, Some(OrElse(error, ValidationFailed)));
          }
        case ErrorStatus(status, message) =>
          isAuthenticated := false;
          token := None;
          error := Some(OrElse(message, "Validation failed (" + IntToString(status) + ")"));
          r := Validation(false, Some(OrElse(error, Unexpected)));
        case NoResponse =>
          isAuthenticated := false;
          token := None;
          error := Some(Unreachable);
          r := Validation(false, Some(OrElse(error, Unexpected)));
        case OtherFailure(message) =>
          isAuthenticated := false;
          token := None;
          error := Some(OrElse(message, Unexpected));
          r := Validation(false, Some(OrElse(error, Unexpected)));
      }
      loading := false;
    }

    /** `setToken`. */
    method SetToken(t: string)
      modifies this
      ensures Valid() && IsTokenValid() == (t != "")
      ensures token == Some(t) && isAuthenticated && error == None && loading == old(loading)
    {
      token := Some(t);
      isAuthenticated := true;
      error := None;
    }

    /** `clearAuth`. */
    method ClearAuth()
      modifies this
      ensures Valid() && !HasToken() && !IsTokenValid()
      ensures token == None && !isAuthenticated && error == None && loading == old(loading)
    {
      token := None;
      isAuthenticated := false;
      error := None;
    }

    /** `checkExistingToken`: resolves with true exactly when the store ends
        with a valid token; a stored token the server refuses is removed
        from session storage, and one it accepts is kept. */
    method CheckExistingToken(storage: SessionStorage, reply: ValidateReply) returns (r: bool)
      modifies this, storage
      ensures Valid() && r == IsTokenValid()
      ensures r <==> Truthy(old(storage.Get(TokenKey))) && Accepted(reply)
      ensures r ==> storage.items == old(storage.items) && token == old(storage.Get(TokenKey))
      ensures !r ==> token == None && !isAuthenticated
      ensures !Truthy(old(storage.Get(TokenKey))) ==>
        storage.items == old(storage.items) && error == None && loading == old(loading)
      ensures Truthy(old(storage.Get(TokenKey))) ==> error == FailureText(reply) && !loading
      ensures Truthy(old(storage.Get(TokenKey))) && !r ==> storage.items == old(storage.items) - {TokenKey}
    {
      var stored := storage.Get(TokenKey);
      if !Truthy(stored) {
        ClearAuth();
        return false;
      }
      var result := ValidateToken(stored.value, reply);
      if result.isValid {
        storage.items := storage.items[TokenKey := stored.value];
        return true;
      } else {
        storage.items := storage.items - {TokenKey};
        return false;
      }
    }

    /** `logout`. */
    method Logout(storage: SessionStorage)
      modifies this, storage
      ensures Valid() && !IsTokenValid() && error == None
      ensures token == None && !isAuthenticated && loading == old(loading)
      ensures storage.items == old(storage.items) - {TokenKey}
    {
      storage.items := storage.items - {TokenKey};
      ClearAuth();
    }

    method ClearError()
      modifies this
      ensures error == None && unchanged(this`token, this`isAuthenticated, this`loading)
    {
      error := None;
    }
  }

  /** Whenever the store is consistent, `isTokenValid` and `hasToken`
      agree. */
  lemma TokenValidIffPresent(s: Store)
    requires s.Valid()
    ensures s.IsTokenValid() <==> s.HasToken()
  {
  }
}

=== FILE: category_store.dfy ===
/** The front-end category store: the fetched categories and the display
    name of a category id. */
module CategoryStore {
  import opened Wrappers
  import opened Strings
  import opened Seqs
  import opened ApiReply

  datatype Category = Category(id: int, name: string)

  function IdIs(id: int): Category -> bool {
    (c: Category) => c.id == id
  }

  /** The label shown for a category without a usable name. */
  function DefaultName(id: int): string {
    "Category " + IntToString(id)
  }

  /** Different ids get different default labels. */
  lemma DefaultNamesDistinct(a: int, b: int)
    requires a != b
    ensures DefaultName(a) != DefaultName(b)
  {
    var p := "Category ";
    if DefaultName(a) == DefaultName(b) {
      assert IntToString(a) == DefaultName(a)[|p|..] == DefaultName(b)[|p|..] == IntToString(b);
      IntToStringInjective(a, b);
    }
  }

  /** `getCategoryName`: the name of the first category with that id when
      the name is not empty, and the default label otherwise. */
  function CategoryName(cats: seq<Category>, id: int): (r: string)
    ensures r != ""
    ensures forall j ::
      (0 <= j < |cats| && cats[j].id == id && forall i :: 0 <= i < j ==> cats[i].id != id)
      ==> r == (if cats[j].name != "" then cats[j].name else DefaultName(id))
    ensures (forall j :: 0 <= j < |cats| ==> cats[j].id != id) ==> r == DefaultName(id)
  {
    match FindIndex(cats, IdIs(id))
    case None => DefaultName(id)
    case Some(k) => if cats[k].name != "" then cats[k].name else DefaultName(id)
  }

  class Store {
    var categories: seq<Category>
    var loading: bool
    var error: Option<string>

    constructor ()
      ensures categories == [] && !loading && error == None
    {
      categories := [];
      loading := false;
      error := None;
    }

    function GetCategoryName(id: int): string
      reads this
    {
      CategoryName(categories, id)
    }

    /** `fetchCategories`: the list is replaced by the reply's data. */
    method FetchCategories(call: Call<seq<Category>>) returns (r: Settled<()>)
      modifies this
      ensures !loading
      ensures match Settle(call, "Failed to fetch categories")
        case Done(v) => categories == v && error == None && r == Resolved(())
        case Failed(t, text) => categories == old(categories) && error == Some(text) && r == Raised(t)
    {
      loading := true;
      error := None;
      match Settle(call, "Failed to fetch categories") {
        case Done(v) =>
          categories := v;
          r := Resolved(());
        case Failed(t, text) =>
          error := Some(text);
          r := Raised(t);
      }
      loading := false;
    }

    method ClearError()
      modifies this
      ensures error == None && categories == old(categories) && loading == old(loading)
    {
      error := None;
    }
  }
}

=== FILE: category_utils.dfy ===
/** The colour tables for category names: badge classes, dot classes and
    chart colours, each with a gray default for names not in the table. */
module CategoryUtils {
  import opened Wrappers
  import opened Strings

  /** The ten category names the tables know. */
  const Listed: set<string> := {
    "Food & Dining", "Transportation", "Shopping", "Entertainment", "Bills & Utilities",
    "Healthcare", "Education", "Travel", "Housing", "Other"}

  const DefaultBadge := "bg-gray-100 text-gray-800"
  const DefaultDot := "bg-gray-500"
  const DefaultChart := "#6b7280"

  const BadgeClasses: map<string, string> := map[
    "Food & Dining" := "bg-red-100 text-red-800",
    "Transportation" := "bg-blue-100 text-blue-800",
    "Shopping" := "bg-purple-100 text-purple-800",
    "Entertainment" := "bg-green-100 text-green-800",
    "Bills & Utilities" := "bg-yellow-100 text-yellow-800",
    "Healthcare" := "bg-pink-100 text-pink-800",
    "Education" := "bg-indigo-100 text-indigo-800",
    "Travel" := "bg-orange-100 text-orange-800",
    "Housing" := "bg-cyan-100 text-cyan-800",
    "Other" := "bg-gray-100 text-gray-800"]

  const DotClasses: map<string, string> := map[
    "Food & Dining" := "bg-red-500",
    "Transportation" := "bg-blue-500",
    "Shopping" := "bg-purple-500",
    "Entertainment" := "bg-green-500",
    "Bills & Utilities" := "bg-yellow-500",
    "Healthcare" := "bg-pink-500",
    "Education" := "bg-indigo-500",
    "Travel" := "bg-orange-500",
    "Housing" := "bg-cyan-500",
    "Other" := "bg-gray-500"]

  const ChartColors: map<string, string> := map[
    "Food & Dining" := "#ef4444",
    "Transportation" := "#3b82f6",
    "Shopping" := "#8b5cf6",
    "Entertainment" := "#10b981",
    "Bills & Utilities" := "#eab308",
    "Healthcare" := "#ec4899",
    "Education" := "#6366f1",
    "Travel" := "#f97316",
    "Housing" := "#06b6d4",
    "Other" := "#6b7280"]

  /** `table[name] || fallback`: the exact, case-sensitive entry when it is
      there and non-empty, the fallback otherwise. */
  function LookupOr(table: map<string, string>, name: string, fallback: string): (r: string)
    ensures name in table && table[name] != "" ==> r == table[name]
    ensures name !in table || table[name] == "" ==> r == fallback
  {
    OrElse(if name in table then Some(table[name]) else None, fallback)
  }

  /** `getCategoryBadgeClass`. */
  function BadgeClass(category: string): (r: string)
    ensures r != ""
  {
    LookupOr(BadgeClasses, category, DefaultBadge)
  }

  /** `getCategoryColorClass`. */
  function DotClass(category: string): (r: string)
    ensures r != ""
  {
    LookupOr(DotClasses, category, DefaultDot)
  }

  /** `getChartColor`. */
  function ChartColor(category: string): (r: string)
    ensures r != ""
  {
    LookupOr(ChartColors, category, DefaultChart)
  }

  /** The three tables list the same ten names, each with a non-empty
      entry. */
  lemma TablesAgree()
    ensures BadgeClasses.Keys == DotClasses.Keys == ChartColors.Keys == Listed
    ensures forall c :: c in Listed ==> BadgeClasses[c] != "" && DotClasses[c] != "" && ChartColors[c] != ""
  {
  }

  /** A listed name gets its own entry in all three tables. */
  lemma ListedNames(category: string)
    requires category in Listed
    ensures BadgeClass(category) == BadgeClasses[category]
    ensures DotClass(category) == DotClasses[category]
    ensures ChartColor(category) == ChartColors[category]
  {
    TablesAgree();
  }

  /** Any other name gets the gray defaults. */
  lemma UnlistedNames(category: string)
    requires category !in Listed
    ensures BadgeClass(category) == DefaultBadge
    ensures DotClass(category) == DefaultDot
    ensures ChartColor(category) == DefaultChart
  {
    TablesAgree();
  }

  /** 'Other' looks exactly like an unknown name. */
  lemma OtherIsDefault()
    ensures BadgeClass("Other") == DefaultBadge
    ensures DotClass("Other") == DefaultDot
    ensures ChartColor("Other") == DefaultChart
  {
  }

  /** The lookup is case-sensitive. */
  lemma LowerCaseIsDefault()
    ensures BadgeClass("food & dining") == DefaultBadge
    ensures DotClass("food & dining") == DefaultDot
    ensures ChartColor("food & dining") == DefaultChart
  {
    assert "food & dining" !in Listed by {
      assert "food & dining"[0] != "Food & Dining"[0];
    }
    UnlistedNames("food & dining");
  }

  /** Different listed names get different chart colours. */
  lemma ChartColorsDistinct(a: string, b: string)
    requires a in Listed && b in Listed && a != b
    ensures ChartColor(a) != ChartColor(b)
  {
    ListedNames(a);
    ListedNames(b);
  }
}

=== FILE: currency_service.dfy ===
/** Conversion of a transaction amount to CAD with the historical rate of its
    date. The rate lookup is an input: what the rate service answered. */
module CurrencyService {
  import opened Wrappers
  import opened Strings

  /** The outcome of `fetch` for the rate URL. `rates` is None when the body is
      not JSON or has no `rates` object (reading `rates.CAD` then throws). */
  datatype RateResponse =
    | FetchFailed
    | Response(ok: bool, status: int, rates: Option<map<string, real>>)

  function Pow10(n: nat): (r: nat)
    ensures r >= 1
  {
    if n == 0 then 1 else 10 * Pow10(n - 1)
  }

  /** `10^decimals` as a real. */
  function Scale(decimals: nat): (f: real)
    ensures f >= 1.0
  {
    Pow10(decimals) as real
  }

  /** `x * 10^decimals`. */
  function Scaled(x: real, decimals: nat): real {
    x * Scale(decimals)
  }

  predicate IsWhole(x: real) {
    x.Floor as real == x
  }

  /** `x` has no more than `decimals` fractional digits. */
  predicate HasDecimals(x: real, decimals: nat) {
    IsWhole(Scaled(x, decimals))
  }

  /** `Math.round(value * 10^decimals) / 10^decimals`; `Math.round` takes the
      floor of `x + 0.5`, so halves round up. */
  function RoundTo(value: real, decimals: nat): (r: real)
    ensures HasDecimals(r, decimals)
    ensures Scaled(value, decimals) - 0.5 < Scaled(r, decimals) <= Scaled(value, decimals) + 0.5
  {
    var n := (Scaled(value, decimals) + 0.5).Floor;
    UnitsScaled(n, decimals);
    n as real / Scale(decimals)
  }

  lemma UnitsScaled(n: int, decimals: nat)
    ensures Scaled(n as real / Scale(decimals), decimals) == n as real
  {
    var f := Scale(decimals);
    var x := n as real / f;
    assert x * f == n as real;
  }

  /** Rounding an already rounded value changes nothing. */
  lemma RoundToIdempotent(value: real, decimals: nat)
    ensures RoundTo(RoundTo(value, decimals), decimals) == RoundTo(value, decimals)
  {
    var r := RoundTo(value, decimals);
    var m := Scaled(r, decimals).Floor;
    assert Scaled(r, decimals) == m as real;
    assert (Scaled(r, decimals) + 0.5).Floor == m;
    assert RoundTo(r, decimals) == m as real / Scale(decimals);
    DivBack(r, Scale(decimals), m as real);
  }

  lemma DivBack(r: real, f: real, m: real)
    requires f >= 1.0 && r * f == m
    ensures m / f == r
  {
  }

  /** The converted amount at `rate` CAD per unit, rounded to cents. */
  function ApplyRate(amount: real, rate: real): (r: real)
    ensures HasDecimals(r, 2)
    ensures amount * rate - 0.005 < r <= amount * rate + 0.005
  {
    RoundTo(amount * rate, 2)
  }

  /** CAD per unit of a currency quoted against EUR: `rates.CAD / rates[from]`. */
  function CrossRate(cadPerEur: real, fromPerEur: real): (r: real)
    requires fromPerEur != 0.0
    ensures r * fromPerEur == cadPerEur
  {
    cadPerEur / fromPerEur
  }

  /** The `try` block of `convertToCAD` after the skip rule: the converted
      value, or the message of the error it throws. `dateValid` says whether
      `new Date(date).toISOString()` succeeds. */
  function TryConvert(amount: real, fromCurrency: string, dateValid: bool, response: RateResponse): (r: Result<real, string>)
    ensures r.Ok? <==> dateValid && response.Response? && response.ok && response.rates.Some?
                       && RatesUsable(fromCurrency, response.rates.value)
    ensures r.Ok? ==> HasDecimals(r.value, 2)
  {
    if !dateValid then Err("Invalid time value")
    else match response
      case FetchFailed => Err("fetch failed")
      case Response(ok, status, rates) =>
        if !ok then Err("Exchange rate API error: " + IntToString(status))
        else if rates.None? then Err("Cannot read properties of undefined")
        else
          var rs := rates.value;
          if fromCurrency == "EUR" then
            if "CAD" !in rs || rs["CAD"] == 0.0 then Err("Rates not found for CAD")
            else Ok(ApplyRate(amount, rs["CAD"]))
          else if fromCurrency !in rs || rs[fromCurrency] == 0.0 || "CAD" !in rs || rs["CAD"] == 0.0 then
            Err("Rates not found for " + fromCurrency + " or CAD")
          else Ok(ApplyRate(amount, CrossRate(rs["CAD"], rs[fromCurrency])))
  }

  /** `convertToCAD`: CAD amounts and amounts that are not positive are
      returned as they are; any error in the lookup is caught and the original
      amount returned. */
  function ConvertToCAD(amount: real, fromCurrency: string, dateValid: bool, response: RateResponse): (r: real)
    ensures r == amount || HasDecimals(r, 2)
  {
    if fromCurrency == "CAD" || amount <= 0.0 then amount
    else match TryConvert(amount, fromCurrency, dateValid, response)
      case Ok(converted) => converted
      case Err(_) => amount
  }

  /** The skip rule: no lookup is made, so the answer does not matter. */
  lemma ConvertSkips(amount: real, fromCurrency: string, dateValid: bool, response: RateResponse)
    requires fromCurrency == "CAD" || amount <= 0.0
    ensures ConvertToCAD(amount, fromCurrency, dateValid, response) == amount
  {
  }

  /** The rates a successful lookup must provide for `fromCurrency`. */
  predicate RatesUsable(fromCurrency: string, rs: map<string, real>) {
    && "CAD" in rs && rs["CAD"] != 0.0
    && (fromCurrency != "EUR" ==> fromCurrency in rs && rs[fromCurrency] != 0.0)
  }

  /** Fail-open: an invalid date, a failed fetch, a non-ok status, a body
      without rates or a missing or zero rate all give back the amount. */
  lemma ConvertFailOpen(amount: real, fromCurrency: string, dateValid: bool, response: RateResponse)
    requires || !dateValid
             || response.FetchFailed?
             || (response.Response? && !response.ok)
             || (response.Response? && response.rates.None?)
             || (response.Response? && response.rates.Some? && !RatesUsable(fromCurrency, response.rates.value))
    ensures ConvertToCAD(amount, fromCurrency, dateValid, response) == amount
  {
  }

  /** A usable answer converts with `rates.CAD` for EUR and with the cross rate
      `rates.CAD / rates[from]` otherwise, rounded to cents. */
  lemma ConvertWithRates(amount: real, fromCurrency: string, status: int, rs: map<string, real>)
    requires fromCurrency != "CAD" && amount > 0.0 && RatesUsable(fromCurrency, rs)
    ensures ConvertToCAD(amount, fromCurrency, true, Response(true, status, Some(rs))) ==
      if fromCurrency == "EUR" then ApplyRate(amount, rs["CAD"])
      else ApplyRate(amount, CrossRate(rs["CAD"], rs[fromCurrency]))
  {

  }

  /** 100 USD at a cross rate of 1.3357 is 133.57 CAD. */
  lemma ConvertExample()
    ensures ConvertToCAD(100.0, "USD", true, Response(true, 200, Some(map["USD" := 1.0, "CAD" := 1.3357]))) == 133.57
  {
    assert (133.57 + 0.5).Floor == 134;
    assert (13357.0 + 0.5).Floor == 13357;
  }
}

=== FILE: envelope.dfy ===
/** The JSON envelope every controller answers with (`ApiResponse`), the
    status it is sent with, and what a service call can end in. */
module Envelope {
  import opened Wrappers

  /** `{ success, message?, data?, error? }`; an absent key is `None`. */
  datatype Body<T> = Body(success: bool, message: Option<string>, data: Option<T>, error: Option<string>)

  datatype Reply<T> = Reply(status: int, body: Body<T>)

  /** For replies that carry no `data`. */
  datatype NoData = NoData

  /** How the awaited service call ended. */
  datatype Outcome<T> = Returned(value: T) | Threw(thrown: Thrown)

  /** A service result whose error side is thrown as an `Error`. */
  function FromResult<T>(r: Result<T, string>): (o: Outcome<T>)
    ensures o.Returned? <==> r.Ok?
    ensures r.Ok? ==> o.value == r.value
    ensures r.Err? ==> o.thrown == ErrorValue(r.error)
  {
    match r
    case Ok(v) => Returned(v)
    case Err(e) => Threw(ErrorValue(e))
  }

  const OK := 200
  const CREATED := 201
  const BAD_REQUEST := 400
  const NOT_FOUND := 404
  const INTERNAL_SERVER_ERROR := 500

  function Success<T>(status: int, message: Option<string>, data: Option<T>): Reply<T> {
    Reply(status, Body(true, message, data, None))
  }

  function Failure<T>(status: int, message: string, error: Option<string>): Reply<T> {
    Reply(status, Body(false, Some(message), None, error))
  }

  /** A JSON request field: missing, a string or a number. */
  datatype Field = Missing | Text(text: string) | Number(number: real)

  /** JavaScript truthiness of a request field. */
  predicate FieldTruthy(f: Field) {
    match f
    case Missing => false
    case Text(s) => s != ""
    case Number(n) => n != 0.0
  }
}

=== FILE: format_amount.dfy ===
/** `formatAmount`, `formatCurrency` and `formatCAD`. Amounts are whole
    cents, so `Math.abs(amount).toFixed(2)` is exact: the absolute value in
    dollars, a '.', and two digits of cents. */
module AmountFormat {
  import opened Wrappers
  import opened Strings
  import opened NumberFormat

  function Abs(c: int): nat {
    if c < 0 then -c else c
  }

  /** Two digits, with a leading zero below ten. */
  function TwoDigits(n: nat): (r: string)
    requires n < 100
    ensures |r| == 2 && AllDigits(r)
  {
    [DigitChar(n / 10), DigitChar(n % 10)]
  }

  /** `formatAmount(amount)` for an amount of `cents` hundredths: digits, a
      '.', and exactly two more digits; never a '-'. */
  function FormatAmount(cents: int): (r: string)
    ensures |r| >= 4 && r[|r| - 3] == '.'
    ensures AllDigits(r[..|r| - 3]) && AllDigits(r[|r| - 2..])
    ensures '-' !in r && ',' !in r && AtMostOneDot(r)
  {
    var a := Abs(cents);
    var r := NatToString(a / 100) + "." + TwoDigits(a % 100);
    assert forall j :: 0 <= j < |r| && j != |r| - 3 ==> IsDigit(r[j]) by {
      forall j | 0 <= j < |r| && j != |r| - 3
        ensures IsDigit(r[j])
      {
        if j < |r| - 3 {
          assert r[j] == NatToString(a / 100)[j];
        } else {
          assert r[j] == TwoDigits(a % 100)[j - |r| + 2];
        }
      }
    }
    assert r[..|r| - 3] == NatToString(a / 100);
    assert r[|r| - 2..] == TwoDigits(a % 100);
    r
  }

  /** An amount and its negation format alike. */
  lemma FormatAmountSymmetric(cents: int)
    ensures FormatAmount(-cents) == FormatAmount(cents)
  {
  }

  lemma TwoDigitsValue(n: nat)
    requires n < 100
    ensures ParseNat(TwoDigits(n)) == n
  {
    var t := TwoDigits(n);
    assert DigitValue(t[0]) == n / 10;
    assert DigitValue(t[1]) == n % 10;
    assert t[..1][..0] == [];
    assert ParseNat(t[..1]) == n / 10;
    assert t[..|t| - 1] == t[..1];
  }

  /** Reading the text back gives the absolute amount in cents. */
  lemma FormatAmountValue(cents: int)
    ensures var r := FormatAmount(cents);
      ParseNat(r[..|r| - 3]) * 100 + ParseNat(r[|r| - 2..]) == Abs(cents)
  {
    var a := Abs(cents);
    var r := FormatAmount(cents);
    assert r[..|r| - 3] == NatToString(a / 100);
    assert r[|r| - 2..] == TwoDigits(a % 100);
    ParseNatToString(a / 100);
    TwoDigitsValue(a % 100);
  }

  /** Zero is '0.00'. */
  lemma FormatAmountZero()
    ensures FormatAmount(0) == "0.00"
  {
    assert NatToString(0) == "0";
    assert TwoDigits(0) == "00";
  }

  /** `formatCurrency(amount, currency = '$')`: the symbol, then the grouped
      amount. */
  function FormatCurrency(cents: int, currency: Option<string>): string {
    currency.GetOr("$") + FormatNumber(Some(FormatAmount(cents)))
  }

  /** `formatCAD(amount)`: the grouped amount, then ' CAD'. */
  function FormatCAD(cents: int): string {
    FormatNumber(Some(FormatAmount(cents))) + " CAD"
  }

  /** The grouped amount: commas in the dollars only, the cents kept. */
  lemma GroupedAmount(cents: int)
    ensures var a := Abs(cents);
      FormatNumber(Some(FormatAmount(cents))) == Group(NatToString(a / 100)) + "." + TwoDigits(a % 100)
  {
    var a := Abs(cents);
    var dollars, fraction := NatToString(a / 100), TwoDigits(a % 100);
    assert '.' !in dollars by {
      forall j | 0 <= j < |dollars|
        ensures dollars[j] != '.'
      {
        assert IsDigit(dollars[j]);
      }
    }
    assert '.' !in fraction by {
      assert IsDigit(fraction[0]) && IsDigit(fraction[1]);
    }
    FractionKept(dollars, fraction);
    DigitsFormatted(dollars);
  }

  /** Deleting the separators from `formatCurrency` leaves the symbol
      (the default '$' when none is given) followed by `formatAmount`. */
  lemma CurrencyText(cents: int, currency: Option<string>)
    requires currency.Some? ==> ',' !in currency.value
    ensures StripCommas(FormatCurrency(cents, currency)) == currency.GetOr("$") + FormatAmount(cents)
    ensures currency.None? ==> FormatCurrency(cents, currency) == FormatCurrency(cents, Some("$"))
  {
    var c := currency.GetOr("$");
    assert ',' !in c;
    StripCommasRoundTrip(FormatAmount(cents));
    StripCommasAppend(c, FormatNumber(Some(FormatAmount(cents))));
    StripCommasNone(c);
  }

  /** Deleting the separators from `formatCAD` leaves `formatAmount`
      followed by ' CAD'. */
  lemma CADText(cents: int)
    ensures StripCommas(FormatCAD(cents)) == FormatAmount(cents) + " CAD"
  {
    StripCommasRoundTrip(FormatAmount(cents));
    StripCommasAppend(FormatNumber(Some(FormatAmount(cents))), " CAD");
    StripCommasNone(" CAD");
  }
}

=== FILE: format_number.dfy ===
/** `formatNumber`: thousands separators in the integer part of a number's
    text. The separator is inserted by a global replace of the pattern
    `\B(?=(\d{3})+(?!\d))` with ','; that pattern is modelled literally on
    arbitrary text and then shown to put a comma before every third digit
    counted from the right on digit strings. */
module NumberFormat {
  import opened Wrappers
  import opened Strings

  /** `\w`: ASCII letters, digits and '_'. */
  predicate IsWordChar(c: char) {
    'a' <= c <= 'z' || 'A' <= c <= 'Z' || IsDigit(c) || c == '_'
  }

  /** A word character at position `j`; positions outside the text are not. */
  predicate WordAt(s: string, j: int) {
    0 <= j < |s| && IsWordChar(s[j])
  }

  /** `\B` at the gap before position `i`. */
  predicate NotBoundary(s: string, i: int) {
    WordAt(s, i - 1) == WordAt(s, i)
  }

  /** `(?=(\d{3})+(?!\d))` at the gap before position `i`: one or more
      groups of three digits follow, and no further digit after them. */
  ghost predicate LookaheadAt(s: string, i: int)
    requires 0 <= i <= |s|
  {
    exists k :: 1 <= k && i + 3 * k <= |s| && AllDigits(s[i..i + 3 * k])
      && (i + 3 * k == |s| || !IsDigit(s[i + 3 * k]))
  }

  /** The pattern matches (an empty match) at the gap before `i`. */
  ghost predicate RegexMatchAt(s: string, i: int)
    requires 0 <= i <= |s|
  {
    NotBoundary(s, i) && LookaheadAt(s, i)
  }

  /** The length of the run of digits starting at `i`. */
  function RunLength(s: string, i: int): (n: nat)
    requires 0 <= i <= |s|
    ensures i + n <= |s|
    decreases |s| - i
  {
    if i == |s| || !IsDigit(s[i]) then 0 else 1 + RunLength(s, i + 1)
  }

  /** The run is all digits and stops at the end or at a non-digit. */
  lemma {:induction false} RunLengthFacts(s: string, i: int)
    requires 0 <= i <= |s|
    ensures forall j :: i <= j < i + RunLength(s, i) ==> IsDigit(s[j])
    ensures i + RunLength(s, i) == |s| || !IsDigit(s[i + RunLength(s, i)])
    decreases |s| - i
  {
    if i < |s| && IsDigit(s[i]) {
      RunLengthFacts(s, i + 1);
    }
  }

  /** A run of digits is determined by where it starts. */
  lemma {:induction false} RunLengthUnique(s: string, i: int, n: nat)
    requires 0 <= i && i + n <= |s|
    requires forall j :: i <= j < i + n ==> IsDigit(s[j])
    requires i + n == |s| || !IsDigit(s[i + n])
    ensures RunLength(s, i) == n
    decreases n
  {
    if n > 0 {
      assert IsDigit(s[i]);
      RunLengthUnique(s, i + 1, n - 1);
    }
  }

  /** Whether a comma goes before position `i`: the character before it is
      a word character and the digit run from `i` is a positive multiple of
      three long. */
  predicate CommaAt(s: string, i: int)
    requires 0 <= i < |s|
  {
    0 < i && IsWordChar(s[i - 1]) && RunLength(s, i) >= 3 && RunLength(s, i) % 3 == 0
  }

  /** The comma test agrees with the pattern at every gap, including the
      one at the end of the text, where the pattern never matches. */
  lemma CommaAtMatchesRegex(s: string, i: int)
    requires 0 <= i <= |s|
    ensures RegexMatchAt(s, i) <==> i < |s| && CommaAt(s, i)
  {
    var n := RunLength(s, i);
    RunLengthFacts(s, i);
    if RegexMatchAt(s, i) {
      var k :| 1 <= k && i + 3 * k <= |s| && AllDigits(s[i..i + 3 * k])
        && (i + 3 * k == |s| || !IsDigit(s[i + 3 * k]));
      forall j | i <= j < i + 3 * k
        ensures IsDigit(s[j])
      {
        assert s[j] == s[i..i + 3 * k][j - i];
      }
      RunLengthUnique(s, i, 3 * k);
      assert IsWordChar(s[i]);
    }
    if i < |s| && CommaAt(s, i) {
      var k := n / 3;
      assert 3 * k == n;
      var t := s[i..i + n];
      assert AllDigits(t) by {
        forall j | 0 <= j < |t|
          ensures IsDigit(t[j])
        {
          assert t[j] == s[i + j];
        }
      }
      assert IsWordChar(s[i]);
    }
  }

  /** The replaced text from position `i` on: each gap is matched against the
      original text, as a global replace of an empty match does. */
  function GroupFrom(s: string, i: int): (r: string)
    requires 0 <= i <= |s|
    ensures |r| >= |s| - i
    ensures i < |s| && !CommaAt(s, i) ==> r[0] == s[i]
    decreases |s| - i
  {
    if i == |s| then ""
    else (if CommaAt(s, i) then "," else "") + [s[i]] + GroupFrom(s, i + 1)
  }

  /** `integerPart.replace(/\B(?=(\d{3})+(?!\d))/g, ',')`; it never adds a
      leading comma. */
  function Group(s: string): (r: string)
    ensures r == "" <==> s == ""
    ensures s != "" ==> r[0] == s[0]
  {
    GroupFrom(s, 0)
  }

  /** The text with every comma deleted. */
  function StripCommas(t: string): string {
    if t == [] then []
    else (if t[0] == ',' then [] else [t[0]]) + StripCommas(t[1..])
  }

  lemma {:induction false} StripCommasAppend(a: string, b: string)
    ensures StripCommas(a + b) == StripCommas(a) + StripCommas(b)
    decreases |a|
  {
    if a != [] {
      assert (a + b)[1..] == a[1..] + b;
      StripCommasAppend(a[1..], b);
    } else {
      assert a + b == b;
    }
  }

  lemma StripOne(x: char)
    ensures StripCommas([x]) == if x == ',' then [] else [x]
  {
    assert [x][1..] == [];
  }

  lemma {:induction false} StripCommasNone(t: string)
    requires ',' !in t
    ensures StripCommas(t) == t
    decreases |t|
  {
    if t != [] {
      StripCommasNone(t[1..]);
    }
  }

  lemma StripPiece(c: string, x: char, rest: string)
    requires c == "" || c == ","
    requires x != ','
    ensures StripCommas(c + [x] + rest) == [x] + StripCommas(rest)
  {
    if c == "" {
      assert c + [x] + rest == [x] + rest;
      assert ([x] + rest)[1..] == rest;
    } else {
      assert (c + [x] + rest)[1..] == [x] + rest;
      assert ([x] + rest)[1..] == rest;
    }
  }

  /** Grouping only ever adds commas. */
  lemma {:induction false} GroupFromStrip(s: string, i: int)
    requires 0 <= i <= |s|
    requires forall j :: 0 <= j < |s| ==> s[j] != ','
    ensures StripCommas(GroupFrom(s, i)) == s[i..]
    decreases |s| - i
  {
    if i < |s| {
      var rest := GroupFrom(s, i + 1);
      assert StripCommas(GroupFrom(s, i)) == [s[i]] + StripCommas(rest) by {
        var c := if CommaAt(s, i) then "," else "";
        assert GroupFrom(s, i) == c + [s[i]] + rest;
        StripPiece(c, s[i], rest);
      }
      GroupFromStrip(s, i + 1);
      assert s[i..] == [s[i]] + s[i + 1..];
    }
  }

  lemma {:induction false} RunLengthDigits(d: string, i: int)
    requires AllDigits(d) && 0 <= i <= |d|
    ensures RunLength(d, i) == |d| - i
  {
    RunLengthUnique(d, i, |d| - i);
  }

  /** On a digit string a comma goes before position `i` exactly when `i`
      is not the first position and the number of digits from `i` to the
      end is a multiple of three. */
  lemma CommaPositions(d: string)
    requires AllDigits(d)
    ensures forall i :: 0 <= i < |d| ==> (CommaAt(d, i) <==> 0 < i && (|d| - i) % 3 == 0)
  {
    forall i | 0 <= i < |d|
      ensures CommaAt(d, i) <==> 0 < i && (|d| - i) % 3 == 0
    {
      RunLengthDigits(d, i);
      if 0 < i {
        assert IsWordChar(d[i - 1]);
      }
    }
  }

  lemma {:induction false} NoCommasFrom(s: string, i: int)
    requires 0 <= i <= |s|
    requires forall j :: i <= j < |s| ==> !CommaAt(s, j)
    ensures GroupFrom(s, i) == s[i..]
    decreases |s| - i
  {
    if i < |s| {
      NoCommasFrom(s, i + 1);
      assert s[i..] == [s[i]] + s[i + 1..];
    }
  }

  /** Integer parts of at most three digits are left as they are. */
  lemma ShortIntegerUnchanged(d: string)
    requires AllDigits(d) && |d| <= 3
    ensures Group(d) == d
  {
    CommaPositions(d);
    NoCommasFrom(d, 0);
  }

  /** The text before the first '.', or all of it. */
  function UpToDot(s: string): (r: string)
    ensures |r| <= |s| && r == s[..|r|] && '.' !in r
    ensures |r| < |s| ==> s[|r|] == '.'
  {
    if s == [] || s[0] == '.' then [] else [s[0]] + UpToDot(s[1..])
  }

  lemma {:induction false} UpToDotNone(s: string)
    requires '.' !in s
    ensures UpToDot(s) == s
    decreases |s|
  {
    if s != [] {
      assert s[0] in s;
      assert forall c :: c in s[1..] ==> c in s;
      UpToDotNone(s[1..]);
    }
  }

  lemma {:induction false} UpToDotPrefix(a: string, b: string)
    requires '.' !in a
    ensures UpToDot(a + "." + b) == a
    decreases |a|
  {
    if a != [] {
      assert (a + "." + b)[1..] == a[1..] + "." + b;
      UpToDotPrefix(a[1..], b);
      assert a[0] in a;
    }
  }

  /** The first two pieces of `s.split('.')`. */
  datatype Parts = Parts(integerPart: string, decimalPart: Option<string>)

  /** `const [integerPart, decimalPart] = s.split('.')`: the text before the
      first '.', and the text between it and the next '.' (or the end);
      the decimal part is undefined when there is no '.'. */
  function SplitDot(s: string): (r: Parts)
    ensures '.' !in r.integerPart
    ensures r.decimalPart.None? <==> '.' !in s
    ensures r.decimalPart.None? ==> r.integerPart == s
    ensures r.decimalPart.Some? ==>
      && '.' !in r.decimalPart.value
      && |r.integerPart| + 1 + |r.decimalPart.value| <= |s|
      && s[..|r.integerPart| + 1 + |r.decimalPart.value|] == r.integerPart + "." + r.decimalPart.value
  {
    var a := UpToDot(s);
    if |a| == |s| then Parts(s, None)
    else
      var b := UpToDot(s[|a| + 1..]);
      assert s[..|a| + 1 + |b|] == s[..|a|] + [s[|a|]] + s[|a| + 1..][..|b|];
      Parts(a, Some(b))
  }

  /** The sign, the grouped integer part and the fraction put back
      together. */
  function Assemble(isNegative: bool, formattedInteger: string, decimalPart: Option<string>): string {
    var result := formattedInteger + (if decimalPart.Some? then "." + decimalPart.value else "");
    if isNegative then "-" + result else result
  }

  lemma AssembleFraction(isNegative: bool, g: string, d: string)
    ensures Assemble(isNegative, g, Some(d)) == Assemble(isNegative, g, None) + "." + d
  {
    if isNegative {
      assert "-" + (g + ("." + d)) == ("-" + (g + "")) + "." + d;
    } else {
      assert g + ("." + d) == (g + "") + "." + d;
    }
  }

  /** `formatNumber(value)`; a null or undefined value formats as '0'. The
      value is given as the text `value.toString()` produces. */
  function FormatNumber(value: Option<string>): (r: string)
    ensures value.None? ==> r == "0"
  {
    match value
    case None => "0"
    case Some(numStr) =>
      var parts := SplitDot(Unsigned(numStr));
      Assemble(StartsWithMinus(numStr), Group(parts.integerPart), parts.decimalPart)
  }

  /** The result starts with '-' exactly when the input does. */
  lemma SignKept(s: string)
    ensures StartsWithMinus(FormatNumber(Some(s))) <==> StartsWithMinus(s)
  {
    var abs := if StartsWithMinus(s) then s[1..] else s;
    var parts := SplitDot(abs);
    if parts.integerPart != "" {
      assert parts.integerPart[0] == abs[0];
    }
  }

  lemma MinusThenRest(s: string)
    requires StartsWithMinus(s)
    ensures s == "-" + s[1..]
  {
  }

  /** At most one '.' in the text. */
  predicate AtMostOneDot(s: string) {
    forall i, j :: 0 <= i < j < |s| && s[i] == '.' ==> s[j] != '.'
  }

  /** When the input has at most one '.', the split keeps everything. */
  lemma SplitDotWhole(s: string)
    requires AtMostOneDot(s)
    ensures SplitDot(s).decimalPart.Some? ==>
      s == SplitDot(s).integerPart + "." + SplitDot(s).decimalPart.value
  {
    var a := UpToDot(s);
    if |a| < |s| {
      var rest := s[|a| + 1..];
      assert '.' !in rest by {
        forall j | 0 <= j < |rest|
          ensures rest[j] != '.'
        {
          assert rest[j] == s[|a| + 1 + j];
        }
      }
      var b := UpToDot(rest);
      assert |b| == |rest|;
    }
  }

  lemma UnsignedKeeps(s: string)
    requires ',' !in s && AtMostOneDot(s)
    ensures ',' !in Unsigned(s) && AtMostOneDot(Unsigned(s))
  {
    if StartsWithMinus(s) {
      var abs := s[1..];
      forall i, j | 0 <= i < j < |abs| && abs[i] == '.'
        ensures abs[j] != '.'
      {
        assert abs[i] == s[i + 1] && abs[j] == s[j + 1];
      }
      assert forall c :: c in abs ==> c in s;
    }
  }

  /** Without a sign, deleting the commas undoes the grouping. */
  lemma StripUnsigned(abs: string)
    requires ',' !in abs && AtMostOneDot(abs)
    ensures var p := SplitDot(abs);
      StripCommas(Assemble(false, Group(p.integerPart), p.decimalPart)) == abs
  {
    var parts := SplitDot(abs);
    var a := parts.integerPart;
    var tail := if parts.decimalPart.Some? then "." + parts.decimalPart.value else "";
    assert a + tail == abs by {
      SplitDotWhole(abs);
    }
    assert StripCommas(Group(a)) == a by {
      forall j | 0 <= j < |a|
        ensures a[j] != ','
      {
        assert a[j] == abs[j];
        assert abs[j] in abs;
      }
      GroupFromStrip(a, 0);
      assert a[0..] == a;
    }
    assert StripCommas(tail) == tail by {
      assert ',' !in tail by {
        forall j | 0 <= j < |tail|
          ensures tail[j] != ','
        {
          assert tail[j] == abs[|a| + j];
          assert abs[|a| + j] in abs;
        }
      }
      StripCommasNone(tail);
    }
    StripCommasAppend(Group(a), tail);
    assert Assemble(false, Group(a), parts.decimalPart) == Group(a) + tail;
  }

  lemma StripSign(isNegative: bool, g: string, decimalPart: Option<string>)
    ensures StripCommas(Assemble(isNegative, g, decimalPart))
      == (if isNegative then "-" else "") + StripCommas(Assemble(false, g, decimalPart))
  {
    if isNegative {
      StripCommasAppend("-", Assemble(false, g, decimalPart));
      StripOne('-');
    }
  }

  /** Deleting the commas from the result gives back the input, for any
      input without commas and with at most one '.'. */
  lemma StripCommasRoundTrip(s: string)
    requires ',' !in s && AtMostOneDot(s)
    ensures StripCommas(FormatNumber(Some(s))) == s
  {
    var neg := StartsWithMinus(s);
    var abs := Unsigned(s);
    var parts := SplitDot(abs);
    UnsignedKeeps(s);
    StripUnsigned(abs);
    StripSign(neg, Group(parts.integerPart), parts.decimalPart);
    if neg {
      MinusThenRest(s);
    }
  }

  /** How the text of a number with a fraction splits. */
  lemma SplitWithFraction(n: string, d: string)
    requires '.' !in n && '.' !in d
    ensures StartsWithMinus(n + "." + d) == StartsWithMinus(n)
    ensures SplitDot(Unsigned(n + "." + d)) == Parts(Unsigned(n), Some(d))
    ensures SplitDot(Unsigned(n)) == Parts(Unsigned(n), None)
  {
    var s := n + "." + d;
    var neg := StartsWithMinus(n);
    assert StartsWithMinus(s) == neg by {
      if n == [] {
        assert s[0] == '.';
      } else {
        assert s[0] == n[0];
      }
    }
    var absN := Unsigned(n);
    var abs := Unsigned(s);
    assert abs == absN + "." + d;
    assert '.' !in absN by {
      if neg {
        forall j | 0 <= j < |absN|
          ensures absN[j] != '.'
        {
          assert absN[j] == n[j + 1];
          assert n[j + 1] in n;
        }
      }
    }
    UpToDotPrefix(absN, d);
    assert abs[|absN| + 1..] == d;
    UpToDotNone(d);
    UpToDotNone(absN);
  }

  /** The fraction is copied unchanged after the formatted integer part. */
  lemma FractionKept(n: string, d: string)
    requires '.' !in n && '.' !in d
    ensures FormatNumber(Some(n + "." + d)) == FormatNumber(Some(n)) + "." + d
  {
    SplitWithFraction(n, d);
    var neg := StartsWithMinus(n);
    var g := Group(Unsigned(n));
    assert FormatNumber(Some(n)) == Assemble(neg, g, None);
    assert FormatNumber(Some(n + "." + d)) == Assemble(neg, g, Some(d));
    AssembleFraction(neg, g, d);
  }

  /** A digit string, with or without a leading '-', is the sign followed
      by its grouped digits. */
  lemma DigitsFormatted(d: string)
    requires AllDigits(d)
    ensures FormatNumber(Some(d)) == Group(d)
    ensures FormatNumber(Some("-" + d)) == "-" + Group(d)
  {
    assert '.' !in d by {
      forall j | 0 <= j < |d|
        ensures d[j] != '.'
      {
        assert IsDigit(d[j]);
      }
    }
    if d != [] {
      assert IsDigit(d[0]);
    }
    assert ("-" + d)[1..] == d;
  }
}

=== FILE: group_by.dfy ===
/** Grouping a list into a string-keyed object with `reduce`: the
    accumulator creates a key's array on first sight and pushes every
    element onto its key's array. The object is an association list whose
    order is the order keys were first added. */
module Grouping {
  import opened Wrappers
  import opened Seqs

  datatype Group<T> = Group(key: string, items: seq<T>)

  function Keys<T>(gs: seq<Group<T>>): (r: seq<string>)
    ensures |r| == |gs|
    ensures forall i :: 0 <= i < |gs| ==> r[i] == gs[i].key
  {
    if gs == [] then [] else Keys(gs[..|gs| - 1]) + [gs[|gs| - 1].key]
  }

  function KeyIs<T>(k: string): Group<T> -> bool {
    (g: Group<T>) => g.key == k
  }

  /** `if (!acc[k]) acc[k] = []; acc[k].push(x)`. */
  function AddTo<T>(gs: seq<Group<T>>, k: string, x: T): seq<Group<T>> {
    match FindIndex(gs, KeyIs(k))
    case None => gs + [Group(k, [x])]
    case Some(i) => gs[i := Group(k, gs[i].items + [x])]
  }

  function GroupBy<T>(s: seq<T>, key: T -> string): seq<Group<T>> {
    if s == [] then []
    else
      var init, last := s[..|s| - 1], s[|s| - 1];
      AddTo(GroupBy(init, key), key(last), last)
  }

  /** The elements of `ks` without repeats, each where it first occurs. */
  function Distinct(ks: seq<string>): (r: seq<string>)
    ensures forall k :: k in r <==> k in ks
    ensures forall i, j :: 0 <= i < j < |r| ==> r[i] != r[j]
  {
    if ks == [] then []
    else
      var init, last := ks[..|ks| - 1], ks[|ks| - 1];
      assert ks == init + [last];
      var d := Distinct(init);
      if last in d then d else d + [last]
  }

  function HasKey<T>(key: T -> string, k: string): T -> bool {
    (x: T) => key(x) == k
  }

  /** `gs` is the grouping of `s`: its keys are the element keys in order
      of first appearance, and each key's array holds exactly the elements
      with that key, in their original order. */
  ghost predicate Grouped<T(!new)>(s: seq<T>, key: T -> string, gs: seq<Group<T>>) {
    && Keys(gs) == Distinct(Map(s, key))
    && forall i :: 0 <= i < |gs| ==> gs[i].items == Filter(s, HasKey(key, gs[i].key))
  }

  lemma {:induction false} GroupByFacts<T(!new)>(s: seq<T>, key: T -> string)
    ensures Grouped(s, key, GroupBy(s, key))
    decreases |s|
  {
    if s != [] {
      var init, last := s[..|s| - 1], s[|s| - 1];
      assert s == init + [last];
      var g := GroupBy(init, key);
      GroupByFacts(init, key);
      GroupStep(init, key, g, last);
    }
  }

  /** Keys of a grouping are pairwise different. */
  lemma GroupedKeysDistinct<T(!new)>(s: seq<T>, key: T -> string, gs: seq<Group<T>>)
    requires Grouped(s, key, gs)
    ensures forall i, j :: 0 <= i < j < |gs| ==> gs[i].key != gs[j].key
  {
    var d := Distinct(Map(s, key));
    forall i, j | 0 <= i < j < |gs|
      ensures gs[i].key != gs[j].key
    {
      assert d[i] == gs[i].key && d[j] == gs[j].key;
    }
  }

  lemma MapSnocKey<T>(init: seq<T>, last: T, key: T -> string)
    ensures Map(init + [last], key) == Map(init, key) + [key(last)]
  {
    MapSnoc(init, last, key);
  }

  lemma FilterSnoc<T(!new)>(init: seq<T>, last: T, p: T -> bool)
    ensures Filter(init + [last], p) == Filter(init, p) + (if p(last) then [last] else [])
  {
    assert (init + [last])[..|init|] == init;
  }

  /** Adding one element to a grouping gives the grouping of the longer list. */
  lemma GroupStep<T(!new)>(init: seq<T>, key: T -> string, g: seq<Group<T>>, last: T)
    requires Grouped(init, key, g)
    ensures Grouped(init + [last], key, AddTo(g, key(last), last))
  {
    var k := key(last);
    MapSnocKey(init, last, key);
    GroupedKeysDistinct(init, key, g);
    match FindIndex(g, KeyIs(k))
    case None => GroupNew(init, key, g, last);
    case Some(i0) => GroupExisting(init, key, g, last, i0);
  }

  lemma GroupNew<T(!new)>(init: seq<T>, key: T -> string, g: seq<Group<T>>, last: T)
    requires Grouped(init, key, g)
    requires forall i :: 0 <= i < |g| ==> g[i].key != key(last)
    ensures Grouped(init + [last], key, g + [Group(key(last), [last])])
  {
    var k, s := key(last), init + [last];
    MapSnocKey(init, last, key);
    var d := Distinct(Map(init, key));
    assert k !in d by {
      forall i | 0 <= i < |d|
        ensures d[i] != k
      {
        assert d[i] == g[i].key;
      }
    }
    forall x | x in init
      ensures !HasKey(key, k)(x)
    {
      var j :| 0 <= j < |init| && init[j] == x;
      assert Map(init, key)[j] == key(x);
    }
    FilterNone(init, HasKey(key, k));
    var g' := g + [Group(k, [last])];
    assert Map(s, key)[..|init|] == Map(init, key);
    assert Keys(g') == Keys(g) + [k];
    forall i | 0 <= i < |g'|
      ensures g'[i].items == Filter(s, HasKey(key, g'[i].key))
    {
      FilterSnoc(init, last, HasKey(key, g'[i].key));
      if i < |g| {
        assert g'[i] == g[i];
      }
    }
  }

  lemma GroupExisting<T(!new)>(init: seq<T>, key: T -> string, g: seq<Group<T>>, last: T, i0: nat)
    requires Grouped(init, key, g)
    requires i0 < |g| && g[i0].key == key(last)
    requires forall i, j :: 0 <= i < j < |g| ==> g[i].key != g[j].key
    ensures Grouped(init + [last], key, g[i0 := Group(key(last), g[i0].items + [last])])
  {
    var k, s := key(last), init + [last];
    var g' := g[i0 := Group(k, g[i0].items + [last])];
    assert Keys(g') == Distinct(Map(s, key)) by {
      MapSnocKey(init, last, key);
      DistinctSnocPresent(Map(init, key), k, g, i0);
      KeysUpdate(g, i0, Group(k, g[i0].items + [last]));
    }
    forall i | 0 <= i < |g'|
      ensures g'[i].items == Filter(s, HasKey(key, g'[i].key))
    {
      FilterSnoc(init, last, HasKey(key, g'[i].key));
      if i != i0 {
        assert g'[i] == g[i];
        assert g[i].key != g[i0].key;
      }
    }
  }

  /** Appending a key already present leaves the distinct keys alone. */
  lemma DistinctSnocPresent<T>(ks: seq<string>, k: string, g: seq<Group<T>>, i0: nat)
    requires Keys(g) == Distinct(ks) && i0 < |g| && g[i0].key == k
    ensures Distinct(ks + [k]) == Distinct(ks)
  {
    assert (ks + [k])[..|ks|] == ks;
    assert Distinct(ks)[i0] == k;
  }

  /** Replacing a group by one with the same key keeps the key list. */
  lemma KeysUpdate<T>(g: seq<Group<T>>, i0: nat, grp: Group<T>)
    requires i0 < |g| && grp.key == g[i0].key
    ensures Keys(g[i0 := grp]) == Keys(g)
  {
    var a, b := Keys(g[i0 := grp]), Keys(g);
    assert forall i :: 0 <= i < |a| ==> a[i] == b[i];
  }

  /** The items stored under `k`, or none. */
  function Lookup<T>(gs: seq<Group<T>>, k: string): seq<T> {
    match FindIndex(gs, KeyIs(k))
    case None => []
    case Some(i) => gs[i].items
  }

  /** Some element has key `k` exactly when `k` is among the element keys. */
  lemma KeyAmongKeys<T>(s: seq<T>, key: T -> string, k: string)
    ensures (exists x :: x in s && key(x) == k) <==> k in Map(s, key)
  {
    if exists x :: x in s && key(x) == k {
      var x :| x in s && key(x) == k;
      var j :| 0 <= j < |s| && s[j] == x;
      assert Map(s, key)[j] == k;
    }
    if k in Map(s, key) {
      var j :| 0 <= j < |s| && Map(s, key)[j] == k;
      assert s[j] in s;
    }
  }

  /** A key without a group has no elements. */
  lemma MissingKeyNoElements<T(!new)>(s: seq<T>, key: T -> string, gs: seq<Group<T>>, k: string)
    requires Grouped(s, key, gs)
    requires FindIndex(gs, KeyIs(k)).None?
    ensures Filter(s, HasKey(key, k)) == []
  {
    var d := Distinct(Map(s, key));
    forall x | x in s
      ensures !HasKey(key, k)(x)
    {
      var j :| 0 <= j < |s| && s[j] == x;
      assert Map(s, key)[j] == key(x);
      assert key(x) in d;
      var i :| 0 <= i < |d| && d[i] == key(x);
      assert !KeyIs(k)(gs[i]);
    }
    FilterNone(s, HasKey(key, k));
  }

  /** Every element is found under its own key, and the array under any
      key is exactly the elements with that key, in order. */
  lemma GroupLookup<T(!new)>(s: seq<T>, key: T -> string, k: string)
    ensures Lookup(GroupBy(s, key), k) == Filter(s, HasKey(key, k))
    ensures (exists x :: x in s && key(x) == k) <==> k in Keys(GroupBy(s, key))
  {
    GroupByFacts(s, key);
    var gs := GroupBy(s, key);
    KeyAmongKeys(s, key, k);
    match FindIndex(gs, KeyIs(k)) {
      case Some(i) =>
      case None =>
        MissingKeyNoElements(s, key, gs, k);
    }
  }
}

=== FILE: invoice_service.dfy ===
/** The invoice service over the database tables: sync from the Xero feed as
    an upsert keyed by the external id, create with defaults, partial update
    under JavaScript truthiness, delete with cascade, linking and unlinking
    transactions, and the two link queries. */
module InvoiceService {
  import opened Wrappers
  import opened Strings
  import opened Seqs
  import opened InvoiceTypes
  import opened Schema
  import XeroService
  import StableSort

  // ---------------------------------------------------------------------
  // Responses and queries
  // ---------------------------------------------------------------------

  /** The transaction fields a link response carries. */
  datatype TransactionSummary = TransactionSummary(
    id: int,
    amount: real,
    description: string,
    date: string,
    currency: string)

  /** `TransactionInvoiceResponse`; `transaction` is the preloaded
      transaction, absent only if the foreign key were broken. */
  datatype LinkResponse = LinkResponse(
    id: int,
    transactionId: int,
    invoiceId: int,
    amount: Option<real>,
    notes: Option<string>,
    transaction: Option<TransactionSummary>)

  /** `InvoiceResponse`: the row's columns plus its linked transactions. */
  datatype InvoiceResponse = InvoiceResponse(
    id: int,
    fields: InvoiceFields,
    createdAt: int,
    linkedTransactions: seq<LinkResponse>)

  function TransactionIdIs(id: int): TransactionRow -> bool {
    (t: TransactionRow) => t.id == id
  }

  function InvoiceIdIs(id: int): InvoiceRow -> bool {
    (v: InvoiceRow) => v.id == id
  }

  function OfInvoice(invoiceId: int): LinkRow -> bool {
    (l: LinkRow) => l.invoiceId == invoiceId
  }

  function OfTransaction(transactionId: int): LinkRow -> bool {
    (l: LinkRow) => l.transactionId == transactionId
  }

  function Summary(t: TransactionRow): TransactionSummary {
    TransactionSummary(t.id, t.amount, t.description, t.date, t.currency)
  }

  /** A link row with its transaction preloaded. */
  function ToLinkResponse(l: LinkRow, txs: seq<TransactionRow>): LinkResponse {
    LinkResponse(l.id, l.transactionId, l.invoiceId, l.amount, l.notes,
      match Find(txs, TransactionIdIs(l.transactionId))
      case None => None
      case Some(t) => Some(Summary(t)))
  }

  function RespondLink(txs: seq<TransactionRow>): LinkRow -> LinkResponse {
    (l: LinkRow) => ToLinkResponse(l, txs)
  }

  /** `getInvoiceTransactions`, which is also the `linkedTransactions` of
      `formatInvoiceResponse`: exactly the links of the invoice. */
  function GetInvoiceTransactions(links: seq<LinkRow>, txs: seq<TransactionRow>, invoiceId: int): (r: seq<LinkResponse>)
    ensures forall x :: x in r ==> x.invoiceId == invoiceId
    ensures forall l :: l in links && l.invoiceId == invoiceId ==> ToLinkResponse(l, txs) in r
    ensures forall x :: x in r ==> exists l :: l in links && l.invoiceId == invoiceId && x == ToLinkResponse(l, txs)
  {
    var mine := Filter(links, OfInvoice(invoiceId));
    var r := Map(mine, RespondLink(txs));
    assert forall l :: l in mine ==> RespondLink(txs)(l) in r by {
      forall l | l in mine
        ensures RespondLink(txs)(l) in r
      {
        var k :| 0 <= k < |mine| && mine[k] == l;
        assert r[k] == RespondLink(txs)(l);
      }
    }
    assert forall x :: x in r ==> exists l :: l in mine && x == ToLinkResponse(l, txs) by {
      forall x | x in r
        ensures exists l :: l in mine && x == ToLinkResponse(l, txs)
      {
        var k :| 0 <= k < |r| && r[k] == x;
        assert mine[k] in mine;
      }
    }
    r
  }

  /** With the foreign keys in place, every link response carries its
      transaction. */
  lemma LinkedTransactionsLoaded(links: seq<LinkRow>, txs: seq<TransactionRow>, invs: seq<InvoiceRow>, invoiceId: int)
    requires LinksReferenceParents(links, txs, invs)
    ensures forall x :: x in GetInvoiceTransactions(links, txs, invoiceId) ==>
      x.transaction.Some? && x.transaction.value.id == x.transactionId
  {
    forall x | x in GetInvoiceTransactions(links, txs, invoiceId)
      ensures x.transaction.Some? && x.transaction.value.id == x.transactionId
    {
      var l :| l in links && l.invoiceId == invoiceId && x == ToLinkResponse(l, txs);
      var t :| t in txs && t.id == l.transactionId;
      var k :| 0 <= k < |txs| && txs[k] == t;
      assert TransactionIdIs(l.transactionId)(txs[k]);
    }
  }

  /** `formatInvoiceResponse`. */
  function FormatInvoiceResponse(row: InvoiceRow, links: seq<LinkRow>, txs: seq<TransactionRow>): InvoiceResponse {
    InvoiceResponse(row.id, row.fields, row.createdAt, GetInvoiceTransactions(links, txs, row.id))
  }

  /** `getInvoiceById`: the invoice with that id, or null. */
  function GetInvoiceById(invs: seq<InvoiceRow>, links: seq<LinkRow>, txs: seq<TransactionRow>, id: int): (r: Option<InvoiceResponse>)
    ensures r.Some? <==> HasInvoice(invs, id)
    ensures r.Some? ==> r.value.id == id && InvoiceRow(id, r.value.fields, r.value.createdAt) in invs
    ensures r.Some? ==> r.value.linkedTransactions == GetInvoiceTransactions(links, txs, id)
  {
    match Find(invs, InvoiceIdIs(id))
    case None => None
    case Some(row) => Some(FormatInvoiceResponse(row, links, txs))
  }

  function InvoicesOfLinks(ls: seq<LinkRow>, invs: seq<InvoiceRow>, links: seq<LinkRow>, txs: seq<TransactionRow>): (r: seq<InvoiceResponse>)
    requires forall l :: l in ls ==> HasInvoice(invs, l.invoiceId)
    ensures |r| == |ls|
    ensures forall k :: 0 <= k < |ls| ==> r[k].id == ls[k].invoiceId && InvoiceRow(r[k].id, r[k].fields, r[k].createdAt) in invs
    ensures forall k :: 0 <= k < |ls| ==> r[k].linkedTransactions == GetInvoiceTransactions(links, txs, ls[k].invoiceId)
  {
    if ls == [] then []
    else
      var init, l := ls[..|ls| - 1], ls[|ls| - 1];
      assert forall m :: m in init ==> m in ls;
      var found := GetInvoiceById(invs, links, txs, l.invoiceId);
      InvoicesOfLinks(init, invs, links, txs) + [found.value]
  }

  /** `getTransactionInvoices`: one invoice per link of the transaction, in
      link order. */
  function GetTransactionInvoices(links: seq<LinkRow>, txs: seq<TransactionRow>, invs: seq<InvoiceRow>, transactionId: int): (r: seq<InvoiceResponse>)
    requires LinksReferenceParents(links, txs, invs)
    ensures var mine := Filter(links, OfTransaction(transactionId));
      && |r| == |mine|
      && (forall k :: 0 <= k < |r| ==> r[k].id == mine[k].invoiceId && InvoiceRow(r[k].id, r[k].fields, r[k].createdAt) in invs)
      && (forall k :: 0 <= k < |r| ==> r[k].linkedTransactions == GetInvoiceTransactions(links, txs, mine[k].invoiceId))
  {
    InvoicesOfLinks(Filter(links, OfTransaction(transactionId)), invs, links, txs)
  }

  // ---------------------------------------------------------------------
  // Sync from the Xero feed
  // ---------------------------------------------------------------------

  /** The `invoice.merge({...})` of the sync loop: every column but the
      external id is taken from the feed record. */
  function MergeFields(f: InvoiceFields, c: InvoiceFields): (r: InvoiceFields)
    ensures r == c.(xeroInvoiceId := f.xeroInvoiceId)
  {
    f.(invoiceNumber := c.invoiceNumber, contactName := c.contactName, contactEmail := c.contactEmail,
       subTotal := c.subTotal, taxAmount := c.taxAmount, totalAmount := c.totalAmount,
       currency := c.currency, status := c.status, invoiceDate := c.invoiceDate,
       dueDate := c.dueDate, paidDate := c.paidDate, description := c.description,
       reference := c.reference, invoiceType := c.invoiceType)
  }

  function XeroIdIs(xeroId: string): InvoiceRow -> bool {
    (v: InvoiceRow) => v.fields.xeroInvoiceId == xeroId
  }

  predicate HasXeroId(invs: seq<InvoiceRow>, xeroId: string) {
    exists v :: v in invs && v.fields.xeroInvoiceId == xeroId
  }

  datatype Upserted = Upserted(invoices: seq<InvoiceRow>, nextId: int, row: InvoiceRow)

  /** One pass of the sync loop: `findBy('xero_invoice_id', ...)`, then
      create a row or merge into the one found. */
  function Upsert(invs: seq<InvoiceRow>, nextId: int, x: XeroService.MockXeroInvoice, now: int): Upserted {
    var c := XeroService.ConvertToInternalFormat(x);
    match FindIndex(invs, XeroIdIs(x.invoiceId))
    case None =>
      var row := InvoiceRow(nextId, c, now);
      Upserted(invs + [row], nextId + 1, row)
    case Some(i) =>
      var row := invs[i].(fields := MergeFields(invs[i].fields, c));
      Upserted(invs[i := row], nextId, row)
  }

  /** The table after syncing a feed, and the row written for each record. */
  datatype Synced = Synced(invoices: seq<InvoiceRow>, nextId: int, rows: seq<InvoiceRow>)

  function SyncAll(invs: seq<InvoiceRow>, nextId: int, feed: seq<XeroService.MockXeroInvoice>, now: int): Synced {
    if feed == [] then Synced(invs, nextId, [])
    else
      var s := SyncAll(invs, nextId, feed[..|feed| - 1], now);
      var u := Upsert(s.invoices, s.nextId, feed[|feed| - 1], now);
      Synced(u.invoices, u.nextId, s.rows + [u.row])
  }

  /** What one upsert writes, and what it keeps of the rows already there. */
  lemma UpsertRow(invs: seq<InvoiceRow>, nextId: int, x: XeroService.MockXeroInvoice, now: int)
    ensures var u := Upsert(invs, nextId, x, now);
      && u.row.fields == XeroService.ConvertToInternalFormat(x)
      && u.row in u.invoices
      && |invs| <= |u.invoices| && nextId <= u.nextId
      && (forall j :: 0 <= j < |invs| ==>
            && u.invoices[j].id == invs[j].id
            && u.invoices[j].createdAt == invs[j].createdAt
            && u.invoices[j].fields.xeroInvoiceId == invs[j].fields.xeroInvoiceId
            && (invs[j].fields.xeroInvoiceId != x.invoiceId ==> u.invoices[j] == invs[j]))
      && (forall j :: |invs| <= j < |u.invoices| ==> u.invoices[j] == u.row)
  {
    match FindIndex(invs, XeroIdIs(x.invoiceId))
    case None =>
    case Some(i) =>
      assert XeroIdIs(x.invoiceId)(invs[i]);
      assert Upsert(invs, nextId, x, now).invoices[i] == Upsert(invs, nextId, x, now).row;
  }

  /** An upsert keeps the invoice table's id order and the uniqueness of
      `xero_invoice_id`. */
  lemma UpsertSchema(invs: seq<InvoiceRow>, nextId: int, x: XeroService.MockXeroInvoice, now: int)
    requires InvoiceIds(invs, nextId) && XeroIdsUnique(invs)
    ensures var u := Upsert(invs, nextId, x, now);
      InvoiceIds(u.invoices, u.nextId) && XeroIdsUnique(u.invoices)
  {
    var u := Upsert(invs, nextId, x, now);
    var r := u.invoices;
    match FindIndex(invs, XeroIdIs(x.invoiceId))
    case None =>
      assert forall j :: 0 <= j < |invs| ==> r[j] == invs[j];
      forall i, j | 0 <= i < j < |r|
        ensures DistinctXeroIds(r[i], r[j]) && InvoiceKey(r[i]) < InvoiceKey(r[j])
      {
        if j == |invs| {
          assert !XeroIdIs(x.invoiceId)(invs[i]);
          assert invs[i] in invs;
        } else {
          assert DistinctXeroIds(invs[i], invs[j]);
          assert InvoiceKey(invs[i]) < InvoiceKey(invs[j]);
        }
      }
    case Some(i) =>
      assert XeroIdIs(x.invoiceId)(invs[i]);
      forall a, b | 0 <= a < b < |r|
        ensures DistinctXeroIds(r[a], r[b]) && InvoiceKey(r[a]) < InvoiceKey(r[b])
      {
        assert DistinctXeroIds(invs[a], invs[b]);
        assert InvoiceKey(invs[a]) < InvoiceKey(invs[b]);
      }
      forall v | v in r
        ensures 1 <= v.id < u.nextId
      {
        var k :| 0 <= k < |r| && r[k] == v;
        assert invs[k] in invs;
      }
  }

  predicate InFeed(feed: seq<XeroService.MockXeroInvoice>, xeroId: string) {
    exists k :: 0 <= k < |feed| && feed[k].invoiceId == xeroId
  }

  /** Sync writes one row per feed record, in feed order, carrying that
      record's mapping. */
  lemma {:induction false} SyncRows(invs: seq<InvoiceRow>, nextId: int, feed: seq<XeroService.MockXeroInvoice>, now: int)
    ensures var s := SyncAll(invs, nextId, feed, now);
      && |s.rows| == |feed|
      && forall k :: 0 <= k < |feed| ==> s.rows[k].fields == XeroService.ConvertToInternalFormat(feed[k])
    decreases |feed|
  {
    if feed != [] {
      var init, x := feed[..|feed| - 1], feed[|feed| - 1];
      assert feed == init + [x];
      var p := SyncAll(invs, nextId, init, now);
      var u := Upsert(p.invoices, p.nextId, x, now);
      var s := SyncAll(invs, nextId, feed, now);
      assert s.rows == p.rows + [u.row];
      SyncRows(invs, nextId, init, now);
      UpsertRow(p.invoices, p.nextId, x, now);
    }
  }

  /** Rows already in the table keep their position, id, external id and
      creation time; those the feed does not mention are left untouched. */
  lemma {:induction false} SyncKeeps(invs: seq<InvoiceRow>, nextId: int, feed: seq<XeroService.MockXeroInvoice>, now: int)
    ensures var s := SyncAll(invs, nextId, feed, now);
      && |invs| <= |s.invoices| && nextId <= s.nextId
      && (forall j :: 0 <= j < |invs| ==>
            && s.invoices[j].id == invs[j].id
            && s.invoices[j].createdAt == invs[j].createdAt
            && s.invoices[j].fields.xeroInvoiceId == invs[j].fields.xeroInvoiceId
            && (!InFeed(feed, invs[j].fields.xeroInvoiceId) ==> s.invoices[j] == invs[j]))
    decreases |feed|
  {
    if feed != [] {
      var init, x := feed[..|feed| - 1], feed[|feed| - 1];
      SyncKeeps(invs, nextId, init, now);
      var p := SyncAll(invs, nextId, init, now);
      UpsertRow(p.invoices, p.nextId, x, now);
      var s := SyncAll(invs, nextId, feed, now);
      forall j | 0 <= j < |invs| && !InFeed(feed, invs[j].fields.xeroInvoiceId)
        ensures s.invoices[j] == invs[j]
      {
        forall k | 0 <= k < |init|
          ensures init[k].invoiceId != invs[j].fields.xeroInvoiceId
        {
          assert feed[k] == init[k];
        }
        assert !InFeed(init, invs[j].fields.xeroInvoiceId);
      }
    }
  }

  /** Sync keeps the invoice table's schema constraints. */
  lemma {:induction false} SyncSchema(invs: seq<InvoiceRow>, nextId: int, feed: seq<XeroService.MockXeroInvoice>, now: int)
    requires InvoiceIds(invs, nextId) && XeroIdsUnique(invs)
    ensures var s := SyncAll(invs, nextId, feed, now);
      InvoiceIds(s.invoices, s.nextId) && XeroIdsUnique(s.invoices)
    decreases |feed|
  {
    if feed != [] {
      var init := feed[..|feed| - 1];
      SyncSchema(invs, nextId, init, now);
      var p := SyncAll(invs, nextId, init, now);
      UpsertSchema(p.invoices, p.nextId, feed[|feed| - 1], now);
    }
  }

  /** An upsert never loses an external id already present. */
  lemma UpsertKeepsXeroId(invs: seq<InvoiceRow>, nextId: int, x: XeroService.MockXeroInvoice, now: int, xeroId: string)
    requires HasXeroId(invs, xeroId)
    ensures HasXeroId(Upsert(invs, nextId, x, now).invoices, xeroId)
  {
    var u := Upsert(invs, nextId, x, now);
    UpsertRow(invs, nextId, x, now);
    var v :| v in invs && v.fields.xeroInvoiceId == xeroId;
    var j :| 0 <= j < |invs| && invs[j] == v;
    assert u.invoices[j] in u.invoices;
  }

  /** The record at position `k` of the feed has its invoice row after
      the sync. */
  lemma {:induction false} SyncCoversOne(invs: seq<InvoiceRow>, nextId: int, feed: seq<XeroService.MockXeroInvoice>, now: int, k: int)
    requires 0 <= k < |feed|
    ensures HasXeroId(SyncAll(invs, nextId, feed, now).invoices, feed[k].invoiceId)
    decreases |feed|
  {
    var init, x := feed[..|feed| - 1], feed[|feed| - 1];
    var p := SyncAll(invs, nextId, init, now);
    var u := Upsert(p.invoices, p.nextId, x, now);
    assert SyncAll(invs, nextId, feed, now).invoices == u.invoices;
    if k < |init| {
      assert init[k] == feed[k];
      SyncCoversOne(invs, nextId, init, now, k);
      UpsertKeepsXeroId(p.invoices, p.nextId, x, now, feed[k].invoiceId);
    } else {
      UpsertRow(p.invoices, p.nextId, x, now);
      assert u.row.fields.xeroInvoiceId == x.invoiceId;
    }
  }

  /** After a sync every record of the feed has its invoice row. */
  lemma SyncCovers(invs: seq<InvoiceRow>, nextId: int, feed: seq<XeroService.MockXeroInvoice>, now: int)
    ensures var s := SyncAll(invs, nextId, feed, now);
      forall k :: 0 <= k < |feed| ==> HasXeroId(s.invoices, feed[k].invoiceId)
  {
    forall k | 0 <= k < |feed|
      ensures HasXeroId(SyncAll(invs, nextId, feed, now).invoices, feed[k].invoiceId)
    {
      SyncCoversOne(invs, nextId, feed, now, k);
    }
  }

  /** With unique external ids, an id matches one invoice if present and
      none otherwise. */
  lemma {:induction false} XeroIdMatches(invs: seq<InvoiceRow>, xeroId: string)
    requires XeroIdsUnique(invs)
    ensures |Filter(invs, XeroIdIs(xeroId))| == if HasXeroId(invs, xeroId) then 1 else 0
    decreases |invs|
  {
    if invs != [] {
      var init, last := invs[..|invs| - 1], invs[|invs| - 1];
      assert invs == init + [last];
      assert XeroIdsUnique(init);
      XeroIdMatches(init, xeroId);
      if last.fields.xeroInvoiceId == xeroId {
        forall v | v in init
          ensures v.fields.xeroInvoiceId != xeroId
        {
          var k :| 0 <= k < |init| && init[k] == v;
          assert DistinctXeroIds(invs[k], invs[|invs| - 1]);
        }
        assert last in invs;
      } else {
        assert HasXeroId(invs, xeroId) ==> HasXeroId(init, xeroId) by {
          forall v | v in invs && v.fields.xeroInvoiceId == xeroId
            ensures v in init
          {
          }
        }
        assert HasXeroId(init, xeroId) ==> HasXeroId(invs, xeroId) by {
          forall v | v in init
            ensures v in invs
          {
          }
        }
      }
    }
  }

  /** After a sync each record's id matches exactly one invoice. */
  lemma SyncExactlyOne(invs: seq<InvoiceRow>, nextId: int, feed: seq<XeroService.MockXeroInvoice>, now: int)
    requires InvoiceIds(invs, nextId) && XeroIdsUnique(invs)
    ensures var s := SyncAll(invs, nextId, feed, now);
      forall k :: 0 <= k < |feed| ==> |Filter(s.invoices, XeroIdIs(feed[k].invoiceId))| == 1
  {
    SyncSchema(invs, nextId, feed, now);
    SyncCovers(invs, nextId, feed, now);
    var s := SyncAll(invs, nextId, feed, now);
    forall k | 0 <= k < |feed|
      ensures |Filter(s.invoices, XeroIdIs(feed[k].invoiceId))| == 1
    {
      XeroIdMatches(s.invoices, feed[k].invoiceId);
    }
  }

  function Formatter(links: seq<LinkRow>, txs: seq<TransactionRow>): InvoiceRow -> InvoiceResponse {
    (row: InvoiceRow) => FormatInvoiceResponse(row, links, txs)
  }

  /** The body of the sync loop for one record: look the invoice up by its
      external id, then create it or merge the record into it. */
  method UpsertInvoice(db: Database, x: XeroService.MockXeroInvoice, now: int) returns (row: InvoiceRow)
    modifies db
    ensures Upsert(old(db.invoices), old(db.nextInvoiceId), x, now) == Upserted(db.invoices, db.nextInvoiceId, row)
    ensures db.categories == old(db.categories) && db.transactions == old(db.transactions)
    ensures db.links == old(db.links)
    ensures db.nextTransactionId == old(db.nextTransactionId) && db.nextLinkId == old(db.nextLinkId)
  {
    var data := XeroService.ConvertToInternalFormat(x);
    var found := FindIndex(db.invoices, XeroIdIs(x.invoiceId));
    if found.None? {
      row := InvoiceRow(db.nextInvoiceId, data, now);
      db.invoices := db.invoices + [row];
      db.nextInvoiceId := db.nextInvoiceId + 1;
    } else {
      var k := found.value;
      row := db.invoices[k].(fields := MergeFields(db.invoices[k].fields, data));
      db.invoices := db.invoices[k := row];
    }
  }

  /** An upsert keeps every constraint of the invoice and link tables. */
  lemma UpsertTables(invs: seq<InvoiceRow>, nextId: int, links: seq<LinkRow>, nextLinkId: int, txs: seq<TransactionRow>,
                     x: XeroService.MockXeroInvoice, now: int)
    requires InvoiceTables(invs, nextId, links, nextLinkId, txs)
    ensures InvoiceTables(Upsert(invs, nextId, x, now).invoices, Upsert(invs, nextId, x, now).nextId, links, nextLinkId, txs)
  {
    UpsertRow(invs, nextId, x, now);
    UpsertSchema(invs, nextId, x, now);
    KeepsInvoiceIds(invs, Upsert(invs, nextId, x, now).invoices, links, txs);
  }

  /** Unfolding `SyncAll` by one record. */
  lemma SyncStep(invs: seq<InvoiceRow>, nextId: int, feed: seq<XeroService.MockXeroInvoice>, i: nat, now: int)
    requires i < |feed|
    ensures var p := SyncAll(invs, nextId, feed[..i], now);
      var u := Upsert(p.invoices, p.nextId, feed[i], now);
      SyncAll(invs, nextId, feed[..i + 1], now) == Synced(u.invoices, u.nextId, p.rows + [u.row])
  {
    assert feed[..i + 1][..i] == feed[..i];
  }

  /** `syncInvoicesFromXero` over the fetched feed: each record is upserted
      in turn and its formatted invoice collected. */
  method SyncInvoicesFromXero(db: Database, feed: seq<XeroService.MockXeroInvoice>, now: int)
    returns (synced: seq<InvoiceResponse>)
    requires db.Valid()
    modifies db
    ensures db.Valid()
    ensures var s := SyncAll(old(db.invoices), old(db.nextInvoiceId), feed, now);
      && db.invoices == s.invoices && db.nextInvoiceId == s.nextId
      && synced == Map(s.rows, Formatter(db.links, db.transactions))
    ensures db.categories == old(db.categories) && db.transactions == old(db.transactions)
    ensures db.links == old(db.links)
    ensures db.nextTransactionId == old(db.nextTransactionId) && db.nextLinkId == old(db.nextLinkId)
  {
    synced := [];
    var i := 0;
    while i < |feed|
      invariant 0 <= i <= |feed|
      invariant db.categories == old(db.categories) && db.transactions == old(db.transactions)
      invariant db.links == old(db.links)
      invariant db.nextTransactionId == old(db.nextTransactionId) && db.nextLinkId == old(db.nextLinkId)
      invariant var s := SyncAll(old(db.invoices), old(db.nextInvoiceId), feed[..i], now);
        && db.invoices == s.invoices && db.nextInvoiceId == s.nextId
        && synced == Map(s.rows, Formatter(db.links, db.transactions))
      invariant db.Valid()
    {
      ghost var before, beforeNext := db.invoices, db.nextInvoiceId;
      ghost var prev := SyncAll(old(db.invoices), old(db.nextInvoiceId), feed[..i], now);
      var row := UpsertInvoice(db, feed[i], now);
      UpsertTables(before, beforeNext, db.links, db.nextLinkId, db.transactions, feed[i], now);
      SyncStep(old(db.invoices), old(db.nextInvoiceId), feed, i, now);
      MapSnoc(prev.rows, row, Formatter(db.links, db.transactions));
      synced := synced + [FormatInvoiceResponse(row, db.links, db.transactions)];
      i := i + 1;
    }
    assert feed[..i] == feed;
  }

  /** A table that keeps every old id at its position keeps the link
      table's foreign keys satisfied. */
  lemma KeepsInvoiceIds(before: seq<InvoiceRow>, after: seq<InvoiceRow>, links: seq<LinkRow>, txs: seq<TransactionRow>)
    requires |before| <= |after|
    requires forall j :: 0 <= j < |before| ==> after[j].id == before[j].id
    requires LinksReferenceParents(links, txs, before)
    ensures LinksReferenceParents(links, txs, after)
  {
    forall l | l in links
      ensures HasInvoice(after, l.invoiceId)
    {
      var v :| v in before && v.id == l.invoiceId;
      var j :| 0 <= j < |before| && before[j] == v;
      assert after[j] in after;
    }
  }

  // ---------------------------------------------------------------------
  // Create
  // ---------------------------------------------------------------------

  /** `CreateInvoiceData`; an omitted optional field is `None`. */
  datatype CreateInvoiceData = CreateInvoiceData(
    xeroInvoiceId: string,
    invoiceNumber: string,
    contactName: string,
    contactEmail: Option<string>,
    subTotal: real,
    taxAmount: Option<real>,
    totalAmount: real,
    currency: Option<string>,
    status: Option<InvoiceStatus>,
    invoiceDate: string,
    dueDate: Option<string>,
    paidDate: Option<string>,
    description: Option<string>,
    reference: Option<string>,
    invoiceType: Option<InvoiceType>)

  /** JavaScript `x || d` on an optional number: `undefined` and `0` are falsy. */
  function NumberOr(x: Option<real>, d: real): real {
    if x.Some? && x.value != 0.0 then x.value else d
  }

  /** The columns `createInvoice` writes: the given values, with the
      defaults for a falsy tax amount, currency, status or type, and null
      for a falsy due or paid date. */
  function NewInvoiceFields(d: CreateInvoiceData): (r: InvoiceFields)
    ensures r.xeroInvoiceId == d.xeroInvoiceId && r.invoiceNumber == d.invoiceNumber
    ensures r.contactName == d.contactName && r.contactEmail == d.contactEmail
    ensures r.subTotal == d.subTotal && r.totalAmount == d.totalAmount
    ensures r.invoiceDate == d.invoiceDate && r.description == d.description && r.reference == d.reference
    ensures r.taxAmount == d.taxAmount.GetOr(0.0)
    ensures r.currency == (if Truthy(d.currency) then d.currency.value else "CAD")
    ensures r.status == d.status.GetOr(DRAFT) && r.invoiceType == d.invoiceType.GetOr(ACCREC)
    ensures r.dueDate.Some? <==> Truthy(d.dueDate)
    ensures r.paidDate.Some? <==> Truthy(d.paidDate)
    ensures r.dueDate.Some? ==> r.dueDate == d.dueDate
    ensures r.paidDate.Some? ==> r.paidDate == d.paidDate
  {
    InvoiceFields(
      d.xeroInvoiceId, d.invoiceNumber, d.contactName, d.contactEmail,
      d.subTotal, NumberOr(d.taxAmount, 0.0), d.totalAmount,
      OrElse(d.currency, "CAD"),
      if d.status.Some? then d.status.value else DRAFT,
      d.invoiceDate, OrNull(d.dueDate), OrNull(d.paidDate),
      d.description, d.reference,
      if d.invoiceType.Some? then d.invoiceType.value else ACCREC)
  }

  /** The error the database raises when a write would repeat a
      `xero_invoice_id`. */
  const XeroIdTaken := "duplicate key value violates unique constraint \"invoices_xero_invoice_id_unique\""

  /** No link can refer to an id the invoice table has not handed out yet. */
  lemma NoLinksOfFreshInvoice(links: seq<LinkRow>, txs: seq<TransactionRow>, invs: seq<InvoiceRow>, nextId: int)
    requires InvoiceIds(invs, nextId) && LinksReferenceParents(links, txs, invs)
    ensures Filter(links, OfInvoice(nextId)) == []
  {
    forall l | l in links
      ensures !OfInvoice(nextId)(l)
    {
      var v :| v in invs && v.id == l.invoiceId;
    }
    FilterNone(links, OfInvoice(nextId));
  }

  lemma FoundXeroId(invs: seq<InvoiceRow>, xeroId: string)
    requires Find(invs, XeroIdIs(xeroId)).Some?
    ensures HasXeroId(invs, xeroId)
  {
    var v := Find(invs, XeroIdIs(xeroId)).value;
    assert v in invs && XeroIdIs(xeroId)(v);
  }

  lemma MissingXeroId(invs: seq<InvoiceRow>, xeroId: string)
    requires Find(invs, XeroIdIs(xeroId)).None?
    ensures !HasXeroId(invs, xeroId)
  {
    forall v | v in invs
      ensures !XeroIdIs(xeroId)(v)
    {
      var j :| 0 <= j < |invs| && invs[j] == v;
    }
  }

  /** `createInvoice`: inserts one row with the defaults applied; the unique
      index on `xero_invoice_id` rejects a repeated external id. The serial
      behind `id` has already handed out its next value by then, and that
      value is not given back, so a rejected insert still uses up an id. */
  method CreateInvoice(db: Database, d: CreateInvoiceData, now: int) returns (r: Result<InvoiceResponse, string>)
    requires db.Valid()
    modifies db
    ensures db.Valid()
    ensures HasXeroId(old(db.invoices), d.xeroInvoiceId) ==>
      r == Err(XeroIdTaken) && db.invoices == old(db.invoices) && db.nextInvoiceId == old(db.nextInvoiceId) + 1
    ensures !HasXeroId(old(db.invoices), d.xeroInvoiceId) ==>
      && db.invoices == old(db.invoices) + [InvoiceRow(old(db.nextInvoiceId), NewInvoiceFields(d), now)]
      && db.nextInvoiceId == old(db.nextInvoiceId) + 1
      && r == Ok(InvoiceResponse(old(db.nextInvoiceId), NewInvoiceFields(d), now, []))
    ensures db.categories == old(db.categories) && db.transactions == old(db.transactions)
    ensures db.links == old(db.links)
    ensures db.nextTransactionId == old(db.nextTransactionId) && db.nextLinkId == old(db.nextLinkId)
  {
    var taken := Find(db.invoices, XeroIdIs(d.xeroInvoiceId));
    if taken.Some? {
      FoundXeroId(db.invoices, d.xeroInvoiceId);
      db.nextInvoiceId := db.nextInvoiceId + 1;
      return Err(XeroIdTaken);
    }
    MissingXeroId(db.invoices, d.xeroInvoiceId);
    var created := InsertInvoice(db, NewInvoiceFields(d), now);
    r := Ok(created);
  }

  /** The insert itself, returning the formatted new row. */
  method InsertInvoice(db: Database, fields: InvoiceFields, now: int) returns (created: InvoiceResponse)
    requires db.Valid() && !HasXeroId(db.invoices, fields.xeroInvoiceId)
    modifies db
    ensures db.Valid()
    ensures db.invoices == old(db.invoices) + [InvoiceRow(old(db.nextInvoiceId), fields, now)]
    ensures db.nextInvoiceId == old(db.nextInvoiceId) + 1
    ensures created == InvoiceResponse(old(db.nextInvoiceId), fields, now, [])
    ensures db.categories == old(db.categories) && db.transactions == old(db.transactions)
    ensures db.links == old(db.links)
    ensures db.nextTransactionId == old(db.nextTransactionId) && db.nextLinkId == old(db.nextLinkId)
  {
    var row := InvoiceRow(db.nextInvoiceId, fields, now);
    CreateSchema(db.invoices, db.nextInvoiceId, db.links, db.nextLinkId, db.transactions, row);
    created := FormatInvoiceResponse(row, db.links, db.transactions);
    db.invoices, db.nextInvoiceId := db.invoices + [row], db.nextInvoiceId + 1;
  }

  /** Inserting a row with the next id and a fresh external id keeps the
      schema's constraints, and the new invoice has no links yet. */
  lemma CreateSchema(invs: seq<InvoiceRow>, nextId: int, links: seq<LinkRow>, nextLinkId: int, txs: seq<TransactionRow>, row: InvoiceRow)
    requires InvoiceTables(invs, nextId, links, nextLinkId, txs)
    requires row.id == nextId && !HasXeroId(invs, row.fields.xeroInvoiceId)
    ensures InvoiceTables(invs + [row], nextId + 1, links, nextLinkId, txs)
    ensures FormatInvoiceResponse(row, links, txs) == InvoiceResponse(row.id, row.fields, row.createdAt, [])
  {
    NoLinksOfFreshInvoice(links, txs, invs, nextId);
    KeepsInvoiceIds(invs, invs + [row], links, txs);
    AppendInvoiceSchema(invs, nextId, row);
  }

  /** Appending a row with the next id and a fresh external id keeps the
      invoice table's constraints. */
  lemma AppendInvoiceSchema(invs: seq<InvoiceRow>, nextId: int, row: InvoiceRow)
    requires InvoiceIds(invs, nextId) && XeroIdsUnique(invs)
    requires row.id == nextId && !HasXeroId(invs, row.fields.xeroInvoiceId)
    ensures InvoiceIds(invs + [row], nextId + 1) && XeroIdsUnique(invs + [row])
  {
    var r := invs + [row];
    forall i, j | 0 <= i < j < |r|
      ensures DistinctXeroIds(r[i], r[j]) && InvoiceKey(r[i]) < InvoiceKey(r[j])
    {
      assert r[i] == invs[i] && invs[i] in invs;
      if j < |invs| {
        assert r[j] == invs[j];
        assert DistinctXeroIds(invs[i], invs[j]);
        assert InvoiceKey(invs[i]) < InvoiceKey(invs[j]);
      }
    }
  }

  // ---------------------------------------------------------------------
  // Update
  // ---------------------------------------------------------------------

  /** `UpdateInvoiceData`. Fields the service tests for truthiness are
      optional values; those it tests with `!== undefined` are optional
      nullable values, so an explicit null is `Some(None)`. */
  datatype UpdateInvoiceData = UpdateInvoiceData(
    xeroInvoiceId: Option<string>,
    invoiceNumber: Option<string>,
    contactName: Option<string>,
    contactEmail: Option<Option<string>>,
    subTotal: Option<real>,
    taxAmount: Option<real>,
    totalAmount: Option<real>,
    currency: Option<string>,
    status: Option<InvoiceStatus>,
    invoiceDate: Option<string>,
    dueDate: Option<Option<string>>,
    paidDate: Option<Option<string>>,
    description: Option<Option<string>>,
    reference: Option<Option<string>>,
    invoiceType: Option<InvoiceType>)

  /** The update that sends no field at all. */
  const NoUpdate := UpdateInvoiceData(None, None, None, None, None, None, None, None, None, None, None, None, None, None, None)

  /** A nullable date: `x ? DateTime.fromISO(x) : null`. */
  function DateOrNull(x: Option<string>): Option<string> {
    OrNull(x)
  }

  /** `updateInvoice`'s `updateData` merged into the stored columns. */
  function ApplyUpdate(f: InvoiceFields, u: UpdateInvoiceData): InvoiceFields {
    f.(xeroInvoiceId := OrElse(u.xeroInvoiceId, f.xeroInvoiceId),
       invoiceNumber := OrElse(u.invoiceNumber, f.invoiceNumber),
       contactName := OrElse(u.contactName, f.contactName),
       contactEmail := u.contactEmail.GetOr(f.contactEmail),
       subTotal := NumberOr(u.subTotal, f.subTotal),
       taxAmount := u.taxAmount.GetOr(f.taxAmount),
       totalAmount := NumberOr(u.totalAmount, f.totalAmount),
       currency := OrElse(u.currency, f.currency),
       status := u.status.GetOr(f.status),
       invoiceDate := OrElse(u.invoiceDate, f.invoiceDate),
       dueDate := if u.dueDate.Some? then DateOrNull(u.dueDate.value) else f.dueDate,
       paidDate := if u.paidDate.Some? then DateOrNull(u.paidDate.value) else f.paidDate,
       description := u.description.GetOr(f.description),
       reference := u.reference.GetOr(f.reference),
       invoiceType := u.invoiceType.GetOr(f.invoiceType))
  }

  /** Fields guarded by truthiness keep their stored value when the update
      sends nothing, an empty string or the number 0. */
  lemma UpdateSkipsFalsy(f: InvoiceFields, u: UpdateInvoiceData)
    ensures var r := ApplyUpdate(f, u);
      && (!Truthy(u.xeroInvoiceId) ==> r.xeroInvoiceId == f.xeroInvoiceId)
      && (!Truthy(u.invoiceNumber) ==> r.invoiceNumber == f.invoiceNumber)
      && (!Truthy(u.contactName) ==> r.contactName == f.contactName)
      && (u.subTotal.None? || u.subTotal == Some(0.0) ==> r.subTotal == f.subTotal)
      && (u.totalAmount.None? || u.totalAmount == Some(0.0) ==> r.totalAmount == f.totalAmount)
      && (!Truthy(u.currency) ==> r.currency == f.currency)
      && (!Truthy(u.invoiceDate) ==> r.invoiceDate == f.invoiceDate)
      && (u.status.None? ==> r.status == f.status)
      && (u.invoiceType.None? ==> r.invoiceType == f.invoiceType)
  {
  }

  /** Truthy values are written, and the `!== undefined` fields are written
      whenever sent, even when null, empty or 0; a sent date that is falsy
      clears the column. */
  lemma UpdateAppliesSent(f: InvoiceFields, u: UpdateInvoiceData)
    ensures var r := ApplyUpdate(f, u);
      && (Truthy(u.xeroInvoiceId) ==> r.xeroInvoiceId == u.xeroInvoiceId.value)
      && (Truthy(u.invoiceNumber) ==> r.invoiceNumber == u.invoiceNumber.value)
      && (Truthy(u.contactName) ==> r.contactName == u.contactName.value)
      && (u.subTotal.Some? && u.subTotal.value != 0.0 ==> r.subTotal == u.subTotal.value)
      && (u.totalAmount.Some? && u.totalAmount.value != 0.0 ==> r.totalAmount == u.totalAmount.value)
      && (Truthy(u.currency) ==> r.currency == u.currency.value)
      && (Truthy(u.invoiceDate) ==> r.invoiceDate == u.invoiceDate.value)
      && (u.status.Some? ==> r.status == u.status.value)
      && (u.invoiceType.Some? ==> r.invoiceType == u.invoiceType.value)
      && (u.contactEmail.Some? ==> r.contactEmail == u.contactEmail.value)
      && (u.taxAmount.Some? ==> r.taxAmount == u.taxAmount.value)
      && (u.description.Some? ==> r.description == u.description.value)
      && (u.reference.Some? ==> r.reference == u.reference.value)
      && (u.dueDate.Some? ==> (r.dueDate.Some? <==> Truthy(u.dueDate.value)))
      && (u.paidDate.Some? ==> (r.paidDate.Some? <==> Truthy(u.paidDate.value)))
      && (u.dueDate.Some? && Truthy(u.dueDate.value) ==> r.dueDate == u.dueDate.value)
      && (u.paidDate.Some? && Truthy(u.paidDate.value) ==> r.paidDate == u.paidDate.value)
      && (u.dueDate.None? ==> r.dueDate == f.dueDate)
      && (u.paidDate.None? ==> r.paidDate == f.paidDate)
  {
  }

  /** Applying the same update twice is applying it once. */
  lemma UpdateIdempotent(f: InvoiceFields, u: UpdateInvoiceData)
    ensures ApplyUpdate(ApplyUpdate(f, u), u) == ApplyUpdate(f, u)
  {
  }

  /** An update that sends nothing leaves the columns as they are. */
  lemma EmptyUpdateIdentity(f: InvoiceFields)
    ensures ApplyUpdate(f, NoUpdate) == f
  {
  }

  /** Some row other than the `k`-th already holds `xeroId`. */
  predicate XeroIdHeldElsewhere(invs: seq<InvoiceRow>, k: nat, xeroId: string) {
    exists j :: 0 <= j < |invs| && j != k && invs[j].fields.xeroInvoiceId == xeroId
  }

  /** `updateInvoice`: `Ok(None)` for an unknown id; otherwise the update is
      merged into that row and saved, unless the unique index rejects the
      new external id. */
  method UpdateInvoice(db: Database, id: int, u: UpdateInvoiceData) returns (r: Result<Option<InvoiceResponse>, string>)
    requires db.Valid()
    modifies db
    ensures db.Valid()
    ensures match FindIndex(old(db.invoices), InvoiceIdIs(id))
      case None => r == Ok(None) && db.invoices == old(db.invoices)
      case Some(k) =>
        var nf := ApplyUpdate(old(db.invoices)[k].fields, u);
        if XeroIdHeldElsewhere(old(db.invoices), k, nf.xeroInvoiceId) then
          r == Err(XeroIdTaken) && db.invoices == old(db.invoices)
        else
          && db.invoices == old(db.invoices)[k := old(db.invoices)[k].(fields := nf)]
          && r == Ok(Some(FormatInvoiceResponse(db.invoices[k], db.links, db.transactions)))
    ensures db.categories == old(db.categories) && db.transactions == old(db.transactions)
    ensures db.links == old(db.links) && db.nextInvoiceId == old(db.nextInvoiceId)
    ensures db.nextTransactionId == old(db.nextTransactionId) && db.nextLinkId == old(db.nextLinkId)
  {
    var found := FindIndex(db.invoices, InvoiceIdIs(id));
    if found.None? {
      return Ok(None);
    }
    var k := found.value;
    var nf := ApplyUpdate(db.invoices[k].fields, u);
    var clash := FindIndex(db.invoices, XeroIdIs(nf.xeroInvoiceId));
    if clash.Some? && clash.value != k {
      return Err(XeroIdTaken);
    }
    assert !XeroIdHeldElsewhere(db.invoices, k, nf.xeroInvoiceId) by {
      if clash.Some? {
        forall j | 0 <= j < |db.invoices| && j != k
          ensures db.invoices[j].fields.xeroInvoiceId != nf.xeroInvoiceId
        {
          ReplaceKeepsUnique(db.invoices, k, j);
        }
      }
    }
    ReplaceFieldsSchema(db.invoices, db.nextInvoiceId, db.links, db.nextLinkId, db.transactions, k, nf);
    db.invoices := db.invoices[k := db.invoices[k].(fields := nf)];
    r := Ok(Some(FormatInvoiceResponse(db.invoices[k], db.links, db.transactions)));
  }

  /** With unique external ids, a row other than the `k`-th holds a
      different one. */
  lemma ReplaceKeepsUnique(invs: seq<InvoiceRow>, k: nat, j: nat)
    requires XeroIdsUnique(invs) && k < |invs| && j < |invs| && j != k
    ensures invs[j].fields.xeroInvoiceId != invs[k].fields.xeroInvoiceId
  {
    if j < k {
      assert DistinctXeroIds(invs[j], invs[k]);
    } else {
      assert DistinctXeroIds(invs[k], invs[j]);
    }
  }

  /** Replacing one row's columns with an external id no other row holds
      keeps the invoice table's constraints. */
  lemma ReplaceFieldsSchema(invs: seq<InvoiceRow>, nextId: int, links: seq<LinkRow>, nextLinkId: int, txs: seq<TransactionRow>,
                             k: nat, nf: InvoiceFields)
    requires InvoiceTables(invs, nextId, links, nextLinkId, txs) && k < |invs|
    requires !XeroIdHeldElsewhere(invs, k, nf.xeroInvoiceId)
    ensures InvoiceTables(invs[k := invs[k].(fields := nf)], nextId, links, nextLinkId, txs)
  {
    var r := invs[k := invs[k].(fields := nf)];
    KeepsInvoiceIds(invs, r, links, txs);
    forall a, b | 0 <= a < b < |r|
      ensures DistinctXeroIds(r[a], r[b]) && InvoiceKey(r[a]) < InvoiceKey(r[b])
    {
      assert InvoiceKey(invs[a]) < InvoiceKey(invs[b]);
      if a != k && b != k {
        assert DistinctXeroIds(invs[a], invs[b]);
      }
    }
    forall v | v in r
      ensures 1 <= v.id < nextId
    {
      var j :| 0 <= j < |r| && r[j] == v;
      assert invs[j] in invs;
    }
  }

  // ---------------------------------------------------------------------
  // Delete
  // ---------------------------------------------------------------------

  function NotInvoiceId(id: int): InvoiceRow -> bool {
    (v: InvoiceRow) => v.id != id
  }

  function NotOfInvoice(invoiceId: int): LinkRow -> bool {
    (l: LinkRow) => l.invoiceId != invoiceId
  }

  /** Removing an invoice and, by `onDelete('CASCADE')`, its links keeps
      every constraint of the schema. */
  lemma DeleteInvoiceSchema(links: seq<LinkRow>, txs: seq<TransactionRow>, invs: seq<InvoiceRow>,
                            nextId: int, nextLinkId: int, id: int)
    requires InvoiceTables(invs, nextId, links, nextLinkId, txs)
    ensures InvoiceTables(Filter(invs, NotInvoiceId(id)), nextId, Filter(links, NotOfInvoice(id)), nextLinkId, txs)
    ensures !HasInvoice(Filter(invs, NotInvoiceId(id)), id)
    ensures forall l :: l in Filter(links, NotOfInvoice(id)) ==> l.invoiceId != id
  {
    var invs', links' := Filter(invs, NotInvoiceId(id)), Filter(links, NotOfInvoice(id));
    StableSort.FilterIdsAscending(invs, NotInvoiceId(id), InvoiceKey);
    StableSort.FilterIdsAscending(links, NotOfInvoice(id), LinkKey);
    FilterPairwise(invs, NotInvoiceId(id), DistinctXeroIds);
    FilterPairwise(links, NotOfInvoice(id), DistinctPairs);
    forall l | l in links'
      ensures HasInvoice(invs', l.invoiceId)
    {
      var v :| v in invs && v.id == l.invoiceId;
      assert NotInvoiceId(id)(v);
    }
  }

  /** `deleteInvoice`: false for an unknown id; otherwise the invoice and,
      by cascade, all of its links are removed. */
  method DeleteInvoice(db: Database, id: int) returns (deleted: bool)
    requires db.Valid()
    modifies db
    ensures db.Valid()
    ensures deleted <==> HasInvoice(old(db.invoices), id)
    ensures !deleted ==> db.invoices == old(db.invoices) && db.links == old(db.links)
    ensures deleted ==>
      && db.invoices == Filter(old(db.invoices), NotInvoiceId(id))
      && db.links == Filter(old(db.links), NotOfInvoice(id))
    ensures !HasInvoice(db.invoices, id) && forall l :: l in db.links ==> l.invoiceId != id
    ensures db.categories == old(db.categories) && db.transactions == old(db.transactions)
    ensures db.nextInvoiceId == old(db.nextInvoiceId)
    ensures db.nextTransactionId == old(db.nextTransactionId) && db.nextLinkId == old(db.nextLinkId)
  {
    var found := Find(db.invoices, InvoiceIdIs(id));
    if found.None? {
      MissingInvoice(db.invoices, id);
      return false;
    }
    FoundInvoice(db.invoices, id);
    RemoveInvoice(db, id);
    return true;
  }

  /** The delete itself, with the cascade to the link table. */
  method RemoveInvoice(db: Database, id: int)
    requires db.Valid()
    modifies db
    ensures db.Valid()
    ensures db.invoices == Filter(old(db.invoices), NotInvoiceId(id))
    ensures db.links == Filter(old(db.links), NotOfInvoice(id))
    ensures !HasInvoice(db.invoices, id) && forall l :: l in db.links ==> l.invoiceId != id
    ensures db.categories == old(db.categories) && db.transactions == old(db.transactions)
    ensures db.nextInvoiceId == old(db.nextInvoiceId)
    ensures db.nextTransactionId == old(db.nextTransactionId) && db.nextLinkId == old(db.nextLinkId)
  {
    DeleteInvoiceSchema(db.links, db.transactions, db.invoices, db.nextInvoiceId, db.nextLinkId, id);
    db.invoices, db.links := Filter(db.invoices, NotInvoiceId(id)), Filter(db.links, NotOfInvoice(id));
  }

  // ---------------------------------------------------------------------
  // Link and unlink
  // ---------------------------------------------------------------------

  /** `LinkTransactionToInvoiceData`. */
  datatype LinkData = LinkData(transactionId: int, invoiceId: int, amount: Option<real>, notes: Option<string>)

  const NotFoundMessage := "Transaction or invoice not found"
  const AlreadyLinkedMessage := "Transaction is already linked to this invoice"

  /** `data.amount || null`: an absent or zero amount is stored as null. */
  function LinkAmount(a: Option<real>): (r: Option<real>)
    ensures r.None? <==> a.None? || a == Some(0.0)
    ensures r.Some? ==> r == a
  {
    if a.Some? && a.value != 0.0 then a else None
  }

  /** Appending a link with the next id, existing parents and a new pair
      keeps the link table's constraints. */
  lemma AppendLinkSchema(links: seq<LinkRow>, txs: seq<TransactionRow>, invs: seq<InvoiceRow>, nextId: int, nextLinkId: int, l: LinkRow)
    requires InvoiceTables(invs, nextId, links, nextLinkId, txs)
    requires l.id == nextLinkId && HasTransaction(txs, l.transactionId) && HasInvoice(invs, l.invoiceId)
    requires !HasPair(links, l.transactionId, l.invoiceId)
    ensures InvoiceTables(invs, nextId, links + [l], nextLinkId + 1, txs)
  {
    var r := links + [l];
    forall i, j | 0 <= i < j < |r|
      ensures DistinctPairs(r[i], r[j]) && LinkKey(r[i]) < LinkKey(r[j])
    {
      assert r[i] == links[i] && links[i] in links;
      if j < |links| {
        assert r[j] == links[j];
        assert DistinctPairs(links[i], links[j]);
        assert LinkKey(links[i]) < LinkKey(links[j]);
      }
    }
  }

  /** Some row of the table has this id. */
  lemma FoundTransaction(txs: seq<TransactionRow>, id: int)
    requires Find(txs, TransactionIdIs(id)).Some?
    ensures HasTransaction(txs, id)
  {
    var t := Find(txs, TransactionIdIs(id)).value;
    assert t in txs && t.id == id;
  }

  lemma MissingTransaction(txs: seq<TransactionRow>, id: int)
    requires Find(txs, TransactionIdIs(id)).None?
    ensures !HasTransaction(txs, id)
  {
    forall t | t in txs
      ensures t.id != id
    {
      var j :| 0 <= j < |txs| && txs[j] == t;
      assert !TransactionIdIs(id)(txs[j]);
    }
  }

  lemma FoundInvoice(invs: seq<InvoiceRow>, id: int)
    requires Find(invs, InvoiceIdIs(id)).Some?
    ensures HasInvoice(invs, id)
  {
    var v := Find(invs, InvoiceIdIs(id)).value;
    assert v in invs && v.id == id;
  }

  lemma MissingInvoice(invs: seq<InvoiceRow>, id: int)
    requires Find(invs, InvoiceIdIs(id)).None?
    ensures !HasInvoice(invs, id)
  {
    forall v | v in invs
      ensures v.id != id
    {
      var j :| 0 <= j < |invs| && invs[j] == v;
      assert !InvoiceIdIs(id)(invs[j]);
    }
  }

  function PairIs(transactionId: int, invoiceId: int): LinkRow -> bool {
    (l: LinkRow) => l.transactionId == transactionId && l.invoiceId == invoiceId
  }

  lemma FoundPair(links: seq<LinkRow>, transactionId: int, invoiceId: int)
    requires Find(links, PairIs(transactionId, invoiceId)).Some?
    ensures HasPair(links, transactionId, invoiceId)
  {
    var l := Find(links, PairIs(transactionId, invoiceId)).value;
    assert l in links && PairIs(transactionId, invoiceId)(l);
  }

  lemma MissingPair(links: seq<LinkRow>, transactionId: int, invoiceId: int)
    requires Find(links, PairIs(transactionId, invoiceId)).None?
    ensures !HasPair(links, transactionId, invoiceId)
  {
    forall l | l in links
      ensures !PairIs(transactionId, invoiceId)(l)
    {
      var j :| 0 <= j < |links| && links[j] == l;
    }
  }

  /** The transaction of a link to an existing transaction is preloaded. */
  lemma LinkResponseLoaded(l: LinkRow, txs: seq<TransactionRow>)
    requires HasTransaction(txs, l.transactionId)
    ensures ToLinkResponse(l, txs).transaction.Some?
    ensures ToLinkResponse(l, txs).transaction.value.id == l.transactionId
  {
    var t :| t in txs && t.id == l.transactionId;
    assert TransactionIdIs(l.transactionId)(t);
  }

  /** The row `linkTransactionToInvoice` inserts under the given id. */
  function NewLink(id: int, d: LinkData): LinkRow {
    LinkRow(id, d.transactionId, d.invoiceId, LinkAmount(d.amount), OrNull(d.notes))
  }

  /** `linkTransactionToInvoice`: both parents must exist and the pair must
      be new; then exactly one link row is added and returned with its
      transaction. */
  method LinkTransactionToInvoice(db: Database, d: LinkData) returns (r: Result<LinkResponse, string>)
    requires db.Valid()
    modifies db
    ensures db.Valid()
    ensures !HasTransaction(old(db.transactions), d.transactionId) || !HasInvoice(old(db.invoices), d.invoiceId) ==>
      r == Err(NotFoundMessage) && db.links == old(db.links) && db.nextLinkId == old(db.nextLinkId)
    ensures (HasTransaction(old(db.transactions), d.transactionId) && HasInvoice(old(db.invoices), d.invoiceId)
      && HasPair(old(db.links), d.transactionId, d.invoiceId)) ==>
      r == Err(AlreadyLinkedMessage) && db.links == old(db.links) && db.nextLinkId == old(db.nextLinkId)
    ensures (HasTransaction(old(db.transactions), d.transactionId) && HasInvoice(old(db.invoices), d.invoiceId)
      && !HasPair(old(db.links), d.transactionId, d.invoiceId)) ==>
      && db.links == old(db.links) + [NewLink(old(db.nextLinkId), d)]
      && db.nextLinkId == old(db.nextLinkId) + 1
      && r == Ok(ToLinkResponse(NewLink(old(db.nextLinkId), d), db.transactions))
      && r.value.transaction.Some? && r.value.transaction.value.id == d.transactionId
    ensures db.categories == old(db.categories) && db.transactions == old(db.transactions)
    ensures db.invoices == old(db.invoices)
    ensures db.nextInvoiceId == old(db.nextInvoiceId) && db.nextTransactionId == old(db.nextTransactionId)
  {
    var transaction := Find(db.transactions, TransactionIdIs(d.transactionId));
    var invoice := Find(db.invoices, InvoiceIdIs(d.invoiceId));
    if transaction.None? || invoice.None? {
      if transaction.None? {
        MissingTransaction(db.transactions, d.transactionId);
      } else {
        MissingInvoice(db.invoices, d.invoiceId);
      }
      return Err(NotFoundMessage);
    }
    FoundTransaction(db.transactions, d.transactionId);
    FoundInvoice(db.invoices, d.invoiceId);
    var existing := Find(db.links, PairIs(d.transactionId, d.invoiceId));
    if existing.Some? {
      FoundPair(db.links, d.transactionId, d.invoiceId);
      return Err(AlreadyLinkedMessage);
    }
    MissingPair(db.links, d.transactionId, d.invoiceId);
    var l := NewLink(db.nextLinkId, d);
    AppendLinkSchema(db.links, db.transactions, db.invoices, db.nextInvoiceId, db.nextLinkId, l);
    LinkResponseLoaded(l, db.transactions);
    r := Ok(ToLinkResponse(l, db.transactions));
    db.links, db.nextLinkId := db.links + [l], db.nextLinkId + 1;
  }

  /** Removing the `k`-th link keeps the link table's constraints. */
  lemma RemoveLinkSchema(links: seq<LinkRow>, txs: seq<TransactionRow>, invs: seq<InvoiceRow>, nextId: int, nextLinkId: int, k: nat)
    requires InvoiceTables(invs, nextId, links, nextLinkId, txs)
    requires k < |links|
    ensures InvoiceTables(invs, nextId, links[..k] + links[k + 1..], nextLinkId, txs)
  {
    var r := links[..k] + links[k + 1..];
    assert forall i :: 0 <= i < |r| ==> r[i] == links[if i < k then i else i + 1];
    forall i, j | 0 <= i < j < |r|
      ensures DistinctPairs(r[i], r[j]) && LinkKey(r[i]) < LinkKey(r[j])
    {
      var a, b := if i < k then i else i + 1, if j < k then j else j + 1;
      assert DistinctPairs(links[a], links[b]) && LinkKey(links[a]) < LinkKey(links[b]);
    }
    forall m | m in r
      ensures m in links
    {
      var i :| 0 <= i < |r| && r[i] == m;
      assert links[if i < k then i else i + 1] in links;
    }
  }

  /** `unlinkTransactionFromInvoice`: false when the pair is not linked;
      otherwise that one link is deleted. */
  method UnlinkTransactionFromInvoice(db: Database, transactionId: int, invoiceId: int) returns (removed: bool)
    requires db.Valid()
    modifies db
    ensures db.Valid()
    ensures removed <==> HasPair(old(db.links), transactionId, invoiceId)
    ensures !removed ==> db.links == old(db.links)
    ensures removed ==>
      && |db.links| == |old(db.links)| - 1
      && !HasPair(db.links, transactionId, invoiceId)
      && (forall l :: l in db.links ==> l in old(db.links))
      && (forall l :: l in old(db.links) && !PairIs(transactionId, invoiceId)(l) ==> l in db.links)
    ensures removed ==>
      exists k :: 0 <= k < |old(db.links)| && PairIs(transactionId, invoiceId)(old(db.links)[k])
                  && db.links == old(db.links)[..k] + old(db.links)[k + 1..]
    ensures db.categories == old(db.categories) && db.transactions == old(db.transactions)
    ensures db.invoices == old(db.invoices)
    ensures db.nextInvoiceId == old(db.nextInvoiceId) && db.nextTransactionId == old(db.nextTransactionId)
    ensures db.nextLinkId == old(db.nextLinkId)
  {
    var found := FindIndex(db.links, PairIs(transactionId, invoiceId));
    if found.None? {
      assert !HasPair(db.links, transactionId, invoiceId) by {
        forall m | m in db.links
          ensures !PairIs(transactionId, invoiceId)(m)
        {
          var j :| 0 <= j < |db.links| && db.links[j] == m;
        }
      }
      return false;
    }
    var k := found.value;
    assert db.links[k] in db.links;
    RemoveLinkSchema(db.links, db.transactions, db.invoices, db.nextInvoiceId, db.nextLinkId, k);
    UnlinkRemovesPair(db.links, k, transactionId, invoiceId);
    db.links := db.links[..k] + db.links[k + 1..];
    return true;
  }

  /** With unique pairs, removing the link found for a pair removes that
      pair and keeps every other link. */
  lemma UnlinkRemovesPair(links: seq<LinkRow>, k: nat, transactionId: int, invoiceId: int)
    requires PairsUnique(links) && k < |links| && PairIs(transactionId, invoiceId)(links[k])
    ensures !HasPair(links[..k] + links[k + 1..], transactionId, invoiceId)
    ensures forall l :: l in links && !PairIs(transactionId, invoiceId)(l) ==> l in links[..k] + links[k + 1..]
  {
    var r := links[..k] + links[k + 1..];
    assert forall i :: 0 <= i < |r| ==> r[i] == links[if i < k then i else i + 1];
    forall m | m in r
      ensures !PairIs(transactionId, invoiceId)(m)
    {
      var i :| 0 <= i < |r| && r[i] == m;
      var a := if i < k then i else i + 1;
      if a < k {
        assert DistinctPairs(links[a], links[k]);
      } else {
        assert DistinctPairs(links[k], links[a]);
      }
    }
    forall l | l in links && !PairIs(transactionId, invoiceId)(l)
      ensures l in r
    {
      var j :| 0 <= j < |links| && links[j] == l;
      assert r[if j < k then j else j - 1] == l;
    }
  }
}

=== FILE: invoice_store.dfy ===
/** The front-end invoice store: groupings by status and type, the
    outstanding and paid totals, and the actions that update the cached
    list after each reply. */
module InvoiceStore {
  import opened Wrappers
  import opened Strings
  import opened Seqs
  import opened Grouping
  import opened ApiReply

  /** An invoice as the backend returns it; status and type are the raw
      strings. */
  datatype Invoice = Invoice(
    id: int,
    invoiceNumber: string,
    contactName: string,
    status: string,
    invoiceType: string,
    totalAmount: real)

  datatype TransactionInvoiceLink = TransactionInvoiceLink(
    id: int,
    transactionId: int,
    invoiceId: int,
    amount: Option<real>,
    notes: Option<string>)

  function StatusKey(): Invoice -> string {
    (v: Invoice) => v.status
  }

  function TypeKey(): Invoice -> string {
    (v: Invoice) => v.invoiceType
  }

  /** `invoicesByStatus`. */
  function ByStatus(invs: seq<Invoice>): seq<Group<Invoice>> {
    GroupBy(invs, StatusKey())
  }

  /** `invoicesByType`. */
  function ByType(invs: seq<Invoice>): seq<Group<Invoice>> {
    GroupBy(invs, TypeKey())
  }

  /** Each invoice is in exactly the group of its status, and the group of
      its type, with the original order kept inside each group. */
  lemma GroupingsFacts(invs: seq<Invoice>)
    ensures forall i :: 0 <= i < |ByStatus(invs)| ==>
      ByStatus(invs)[i].items == Filter(invs, HasKey(StatusKey(), ByStatus(invs)[i].key))
    ensures forall i :: 0 <= i < |ByType(invs)| ==>
      ByType(invs)[i].items == Filter(invs, HasKey(TypeKey(), ByType(invs)[i].key))
    ensures forall v :: v in invs ==> v in Lookup(ByStatus(invs), v.status) && v in Lookup(ByType(invs), v.invoiceType)
    ensures forall i, j :: 0 <= i < j < |ByStatus(invs)| ==> ByStatus(invs)[i].key != ByStatus(invs)[j].key
    ensures forall i, j :: 0 <= i < j < |ByType(invs)| ==> ByType(invs)[i].key != ByType(invs)[j].key
  {
    GroupByFacts(invs, StatusKey());
    GroupByFacts(invs, TypeKey());
    GroupedKeysDistinct(invs, StatusKey(), ByStatus(invs));
    GroupedKeysDistinct(invs, TypeKey(), ByType(invs));
    forall v | v in invs
      ensures v in Lookup(ByStatus(invs), v.status) && v in Lookup(ByType(invs), v.invoiceType)
    {
      GroupLookup(invs, StatusKey(), v.status);
      GroupLookup(invs, TypeKey(), v.invoiceType);
      assert HasKey(StatusKey(), v.status)(v) && HasKey(TypeKey(), v.invoiceType)(v);
    }
  }

  function AmountOf(v: Invoice): real { v.totalAmount }

  function IsOutstanding(v: Invoice): bool { v.status == "SENT" || v.status == "DRAFT" }
  function IsPaid(v: Invoice): bool { v.status == "PAID" }
  function IsNeither(v: Invoice): bool { !IsOutstanding(v) && !IsPaid(v) }

  /** `totalOutstanding`. */
  function Outstanding(invs: seq<Invoice>): real {
    SumOf(Filter(invs, IsOutstanding), AmountOf)
  }

  /** `totalPaid`. */
  function Paid(invs: seq<Invoice>): real {
    SumOf(Filter(invs, IsPaid), AmountOf)
  }

  function Rest(invs: seq<Invoice>): real {
    SumOf(Filter(invs, IsNeither), AmountOf)
  }

  /** One invoice falls in exactly one of the three totals. */
  lemma OneBucket(v: Invoice)
    ensures (if IsOutstanding(v) then AmountOf(v) else 0.0) + (if IsPaid(v) then AmountOf(v) else 0.0)
      + (if IsNeither(v) then AmountOf(v) else 0.0) == AmountOf(v)
  {
    if IsOutstanding(v) {
      assert v.status != "PAID" by {
        assert v.status[0] != 'P';
      }
    }
  }

  /** Every invoice's amount is counted once: as outstanding ('SENT' or
      'DRAFT'), as paid ('PAID'), or in neither total (any other status). */
  lemma {:induction false} TotalsPartition(invs: seq<Invoice>)
    ensures SumOf(invs, AmountOf) == Outstanding(invs) + Paid(invs) + Rest(invs)
    decreases |invs|
  {
    if invs != [] {
      var init, last := invs[..|invs| - 1], invs[|invs| - 1];
      assert invs == init + [last];
      TotalsPartition(init);
      SumOfSnoc(init, last, AmountOf);
      assert Outstanding(invs) == Outstanding(init) + (if IsOutstanding(last) then AmountOf(last) else 0.0) by {
        FilteredSumSnoc(init, last, IsOutstanding, AmountOf);
      }
      assert Paid(invs) == Paid(init) + (if IsPaid(last) then AmountOf(last) else 0.0) by {
        FilteredSumSnoc(init, last, IsPaid, AmountOf);
      }
      assert Rest(invs) == Rest(init) + (if IsNeither(last) then AmountOf(last) else 0.0) by {
        FilteredSumSnoc(init, last, IsNeither, AmountOf);
      }
      OneBucket(last);
    }
  }

  function IdIs(id: int): Invoice -> bool {
    (v: Invoice) => v.id == id
  }

  function IdIsNot(id: int): Invoice -> bool {
    (v: Invoice) => v.id != id
  }

  class Store {
    var invoices: seq<Invoice>
    var loading: bool
    var error: Option<string>

    constructor ()
      ensures invoices == [] && !loading && error == None
    {
      invoices := [];
      loading := false;
      error := None;
    }

    function TotalOutstanding(): real
      reads this
    {
      Outstanding(invoices)
    }

    function TotalPaid(): real
      reads this
    {
      Paid(invoices)
    }

    function InvoicesByStatus(): seq<Group<Invoice>>
      reads this
    {
      ByStatus(invoices)
    }

    function InvoicesByType(): seq<Group<Invoice>>
      reads this
    {
      ByType(invoices)
    }

    /** `fetchInvoices`: the list is replaced by the reply's data. */
    method FetchInvoices(call: Call<seq<Invoice>>) returns (r: Settled<()>)
      modifies this
      ensures !loading
      ensures match Settle(call, "Failed to fetch invoices")
        case Done(v) => invoices == v && error == None && r == Resolved(())
        case Failed(t, text) => invoices == old(invoices) && error == Some(text) && r == Raised(t)
    {
      loading := true;
      error := None;
      match Settle(call, "Failed to fetch invoices") {
        case Done(v) =>
          invoices := v;
          r := Resolved(());
        case Failed(t, text) =>
          error := Some(text);
          r := Raised(t);
      }
      loading := false;
    }

    /** `syncFromXero`: needs a token; the list is replaced by the synced
        invoices. */
    method SyncFromXero(token: Option<string>, call: Call<seq<Invoice>>) returns (r: Settled<seq<Invoice>>)
      modifies this
      ensures !loading
      ensures !Truthy(token) ==>
        r == Raised(ErrorValue(NoTokenMessage)) && error == Some(NoTokenMessage) && invoices == old(invoices)
      ensures Truthy(token) ==>
        match Settle(call, "Failed to sync invoices from Xero")
        case Done(v) => invoices == v && error == None && r == Resolved(v)
        case Failed(t, text) => invoices == old(invoices) && error == Some(text) && r == Raised(t)
    {
      loading := true;
      error := None;
      if !Truthy(token) {
        error := Some(NoTokenMessage);
        r := Raised(ErrorValue(NoTokenMessage));
      } else {
        match Settle(call, "Failed to sync invoices from Xero") {
          case Done(v) =>
            invoices := v;
            r := Resolved(v);
          case Failed(t, text) =>
            error := Some(text);
            r := Raised(t);
        }
      }
      loading := false;
    }

    /** `getInvoiceById`: returns the reply's invoice; the list is not touched. */
    method GetInvoiceById(call: Call<Invoice>) returns (r: Settled<Invoice>)
      modifies this
      ensures !loading && invoices == old(invoices)
      ensures match Settle(call, "Failed to fetch invoice")
        case Done(v) => error == None && r == Resolved(v)
        case Failed(t, text) => error == Some(text) && r == Raised(t)
    {
      loading := true;
      error := None;
      match Settle(call, "Failed to fetch invoice") {
        case Done(v) =>
          r := Resolved(v);
        case Failed(t, text) =>
          error := Some(text);
          r := Raised(t);
      }
      loading := false;
    }

    /** `createInvoice`: needs a token; the created invoice is put first and
        the rest of the list is kept. */
    method CreateInvoice(token: Option<string>, call: Call<Invoice>) returns (r: Settled<Invoice>)
      modifies this
      ensures !loading
      ensures !Truthy(token) ==>
        r == Raised(ErrorValue(NoTokenMessage)) && error == Some(NoTokenMessage) && invoices == old(invoices)
      ensures Truthy(token) ==>
        match Settle(call, "Failed to create invoice")
        case Done(v) => invoices == [v] + old(invoices) && error == None && r == Resolved(v)
        case Failed(t, text) => invoices == old(invoices) && error == Some(text) && r == Raised(t)
    {
      loading := true;
      error := None;
      if !Truthy(token) {
        error := Some(NoTokenMessage);
        r := Raised(ErrorValue(NoTokenMessage));
      } else {
        match Settle(call, "Failed to create invoice") {
          case Done(v) =>
            invoices := [v] + invoices;
            r := Resolved(v);
          case Failed(t, text) =>
            error := Some(text);
            r := Raised(t);
        }
      }
      loading := false;
    }

    /** `updateInvoice`: needs a token; the reply's invoice replaces the first
        cached invoice with that id, if there is one. */
    method UpdateInvoice(id: int, token: Option<string>, call: Call<Invoice>) returns (r: Settled<Invoice>)
      modifies this
      ensures !loading
      ensures !Truthy(token) ==>
        r == Raised(ErrorValue(NoTokenMessage)) && error == Some(NoTokenMessage) && invoices == old(invoices)
      ensures Truthy(token) ==>
        match Settle(call, "Failed to update invoice")
        case Done(v) =>
          && error == None && r == Resolved(v)
          && |invoices| == |old(invoices)|
          && (forall j :: 0 <= j < |invoices| && invoices[j] != old(invoices)[j] ==>
                old(invoices)[j].id == id && invoices[j] == v
                && forall i :: 0 <= i < j ==> old(invoices)[i].id != id)
          && ((forall j :: 0 <= j < |old(invoices)| ==> old(invoices)[j].id != id) ==> invoices == old(invoices))
          && (forall j ::
                0 <= j < |old(invoices)| && old(invoices)[j].id == id
                && (forall i :: 0 <= i < j ==> old(invoices)[i].id != id)
                ==> invoices == old(invoices)[j := v])
        case Failed(t, text) => invoices == old(invoices) && error == Some(text) && r == Raised(t)
    {
      loading := true;
      error := None;
      if !Truthy(token) {
        error := Some(NoTokenMessage);
        r := Raised(ErrorValue(NoTokenMessage));
      } else {
        match Settle(call, "Failed to update invoice") {
          case Done(v) =>
            var index := FindIndex(invoices, IdIs(id));
            if index.Some? {
              invoices := invoices[index.value := v];
            }
            r := Resolved(v);
          case Failed(t, text) =>
            error := Some(text);
            r := Raised(t);
        }
      }
      loading := false;
    }

    /** `deleteInvoice`: needs a token; every cached invoice with that id is
        dropped and the others keep their order. */
    method DeleteInvoice(id: int, token: Option<string>, call: Call<()>) returns (r: Settled<bool>)
      modifies this
      ensures !loading
      ensures !Truthy(token) ==>
        r == Raised(ErrorValue(NoTokenMessage)) && error == Some(NoTokenMessage) && invoices == old(invoices)
      ensures Truthy(token) ==>
        match Settle(call, "Failed to delete invoice")
        case Done(_) =>
          && invoices == Filter(old(invoices), IdIsNot(id))
          && (forall v :: v in invoices ==> v.id != id)
          && error == None && r == Resolved(true)
        case Failed(t, text) => invoices == old(invoices) && error == Some(text) && r == Raised(t)
    {
      loading := true;
      error := None;
      if !Truthy(token) {
        error := Some(NoTokenMessage);
        r := Raised(ErrorValue(NoTokenMessage));
      } else {
        match Settle(call, "Failed to delete invoice") {
          case Done(_) =>
            invoices := Filter(invoices, IdIsNot(id));
            r := Resolved(true);
          case Failed(t, text) =>
            error := Some(text);
            r := Raised(t);
        }
      }
      loading := false;
    }

    /** `getInvoiceTransactions`: returns the reply's links. */
    method GetInvoiceTransactions(call: Call<seq<TransactionInvoiceLink>>) returns (r: Settled<seq<TransactionInvoiceLink>>)
      modifies this
      ensures !loading && invoices == old(invoices)
      ensures match Settle(call, "Failed to fetch invoice transactions")
        case Done(v) => error == None && r == Resolved(v)
        case Failed(t, text) => error == Some(text) && r == Raised(t)
    {
      loading := true;
      error := None;
      match Settle(call, "Failed to fetch invoice transactions") {
        case Done(v) =>
          r := Resolved(v);
        case Failed(t, text) =>
          error := Some(text);
          r := Raised(t);
      }
      loading := false;
    }

    /** `linkTransactionToInvoice`: needs a token; returns the new link. */
    method LinkTransactionToInvoice(token: Option<string>, call: Call<TransactionInvoiceLink>)
      returns (r: Settled<TransactionInvoiceLink>)
      modifies this
      ensures !loading && invoices == old(invoices)
      ensures !Truthy(token) ==> r == Raised(ErrorValue(NoTokenMessage)) && error == Some(NoTokenMessage)
      ensures Truthy(token) ==>
        match Settle(call, "Failed to link transaction to invoice")
        case Done(v) => error == None && r == Resolved(v)
        case Failed(t, text) => error == Some(text) && r == Raised(t)
    {
      loading := true;
      error := None;
      if !Truthy(token) {
        error := Some(NoTokenMessage);
        r := Raised(ErrorValue(NoTokenMessage));
      } else {
        match Settle(call, "Failed to link transaction to invoice") {
          case Done(v) =>
            r := Resolved(v);
          case Failed(t, text) =>
            error := Some(text);
            r := Raised(t);
        }
      }
      loading := false;
    }

    /** `unlinkTransactionFromInvoice`: needs a token; resolves with true. */
    method UnlinkTransactionFromInvoice(token: Option<string>, call: Call<()>) returns (r: Settled<bool>)
      modifies this
      ensures !loading && invoices == old(invoices)
      ensures !Truthy(token) ==> r == Raised(ErrorValue(NoTokenMessage)) && error == Some(NoTokenMessage)
      ensures Truthy(token) ==>
        match Settle(call, "Failed to unlink transaction from invoice")
        case Done(_) => error == None && r == Resolved(true)
        case Failed(t, text) => error == Some(text) && r == Raised(t)
    {
      loading := true;
      error := None;
      if !Truthy(token) {
        error := Some(NoTokenMessage);
        r := Raised(ErrorValue(NoTokenMessage));
      } else {
        match Settle(call, "Failed to unlink transaction from invoice") {
          case Done(_) =>
            r := Resolved(true);
          case Failed(t, text) =>
            error := Some(text);
            r := Raised(t);
        }
      }
      loading := false;
    }

    /** `getTransactionInvoices`: returns the reply's invoices. */
    method GetTransactionInvoices(call: Call<seq<Invoice>>) returns (r: Settled<seq<Invoice>>)
      modifies this
      ensures !loading && invoices == old(invoices)
      ensures match Settle(call, "Failed to fetch transaction invoices")
        case Done(v) => error == None && r == Resolved(v)
        case Failed(t, text) => error == Some(text) && r == Raised(t)
    {
      loading := true;
      error := None;
      match Settle(call, "Failed to fetch transaction invoices") {
        case Done(v) =>
          r := Resolved(v);
        case Failed(t, text) =>
          error := Some(text);
          r := Raised(t);
      }
      loading := false;
    }

    method ClearError()
      modifies this
      ensures error == None && invoices == old(invoices) && loading == old(loading)
    {
      error := None;
    }
  }
}

=== FILE: invoice_types.dfy ===
/** The invoice enums of the backend and the field set that the Xero mapping
    produces and the invoice table stores. */
module InvoiceTypes {
  import opened Wrappers

  /** Internal invoice status; the constructors are the enum's string values. */
  datatype InvoiceStatus = DRAFT | SUBMITTED | DELETED | AUTHORISED | PAID | VOIDED

  datatype InvoiceType = ACCREC | ACCPAY

  function StatusName(s: InvoiceStatus): string {
    match s
    case DRAFT => "DRAFT"
    case SUBMITTED => "SUBMITTED"
    case DELETED => "DELETED"
    case AUTHORISED => "AUTHORISED"
    case PAID => "PAID"
    case VOIDED => "VOIDED"
  }

  function TypeName(t: InvoiceType): string {
    match t
    case ACCREC => "ACCREC"
    case ACCPAY => "ACCPAY"
  }

  /** Distinct enum members have distinct string values. */
  lemma StatusNameInjective(a: InvoiceStatus, b: InvoiceStatus)
    requires StatusName(a) == StatusName(b)
    ensures a == b
  {
    match a
    case DRAFT =>
    case SUBMITTED =>
    case DELETED =>
    case AUTHORISED =>
    case PAID =>
    case VOIDED =>
  }

  /** The invoice fields other than the database id: what the Xero mapping
      returns (a `Partial<InvoiceResponse>` with every key set) and what an
      invoice row holds. Dates are ISO date strings. */
  datatype InvoiceFields = InvoiceFields(
    xeroInvoiceId: string,
    invoiceNumber: string,
    contactName: string,
    contactEmail: Option<string>,
    subTotal: real,
    taxAmount: real,
    totalAmount: real,
    currency: string,
    status: InvoiceStatus,
    invoiceDate: string,
    dueDate: Option<string>,
    paidDate: Option<string>,
    description: Option<string>,
    reference: Option<string>,
    invoiceType: InvoiceType)
}

=== FILE: invoices_controller.dfy ===
/** The invoices controller: each action maps the invoice service's outcome
    (a value, null, false or a throw) to a status and an envelope. */
module InvoicesController {
  import opened Wrappers
  import opened Strings
  import opened Envelope
  import InvoiceService

  type Invoice = InvoiceService.InvoiceResponse
  type Link = InvoiceService.LinkResponse

  /** `error.message`: absent from the envelope when the thrown value is
      not an `Error`. */
  function MessageOf(t: Thrown): (r: Option<string>)
    ensures r.Some? <==> t.ErrorValue?
    ensures r.Some? ==> r.value == t.message
  {
    match t
    case ErrorValue(m) => Some(m)
    case NonError => None
  }

  /** The catch branch shared by every action. */
  function Caught<T>(status: int, failMessage: string, t: Thrown): (r: Reply<T>)
    ensures !r.body.success && r.status == status
    ensures r.body.message == Some(failMessage) && r.body.error == MessageOf(t) && r.body.data.None?
  {
    Failure(status, failMessage, MessageOf(t))
  }

  const SyncPrefix := "Successfully synced "
  const SyncSuffix := " invoices from Xero"

  /** `syncFromXero`: 200 with the count of synced invoices in the message. */
  function SyncFromXero(o: Outcome<seq<Invoice>>): (r: Reply<seq<Invoice>>)
    ensures o.Returned? ==>
      && r.status == OK && r.body.success && r.body.data == Some(o.value)
      && r.body.message == Some(SyncPrefix + NatToString(|o.value|) + SyncSuffix)
    ensures o.Threw? ==> r == Caught(INTERNAL_SERVER_ERROR, "Failed to sync invoices from Xero", o.thrown)
  {
    match o
    case Returned(v) => Success(OK, Some(SyncPrefix + NatToString(|v|) + SyncSuffix), Some(v))
    case Threw(t) => Caught(INTERNAL_SERVER_ERROR, "Failed to sync invoices from Xero", t)
  }

  /** The number in the sync message reads back as the length of the list
      returned. */
  lemma SyncMessageCount(v: seq<Invoice>)
    ensures var m := SyncFromXero(Returned(v)).body.message.value;
      && |SyncPrefix| + |SyncSuffix| < |m|
      && ParseNat(m[|SyncPrefix|..|m| - |SyncSuffix|]) == |v|
  {
    var digits := NatToString(|v|);
    var m := SyncPrefix + digits + SyncSuffix;
    assert m[|SyncPrefix|..|m| - |SyncSuffix|] == digits;
    ParseNatToString(|v|);
  }

  /** `index`. */
  function Index(o: Outcome<seq<Invoice>>): (r: Reply<seq<Invoice>>)
    ensures o.Returned? ==> r == Success(OK, None, Some(o.value))
    ensures o.Threw? ==> r == Caught(INTERNAL_SERVER_ERROR, "Failed to fetch invoices", o.thrown)
  {
    match o
    case Returned(v) => Success(OK, None, Some(v))
    case Threw(t) => Caught(INTERNAL_SERVER_ERROR, "Failed to fetch invoices", t)
  }

  /** `show`: 404 when the service finds no invoice. */
  function Show(o: Outcome<Option<Invoice>>): (r: Reply<Invoice>)
    ensures r.status == NOT_FOUND <==> o == Returned(None)
    ensures r.status == OK <==> o.Returned? && o.value.Some?
    ensures o.Returned? && o.value.Some? ==> r.body == Body(true, None, Some(o.value.value), None)
    ensures o.Threw? ==> r == Caught(INTERNAL_SERVER_ERROR, "Failed to fetch invoice", o.thrown)
  {
    match o
    case Returned(None) => Failure(NOT_FOUND, "Invoice not found", None)
    case Returned(Some(v)) => Success(OK, None, Some(v))
    case Threw(t) => Caught(INTERNAL_SERVER_ERROR, "Failed to fetch invoice", t)
  }

  /** `store`: 201 with the created invoice. */
  function Store(o: Outcome<Invoice>): (r: Reply<Invoice>)
    ensures r.status == CREATED <==> o.Returned?
    ensures o.Returned? ==> r.body == Body(true, Some("Invoice created successfully"), Some(o.value), None)
    ensures o.Threw? ==> r == Caught(INTERNAL_SERVER_ERROR, "Failed to create invoice", o.thrown)
  {
    match o
    case Returned(v) => Success(CREATED, Some("Invoice created successfully"), Some(v))
    case Threw(t) => Caught(INTERNAL_SERVER_ERROR, "Failed to create invoice", t)
  }

  /** `update`: 404 when the service finds no invoice. */
  function Update(o: Outcome<Option<Invoice>>): (r: Reply<Invoice>)
    ensures r.status == NOT_FOUND <==> o == Returned(None)
    ensures r.status == OK <==> o.Returned? && o.value.Some?
    ensures o.Returned? && o.value.Some? ==>
      r.body == Body(true, Some("Invoice updated successfully"), Some(o.value.value), None)
    ensures o.Threw? ==> r == Caught(INTERNAL_SERVER_ERROR, "Failed to update invoice", o.thrown)
  {
    match o
    case Returned(None) => Failure(NOT_FOUND, "Invoice not found", None)
    case Returned(Some(v)) => Success(OK, Some("Invoice updated successfully"), Some(v))
    case Threw(t) => Caught(INTERNAL_SERVER_ERROR, "Failed to update invoice", t)
  }

  /** `destroy`: 404 when the service reports nothing deleted. */
  function Destroy(o: Outcome<bool>): (r: Reply<NoData>)
    ensures r.status == NOT_FOUND <==> o == Returned(false)
    ensures r.status == OK <==> o == Returned(true)
    ensures r.body.data.None?
    ensures o.Threw? ==> r == Caught(INTERNAL_SERVER_ERROR, "Failed to delete invoice", o.thrown)
  {
    match o
    case Returned(false) => Failure(NOT_FOUND, "Invoice not found", None)
    case Returned(true) => Success(OK, Some("Invoice deleted successfully"), None)
    case Threw(t) => Caught(INTERNAL_SERVER_ERROR, "Failed to delete invoice", t)
  }

  /** `getTransactions`. */
  function GetTransactions(o: Outcome<seq<Link>>): (r: Reply<seq<Link>>)
    ensures o.Returned? ==> r == Success(OK, None, Some(o.value))
    ensures o.Threw? ==> r == Caught(INTERNAL_SERVER_ERROR, "Failed to fetch invoice transactions", o.thrown)
  {
    match o
    case Returned(v) => Success(OK, None, Some(v))
    case Threw(t) => Caught(INTERNAL_SERVER_ERROR, "Failed to fetch invoice transactions", t)
  }

  /** `linkTransaction`: every failure, not-found and duplicate alike, is a
      400 that carries the service's message. */
  function LinkTransaction(o: Outcome<Link>): (r: Reply<Link>)
    ensures r.status == CREATED <==> o.Returned?
    ensures r.status == BAD_REQUEST <==> o.Threw?
    ensures o.Returned? ==> r.body == Body(true, Some("Transaction linked to invoice successfully"), Some(o.value), None)
    ensures o.Threw? ==> r.body.message == Some("Failed to link transaction to invoice") && r.body.error == MessageOf(o.thrown)
  {
    match o
    case Returned(v) => Success(CREATED, Some("Transaction linked to invoice successfully"), Some(v))
    case Threw(t) => Caught(BAD_REQUEST, "Failed to link transaction to invoice", t)
  }

  /** The two refusals of the link service reach the client as 400 with
      their own message. */
  lemma LinkFailuresAreBadRequest(r: Result<Link, string>)
    requires r == Err(InvoiceService.NotFoundMessage) || r == Err(InvoiceService.AlreadyLinkedMessage)
    ensures LinkTransaction(FromResult(r)).status == BAD_REQUEST
    ensures LinkTransaction(FromResult(r)).body.error == Some(r.error)
  {
  }

  /** `unlinkTransaction`: 400 without calling the service when either id is
      falsy (0 included), 404 when no link was removed. */
  function UnlinkTransaction(transactionId: Field, invoiceId: Field, o: Outcome<bool>): (r: Reply<NoData>)
    ensures !FieldTruthy(transactionId) || !FieldTruthy(invoiceId) ==>
      r == Failure(BAD_REQUEST, "Transaction ID and Invoice ID are required", None)
    ensures FieldTruthy(transactionId) && FieldTruthy(invoiceId) ==>
      && (r.status == NOT_FOUND <==> o == Returned(false))
      && (o == Returned(false) ==> r.body.message == Some("Transaction-invoice link not found"))
      && (r.status == OK <==> o == Returned(true))
      && (o.Threw? ==> r == Caught(INTERNAL_SERVER_ERROR, "Failed to unlink transaction from invoice", o.thrown))
  {
    if !FieldTruthy(transactionId) || !FieldTruthy(invoiceId) then
      Failure(BAD_REQUEST, "Transaction ID and Invoice ID are required", None)
    else
      match o
      case Returned(false) => Failure(NOT_FOUND, "Transaction-invoice link not found", None)
      case Returned(true) => Success(OK, Some("Transaction unlinked from invoice successfully"), None)
      case Threw(t) => Caught(INTERNAL_SERVER_ERROR, "Failed to unlink transaction from invoice", t)
  }

  /** An id of 0 is refused before the service is asked. */
  lemma UnlinkRefusesZeroId(other: Field, o1: Outcome<bool>, o2: Outcome<bool>)
    ensures UnlinkTransaction(Number(0.0), other, o1) == UnlinkTransaction(Number(0.0), other, o2)
    ensures UnlinkTransaction(other, Number(0.0), o1) == UnlinkTransaction(other, Number(0.0), o2)
    ensures UnlinkTransaction(Number(0.0), other, o1).status == BAD_REQUEST
  {
  }

  /** `getTransactionInvoices`. */
  function GetTransactionInvoices(o: Outcome<seq<Invoice>>): (r: Reply<seq<Invoice>>)
    ensures o.Returned? ==> r == Success(OK, None, Some(o.value))
    ensures o.Threw? ==> r == Caught(INTERNAL_SERVER_ERROR, "Failed to fetch transaction invoices", o.thrown)
  {
    match o
    case Returned(v) => Success(OK, None, Some(v))
    case Threw(t) => Caught(INTERNAL_SERVER_ERROR, "Failed to fetch transaction invoices", t)
  }
}

=== FILE: math_utils.dfy ===
/** `calculateTotal`, `calculateAverage` and `calculatePercentage`, over
    exact reals; `toFixed(1)` rounds to the nearest tenth, ties upwards in
    magnitude, and writes a '-' for a negative value. */
module MathUtils {
  import opened Strings

  /** `values.reduce((sum, value) => sum + value, 0)`. */
  function Total(values: seq<real>): real {
    if values == [] then 0.0 else Total(values[..|values| - 1]) + values[|values| - 1]
  }

  /** The total of a concatenation is the sum of the totals. */
  lemma {:induction false} TotalAppend(a: seq<real>, b: seq<real>)
    ensures Total(a + b) == Total(a) + Total(b)
    decreases |b|
  {
    if b != [] {
      assert (a + b)[..|a + b| - 1] == a + b[..|b| - 1];
      TotalAppend(a, b[..|b| - 1]);
    } else {
      assert a + b == a;
    }
  }

  /** Every value between `lo` and `hi` puts the total between `n * lo` and
      `n * hi`. */
  lemma {:induction false} TotalBounds(values: seq<real>, lo: real, hi: real)
    requires forall i :: 0 <= i < |values| ==> lo <= values[i] <= hi
    ensures |values| as real * lo <= Total(values) <= |values| as real * hi
    decreases |values|
  {
    if values != [] {
      var n := |values| - 1;
      TotalBounds(values[..n], lo, hi);
      assert (n + 1) as real * lo == n as real * lo + lo;
      assert (n + 1) as real * hi == n as real * hi + hi;
    }
  }

  /** `calculateAverage`: 0 for no values, otherwise the value whose
      `n`-fold is the total. */
  function Average(values: seq<real>): (r: real)
    ensures values == [] ==> r == 0.0
    ensures values != [] ==> r * |values| as real == Total(values)
  {
    if |values| == 0 then 0.0 else Total(values) / |values| as real
  }

  /** The average lies between the smallest and the largest bound. */
  lemma AverageBounds(values: seq<real>, lo: real, hi: real)
    requires values != []
    requires forall i :: 0 <= i < |values| ==> lo <= values[i] <= hi
    ensures lo <= Average(values) <= hi
  {
    TotalBounds(values, lo, hi);
    var n := |values| as real;
    var r := Average(values);
    assert r * n >= lo * n;
    assert r * n <= hi * n;
  }

  /** The nearest whole number of tenths to `m`, the larger on a tie. */
  function Tenths(m: real): (t: nat)
    requires m >= 0.0
    ensures t as real - 0.5 <= m * 10.0 < t as real + 0.5
  {
    (m * 10.0 + 0.5).Floor
  }

  /** `x.toFixed(1)`. */
  function ToFixed1(x: real): (r: string)
    ensures |r| >= 3 && r[|r| - 2] == '.'
    ensures StartsWithMinus(r) <==> x < 0.0
  {
    var m := if x < 0.0 then -x else x;
    var t := Tenths(m);
    var digits := NatToString(t / 10) + "." + [DigitChar(t % 10)];
    if x < 0.0 then "-" + digits else digits
  }

  /** Reading the text of `toFixed(1)` back gives the nearest tenth. */
  lemma ToFixed1Value(x: real)
    ensures var u := Unsigned(ToFixed1(x));
      && |u| >= 3 && AllDigits(u[..|u| - 2]) && IsDigit(u[|u| - 1])
      && var t := ParseNat(u[..|u| - 2]) * 10 + DigitValue(u[|u| - 1]);
         t as real - 0.5 <= (if x < 0.0 then -x else x) * 10.0 < t as real + 0.5
  {
    var m := if x < 0.0 then -x else x;
    var t := Tenths(m);
    var u := NatToString(t / 10) + "." + [DigitChar(t % 10)];
    assert Unsigned(ToFixed1(x)) == u by {
      if x < 0.0 {
        assert ("-" + u)[1..] == u;
      } else {
        assert !StartsWithMinus(u) by {
          assert IsDigit(u[0]);
        }
      }
    }
    assert u[..|u| - 2] == NatToString(t / 10);
    ParseNatToString(t / 10);
  }

  /** `calculatePercentage(value, total)`. */
  function Percentage(value: real, total: real): (r: string)
    ensures total == 0.0 ==> r == "0.0"
  {
    if total == 0.0 then "0.0"
    else ToFixed1((if value < 0.0 then -value else value) / total * 100.0)
  }

  /** The sign of the value does not matter. */
  lemma PercentageSymmetric(value: real, total: real)
    ensures Percentage(-value, total) == Percentage(value, total)
  {
  }

  /** A share of a non-negative amount is negative exactly when the amount
      is non-zero and the total negative. */
  lemma ShareSign(a: real, total: real)
    requires a >= 0.0 && total != 0.0
    ensures a / total * 100.0 < 0.0 <==> a != 0.0 && total < 0.0
  {
    var d := a / total;
    assert d * total == a;
    if total > 0.0 {
      assert d >= 0.0;
    } else if a == 0.0 {
      assert d == 0.0;
    } else {
      assert d < 0.0;
    }
  }

  /** For a non-zero total the text is `|value| / total * 100` to one
      decimal, negative exactly when the total is. */
  lemma PercentageValue(value: real, total: real)
    requires total != 0.0
    ensures var q := (if value < 0.0 then -value else value) / total * 100.0;
      Percentage(value, total) == ToFixed1(q) && (StartsWithMinus(ToFixed1(q)) <==> value != 0.0 && total < 0.0)
  {
    ShareSign(if value < 0.0 then -value else value, total);
  }
}

=== FILE: schema.dfy ===
/** The backend's database as in-memory tables: `categories`, `transactions`,
    `invoices` and the `transaction_invoices` link table, with the constraints
    the migrations declare (auto-increment ids, the unique external invoice id,
    the unique (transaction, invoice) pair, and the link table's foreign keys,
    which cascade on delete). */
module Schema {
  import opened Wrappers
  import opened InvoiceTypes
  import StableSort
  import Seqs

  datatype Category = Category(id: int, name: string)

  /** A row of `transactions`. `createdAt` is null for rows inserted through
      the query builder, which fills in no timestamps. */
  datatype TransactionRow = TransactionRow(
    id: int,
    amount: real,
    currency: string,
    date: string,
    description: string,
    categoryId: int,
    createdAt: Option<int>)

  /** A row of `invoices`; the model's `autoCreate` timestamp is `createdAt`. */
  datatype InvoiceRow = InvoiceRow(id: int, fields: InvoiceFields, createdAt: int)

  /** A row of `transaction_invoices`. */
  datatype LinkRow = LinkRow(
    id: int,
    transactionId: int,
    invoiceId: int,
    amount: Option<real>,
    notes: Option<string>)

  function CategoryKey(c: Category): int { c.id }
  function TransactionKey(t: TransactionRow): int { t.id }
  function InvoiceKey(v: InvoiceRow): int { v.id }
  function LinkKey(l: LinkRow): int { l.id }

  /** Auto-increment ids: rows are kept in insertion order, so ids ascend, and
      every id lies in [1, next). */
  predicate TransactionIds(txs: seq<TransactionRow>, next: int) {
    && 1 <= next
    && StableSort.IdsAscending(txs, TransactionKey)
    && forall t :: t in txs ==> 1 <= t.id < next
  }

  predicate InvoiceIds(invs: seq<InvoiceRow>, next: int) {
    && 1 <= next
    && StableSort.IdsAscending(invs, InvoiceKey)
    && forall v :: v in invs ==> 1 <= v.id < next
  }

  predicate LinkIds(links: seq<LinkRow>, next: int) {
    && 1 <= next
    && StableSort.IdsAscending(links, LinkKey)
    && forall l :: l in links ==> 1 <= l.id < next
  }

  function DistinctXeroIds(a: InvoiceRow, b: InvoiceRow): bool {
    a.fields.xeroInvoiceId != b.fields.xeroInvoiceId
  }

  /** `xero_invoice_id` is unique. */
  predicate XeroIdsUnique(invs: seq<InvoiceRow>) {
    Seqs.Pairwise(invs, DistinctXeroIds)
  }

  function DistinctPairs(a: LinkRow, b: LinkRow): bool {
    a.transactionId != b.transactionId || a.invoiceId != b.invoiceId
  }

  /** `unique(['transaction_id', 'invoice_id'])`. */
  predicate PairsUnique(links: seq<LinkRow>) {
    Seqs.Pairwise(links, DistinctPairs)
  }

  predicate HasTransaction(txs: seq<TransactionRow>, id: int) {
    exists t :: t in txs && t.id == id
  }

  predicate HasInvoice(invs: seq<InvoiceRow>, id: int) {
    exists v :: v in invs && v.id == id
  }

  predicate HasPair(links: seq<LinkRow>, transactionId: int, invoiceId: int) {
    exists l :: l in links && l.transactionId == transactionId && l.invoiceId == invoiceId
  }

  /** The link table's two foreign keys. */
  predicate LinksReferenceParents(links: seq<LinkRow>, txs: seq<TransactionRow>, invs: seq<InvoiceRow>) {
    forall l :: l in links ==> HasTransaction(txs, l.transactionId) && HasInvoice(invs, l.invoiceId)
  }

  /** Categories are read in ascending id order. */
  predicate CategoriesOrdered(cats: seq<Category>) {
    StableSort.IdsAscending(cats, CategoryKey)
  }

  /** The constraints of the invoice and link tables. */
  predicate InvoiceTables(invs: seq<InvoiceRow>, nextInvoiceId: int, links: seq<LinkRow>, nextLinkId: int, txs: seq<TransactionRow>) {
    && InvoiceIds(invs, nextInvoiceId)
    && LinkIds(links, nextLinkId)
    && XeroIdsUnique(invs)
    && PairsUnique(links)
    && LinksReferenceParents(links, txs, invs)
  }

  class Database {
    var categories: seq<Category>
    var transactions: seq<TransactionRow>
    var invoices: seq<InvoiceRow>
    var links: seq<LinkRow>
    var nextTransactionId: int
    var nextInvoiceId: int
    var nextLinkId: int

    /** Every constraint of the schema holds. */
    predicate Valid()
      reads this
    {
      && CategoriesOrdered(categories)
      && TransactionIds(transactions, nextTransactionId)
      && InvoiceTables(invoices, nextInvoiceId, links, nextLinkId, transactions)
    }

    /** A database holding the given categories and no other rows. */
    constructor (categories: seq<Category>)
      requires CategoriesOrdered(categories)
      ensures Valid()
      ensures this.categories == categories
      ensures transactions == [] && invoices == [] && links == []
      ensures nextTransactionId == 1 && nextInvoiceId == 1 && nextLinkId == 1
    {
      this.categories := categories;
      transactions := [];
      invoices := [];
      links := [];
      nextTransactionId := 1;
      nextInvoiceId := 1;
      nextLinkId := 1;
    }
  }
}

=== FILE: seqs.dfy ===
/** The array helpers the source leans on (`filter`, `find`, `findIndex`,
    a numeric `reduce`), as functions on sequences. */
module Seqs {
  import opened Wrappers

  /** `s.filter(p)`: the elements satisfying `p`, in their original order. */
  function Filter<T(!new)>(s: seq<T>, p: T -> bool): (r: seq<T>)
    ensures |r| <= |s|
    ensures forall x :: x in r ==> x in s && p(x)
    ensures forall x :: x in s && p(x) ==> x in r
  {
    if s == [] then []
    else
      var init, last := s[..|s| - 1], s[|s| - 1];
      assert s == init + [last];
      Filter(init, p) + (if p(last) then [last] else [])
  }

  /** Filtering keeps every occurrence of a kept element and no other. */
  lemma {:induction false} FilterMultiset<T(!new)>(s: seq<T>, p: T -> bool)
    ensures forall x :: multiset(Filter(s, p))[x] == (if p(x) then multiset(s)[x] else 0)
    decreases |s|
  {
    if s != [] {
      var init, last := s[..|s| - 1], s[|s| - 1];
      assert s == init + [last];
      FilterMultiset(init, p);
    }
  }

  lemma {:induction false} FilterAppend<T(!new)>(a: seq<T>, b: seq<T>, p: T -> bool)
    ensures Filter(a + b, p) == Filter(a, p) + Filter(b, p)
    decreases |b|
  {
    if b != [] {
      var init := b[..|b| - 1];
      assert (a + b)[..|a + b| - 1] == a + init;
      FilterAppend(a, init, p);
    } else {
      assert a + b == a;
    }
  }

  /** Keeping everything keeps the sequence; keeping nothing empties it. */
  lemma {:induction false} FilterAll<T(!new)>(s: seq<T>, p: T -> bool)
    requires forall x :: x in s ==> p(x)
    ensures Filter(s, p) == s
    decreases |s|
  {
    if s != [] {
      var init, last := s[..|s| - 1], s[|s| - 1];
      assert s == init + [last];
      assert forall x :: x in init ==> x in s;
      FilterAll(init, p);
      assert p(last);
    }
  }

  lemma {:induction false} FilterNone<T(!new)>(s: seq<T>, p: T -> bool)
    requires forall x :: x in s ==> !p(x)
    ensures Filter(s, p) == []
    decreases |s|
  {
    if s != [] {
      var init := s[..|s| - 1];
      assert forall x :: x in init ==> x in s;
      FilterNone(init, p);
      assert !p(s[|s| - 1]);
    }
  }

  /** `rel` holds of every pair of elements, taken in sequence order. */
  predicate Pairwise<T>(s: seq<T>, rel: (T, T) -> bool) {
    forall i, j :: 0 <= i < j < |s| ==> rel(s[i], s[j])
  }

  /** Filtering keeps a pairwise property: the kept elements stay in order. */
  lemma {:induction false} FilterPairwise<T(!new)>(s: seq<T>, p: T -> bool, rel: (T, T) -> bool)
    requires Pairwise(s, rel)
    ensures Pairwise(Filter(s, p), rel)
    decreases |s|
  {
    if s != [] {
      var init, last := s[..|s| - 1], s[|s| - 1];
      assert Pairwise(init, rel);
      FilterPairwise(init, p, rel);
      var f := Filter(init, p);
      forall x | x in f
        ensures rel(x, last)
      {
        var k :| 0 <= k < |init| && init[k] == x;
        assert s[k] == x;
      }
      if p(last) {
        var r := f + [last];
        forall i, j | 0 <= i < j < |r|
          ensures rel(r[i], r[j])
        {
          if j == |f| {
            assert r[i] in f;
          }
        }
      }
    }
  }

  /** `s.findIndex(p)`, with -1 as None: the first index satisfying `p`. */
  function FindIndex<T>(s: seq<T>, p: T -> bool): (r: Option<nat>)
    ensures r.Some? ==> r.value < |s| && p(s[r.value])
    ensures r.Some? ==> forall j :: 0 <= j < r.value ==> !p(s[j])
    ensures r.None? ==> forall j :: 0 <= j < |s| ==> !p(s[j])
    decreases |s|
  {
    if s == [] then None
    else if p(s[0]) then Some(0)
    else
      match FindIndex(s[1..], p)
      case None => None
      case Some(k) => Some(k + 1)
  }

  /** `s.find(p)`: the first element satisfying `p`, if any. */
  function Find<T>(s: seq<T>, p: T -> bool): (r: Option<T>)
    ensures r.Some? <==> exists j :: 0 <= j < |s| && p(s[j])
    ensures r.Some? ==> p(r.value) && r.value in s
  {
    match FindIndex(s, p)
    case None => None
    case Some(k) => Some(s[k])
  }

  /** `s.map(f)`. */
  function Map<T, U>(s: seq<T>, f: T -> U): (r: seq<U>)
    ensures |r| == |s|
    ensures forall i :: 0 <= i < |s| ==> r[i] == f(s[i])
  {
    if s == [] then [] else Map(s[..|s| - 1], f) + [f(s[|s| - 1])]
  }

  lemma MapSnoc<T, U>(s: seq<T>, x: T, f: T -> U)
    ensures Map(s + [x], f) == Map(s, f) + [f(x)]
  {
    assert (s + [x])[..|s|] == s;
  }

  /** `s.reduce((total, x) => total + f(x), 0)`. */
  function SumOf<T>(s: seq<T>, f: T -> real): real
  {
    if s == [] then 0.0 else SumOf(s[..|s| - 1], f) + f(s[|s| - 1])
  }

  lemma {:induction false} SumOfAppend<T>(a: seq<T>, b: seq<T>, f: T -> real)
    ensures SumOf(a + b, f) == SumOf(a, f) + SumOf(b, f)
    decreases |b|
  {
    if b == [] {
      assert a + b == a;
    } else {
      assert (a + b)[..|a + b| - 1] == a + b[..|b| - 1];
      SumOfAppend(a, b[..|b| - 1], f);
    }
  }

  lemma SumOfSnoc<T>(s: seq<T>, x: T, f: T -> real)
    ensures SumOf(s + [x], f) == SumOf(s, f) + f(x)
  {
    assert (s + [x])[..|s|] == s;
  }

  /** Summing the kept elements of a longer list adds the new element's
      value exactly when it is kept. */
  lemma FilteredSumSnoc<T(!new)>(s: seq<T>, x: T, p: T -> bool, f: T -> real)
    ensures SumOf(Filter(s + [x], p), f) == SumOf(Filter(s, p), f) + (if p(x) then f(x) else 0.0)
  {
    assert (s + [x])[..|s|] == s;
    assert Filter(s + [x], p) == Filter(s, p) + (if p(x) then [x] else []);
    if p(x) {
      SumOfSnoc(Filter(s, p), x, f);
    } else {
      assert Filter(s, p) + [] == Filter(s, p);
    }
  }
}

=== FILE: stable_sort.dfy ===
/** `Array.prototype.sort` with a comparator `(a, b) => key(b) - key(a)`:
    a stable sort by a numeric key, largest first. Modelled as insertion of
    each element, in order, after every element whose key is at least its own. */
module StableSort {
  import Seqs

  /** Places `x` before the first element whose key is smaller than its own. */
  function Insert<T>(x: T, s: seq<T>, key: T -> real): (r: seq<T>)
    ensures multiset(r) == multiset(s) + multiset{x}
    ensures |r| == |s| + 1
  {
    if s == [] then [x]
    else if key(s[0]) < key(x) then [x] + s
    else
      assert s == [s[0]] + s[1..];
      [s[0]] + Insert(x, s[1..], key)
  }

  /** The elements of `s` ordered by `key`, largest first, equal keys in
      their original order. */
  function SortDesc<T>(s: seq<T>, key: T -> real): (r: seq<T>)
    ensures multiset(r) == multiset(s)
    ensures |r| == |s|
  {
    if s == [] then []
    else
      assert s == s[..|s| - 1] + [s[|s| - 1]];
      Insert(s[|s| - 1], SortDesc(s[..|s| - 1], key), key)
  }

  predicate IdsAscending<T>(s: seq<T>, id: T -> int) {
    forall i, j :: 0 <= i < j < |s| ==> id(s[i]) < id(s[j])
  }

  /** `a` may precede `b`: a larger key, or an equal key and a smaller id. */
  predicate Precedes<T>(a: T, b: T, key: T -> real, id: T -> int) {
    key(a) > key(b) || (key(a) == key(b) && id(a) < id(b))
  }

  /** Ordered by `key` descending, then by `id` ascending. */
  predicate LexSorted<T>(s: seq<T>, key: T -> real, id: T -> int) {
    forall i, j :: 0 <= i < j < |s| ==> Precedes(s[i], s[j], key, id)
  }

  lemma ConsLexSorted<T>(h: T, t: seq<T>, key: T -> real, id: T -> int)
    requires LexSorted(t, key, id)
    requires forall y :: y in t ==> Precedes(h, y, key, id)
    ensures LexSorted([h] + t, key, id)
  {
    var r := [h] + t;
    forall i, j | 0 <= i < j < |r|
      ensures Precedes(r[i], r[j], key, id)
    {
      assert r[j] == t[j - 1];
      if i > 0 {
        assert r[i] == t[i - 1];
      }
    }
  }

  lemma TailLexSorted<T>(s: seq<T>, key: T -> real, id: T -> int)
    requires s != [] && LexSorted(s, key, id)
    ensures LexSorted(s[1..], key, id)
    ensures forall y :: y in s[1..] ==> Precedes(s[0], y, key, id)
  {
    var tail := s[1..];
    forall i, j | 0 <= i < j < |tail|
      ensures Precedes(tail[i], tail[j], key, id)
    {
      assert tail[i] == s[i + 1] && tail[j] == s[j + 1];
    }
    forall y | y in tail
      ensures Precedes(s[0], y, key, id)
    {
      var k :| 0 <= k < |tail| && tail[k] == y;
      assert s[k + 1] == y;
    }
  }

  lemma {:induction false} InsertLexSorted<T>(x: T, s: seq<T>, key: T -> real, id: T -> int)
    requires LexSorted(s, key, id)
    requires forall y :: y in s ==> id(y) < id(x)
    ensures LexSorted(Insert(x, s, key), key, id)
    decreases |s|
  {
    if s == [] {
    } else if key(s[0]) < key(x) {
      forall y | y in s
        ensures Precedes(x, y, key, id)
      {
        var k :| 0 <= k < |s| && s[k] == y;
        if k > 0 {
          assert Precedes(s[0], s[k], key, id);
        }
      }
      ConsLexSorted(x, s, key, id);
    } else {
      var tail := s[1..];
      TailLexSorted(s, key, id);
      assert forall y :: y in tail ==> y in s;
      InsertLexSorted(x, tail, key, id);
      var rest := Insert(x, tail, key);
      forall y | y in rest
        ensures Precedes(s[0], y, key, id)
      {
        assert y in multiset(rest);
      }
      ConsLexSorted(s[0], rest, key, id);
    }
  }

  /** Sorting a sequence whose ids ascend orders it by key descending and
      breaks ties by ascending id: the sort is stable. */
  lemma {:induction false} SortDescLexSorted<T>(s: seq<T>, key: T -> real, id: T -> int)
    requires IdsAscending(s, id)
    ensures LexSorted(SortDesc(s, key), key, id)
    decreases |s|
  {
    if s != [] {
      var init, last := s[..|s| - 1], s[|s| - 1];
      assert IdsAscending(init, id);
      SortDescLexSorted(init, key, id);
      forall y | y in SortDesc(init, key)
        ensures id(y) < id(last)
      {
        assert y in multiset(init);
        var k :| 0 <= k < |init| && init[k] == y;
      }
      InsertLexSorted(last, SortDesc(init, key), key, id);
    }
  }

  /** Keeping some elements of a sequence whose ids ascend keeps them ascending. */
  lemma {:induction false} FilterIdsAscending<T(!new)>(s: seq<T>, p: T -> bool, id: T -> int)
    requires IdsAscending(s, id)
    ensures IdsAscending(Seqs.Filter(s, p), id)
    decreases |s|
  {
    if s != [] {
      var init, last := s[..|s| - 1], s[|s| - 1];
      assert IdsAscending(init, id);
      FilterIdsAscending(init, p, id);
      var f := Seqs.Filter(init, p);
      forall x | x in f
        ensures id(x) < id(last)
      {
        var k :| 0 <= k < |init| && init[k] == x;
      }
      if p(last) {
        AppendIdsAscending(f, last, id);
      }
    }
  }

  /** An element whose id exceeds every id already present may be appended. */
  lemma AppendIdsAscending<T>(s: seq<T>, x: T, id: T -> int)
    requires IdsAscending(s, id)
    requires forall y :: y in s ==> id(y) < id(x)
    ensures IdsAscending(s + [x], id)
  {
    var r := s + [x];
    forall i, j | 0 <= i < j < |r|
      ensures id(r[i]) < id(r[j])
    {
      assert r[i] == s[i];
      if j == |s| {
        assert s[i] in s;
      } else {
        assert r[j] == s[j];
      }
    }
  }
}

=== FILE: strings.dfy ===
/** Decimal text of numbers and the JavaScript `||` idioms on strings that
    the source uses for defaults (`x || 'default'`, `x || null`). */
module Strings {
  import opened Wrappers

  predicate IsDigit(c: char) {
    '0' <= c <= '9'
  }

  predicate AllDigits(s: string) {
    forall i :: 0 <= i < |s| ==> IsDigit(s[i])
  }

  function DigitChar(d: nat): (c: char)
    requires d < 10
    ensures IsDigit(c) && c as int - '0' as int == d
  {
    (d + '0' as int) as char
  }

  function DigitValue(c: char): (d: nat)
    requires IsDigit(c)
    ensures d < 10 && DigitChar(d) == c
  {
    c as int - '0' as int
  }

  /** The decimal numeral of `n`, as `String(n)` writes it. */
  function NatToString(n: nat): (s: string)
    ensures |s| >= 1 && AllDigits(s)
    ensures s[0] == '0' ==> n == 0
    decreases n
  {
    if n < 10 then [DigitChar(n)] else NatToString(n / 10) + [DigitChar(n % 10)]
  }

  /** The value of a decimal numeral: the inverse of NatToString. */
  function ParseNat(s: string): nat
    requires AllDigits(s)
  {
    if s == [] then 0 else ParseNat(s[..|s| - 1]) * 10 + DigitValue(s[|s| - 1])
  }

  lemma {:induction false} ParseNatToString(n: nat)
    ensures ParseNat(NatToString(n)) == n
    decreases n
  {
    if n >= 10 {
      var s := NatToString(n);
      assert s[..|s| - 1] == NatToString(n / 10);
      ParseNatToString(n / 10);
    }
  }

  lemma NatToStringInjective(a: nat, b: nat)
    requires NatToString(a) == NatToString(b)
    ensures a == b
  {
    ParseNatToString(a);
    ParseNatToString(b);
  }

  /** `String(i)` for an integer: a leading '-' for negatives. */
  function IntToString(i: int): (s: string)
    ensures |s| >= 1 && (s[0] == '-' <==> i < 0)
  {
    if i < 0 then "-" + NatToString(-i) else NatToString(i)
  }

  /** Distinct integers have distinct decimal texts. */
  lemma IntToStringInjective(a: int, b: int)
    requires IntToString(a) == IntToString(b)
    ensures a == b
  {
    var s := IntToString(a);
    if a < 0 {
      assert b < 0;
      assert NatToString(-a) == s[1..] == NatToString(-b);
      NatToStringInjective(-a, -b);
    } else {
      assert b >= 0;
      NatToStringInjective(a, b);
    }
  }

  predicate StartsWithMinus(s: string) {
    |s| > 0 && s[0] == '-'
  }

  /** The text after a leading '-', or all of it. */
  function Unsigned(s: string): (r: string)
    ensures StartsWithMinus(s) ==> r == s[1..]
    ensures !StartsWithMinus(s) ==> r == s
  {
    if StartsWithMinus(s) then s[1..] else s
  }

  /** JavaScript truthiness of an optional string: present and non-empty. */
  predicate Truthy(s: Option<string>) {
    s.Some? && s.value != ""
  }

  /** `s || d`: the string itself when truthy, otherwise the default. */
  function OrElse(s: Option<string>, d: string): (r: string)
    ensures Truthy(s) ==> r == s.value
    ensures !Truthy(s) ==> r == d
  {
    if Truthy(s) then s.value else d
  }

  /** `s || null`: an empty or missing string becomes null. */
  function OrNull(s: Option<string>): (r: Option<string>)
    ensures r.Some? <==> Truthy(s)
    ensures r.Some? ==> r == s
  {
    if Truthy(s) then s else None
  }
}

=== FILE: transaction_service.dfy ===
/** The transaction service: the joined listing, the one-transaction-per-
    category insert rule, and the per-category balances. */
module TransactionService {
  import opened Wrappers
  import opened Seqs
  import opened Schema
  import StableSort

  // ---------------------------------------------------------------------
  // Category balances
  // ---------------------------------------------------------------------

  /** A transaction as listed inside a balance entry. */
  datatype BalanceTransaction = BalanceTransaction(
    id: int,
    amount: real,
    currency: string,
    date: string,
    description: string,
    categoryId: int,
    categoryName: string,
    createdAt: Option<int>)

  /** One entry of the balances: a category, its transactions and their sum. */
  datatype Balance = Balance(
    categoryId: int,
    categoryName: string,
    transactions: seq<BalanceTransaction>,
    total: real)

  /** A row of `categories LEFT JOIN transactions`. */
  datatype JoinRow = JoinRow(category: Category, transaction: Option<TransactionRow>)

  function InCategory(categoryId: int): TransactionRow -> bool {
    (t: TransactionRow) => t.categoryId == categoryId
  }

  /** The transactions of one category, in table order. */
  function Matching(c: Category, txs: seq<TransactionRow>): seq<TransactionRow> {
    Filter(txs, InCategory(c.id))
  }

  function JoinWith(c: Category): TransactionRow -> JoinRow {
    (t: TransactionRow) => JoinRow(c, Some(t))
  }

  /** The join rows of one category: one per matching transaction, or a
      single row with null transaction columns when there is none. */
  function CategoryRows(c: Category, txs: seq<TransactionRow>): seq<JoinRow> {
    var ts := Matching(c, txs);
    if ts == [] then [JoinRow(c, None)] else Map(ts, JoinWith(c))
  }

  /** The left join ordered by `categories.id`; the rows of one category
      follow the transaction table's order. */
  function LeftJoin(cats: seq<Category>, txs: seq<TransactionRow>): seq<JoinRow> {
    if cats == [] then []
    else LeftJoin(cats[..|cats| - 1], txs) + CategoryRows(cats[|cats| - 1], txs)
  }

  function ListedAs(t: TransactionRow, c: Category): BalanceTransaction {
    BalanceTransaction(t.id, t.amount, t.currency, t.date, t.description, c.id, c.name, t.createdAt)
  }

  function ListIn(c: Category): TransactionRow -> BalanceTransaction {
    (t: TransactionRow) => ListedAs(t, c)
  }

  function AmountOf(t: BalanceTransaction): real { t.amount }

  function HasCategoryId(categoryId: int): Balance -> bool {
    (b: Balance) => b.categoryId == categoryId
  }

  /** `acc[categoryId]`: the entry of a category, if one was created. */
  function EntryIndex(acc: seq<Balance>, categoryId: int): Option<nat> {
    FindIndex(acc, HasCategoryId(categoryId))
  }

  /** `transactions.push(tx)` and `total += amount` on one entry. */
  function Push(b: Balance, tx: BalanceTransaction): Balance {
    b.(transactions := b.transactions + [tx], total := b.total + tx.amount)
  }

  /** One step of the `reduce`: create the entry on first sight of its
      category, then add the row's transaction if it has one. */
  function Accumulate(acc: seq<Balance>, row: JoinRow): seq<Balance> {
    var c := row.category;
    var found := EntryIndex(acc, c.id);
    var created := if found.Some? then acc else acc + [Balance(c.id, c.name, [], 0.0)];
    var k := if found.Some? then found.value else |acc|;
    match row.transaction
    case None => created
    case Some(t) => created[k := Push(created[k], ListedAs(t, c))]
  }

  function AccumulateAll(acc: seq<Balance>, rows: seq<JoinRow>): seq<Balance> {
    if rows == [] then acc
    else Accumulate(AccumulateAll(acc, rows[..|rows| - 1]), rows[|rows| - 1])
  }

  /** What the entry of category `c` should be: all of its transactions and
      the sum of their amounts. */
  function ExpectedBalance(c: Category, txs: seq<TransactionRow>): Balance {
    var listed := Map(Matching(c, txs), ListIn(c));
    Balance(c.id, c.name, listed, SumOf(listed, AmountOf))
  }

  /** One expected entry per category, in category order. */
  function ExpectedBalances(cats: seq<Category>, txs: seq<TransactionRow>): (r: seq<Balance>)
    ensures |r| == |cats|
    ensures forall k :: 0 <= k < |cats| ==> r[k] == ExpectedBalance(cats[k], txs)
  {
    if cats == [] then []
    else ExpectedBalances(cats[..|cats| - 1], txs) + [ExpectedBalance(cats[|cats| - 1], txs)]
  }

  function TotalKey(b: Balance): real { b.total }
  function BalanceKey(b: Balance): int { b.categoryId }

  /** What `getCategoryBalances` returns. */
  function CategoryBalances(cats: seq<Category>, txs: seq<TransactionRow>): seq<Balance> {
    StableSort.SortDesc(ExpectedBalances(cats, txs), TotalKey)
  }

  lemma {:induction false} AccumulateAllAppend(acc: seq<Balance>, a: seq<JoinRow>, b: seq<JoinRow>)
    ensures AccumulateAll(acc, a + b) == AccumulateAll(AccumulateAll(acc, a), b)
    decreases |b|
  {
    if b == [] {
      assert a + b == a;
    } else {
      assert (a + b)[..|a + b| - 1] == a + b[..|b| - 1];
      AccumulateAllAppend(acc, a, b[..|b| - 1]);
    }
  }

  /** Adding one more transaction of a category to the entry that was
      created last for it. */
  lemma AccumulateOneMore(acc: seq<Balance>, c: Category, prev: seq<BalanceTransaction>, t: TransactionRow)
    requires EntryIndex(acc, c.id).None?
    ensures Accumulate(acc + [Balance(c.id, c.name, prev, SumOf(prev, AmountOf))], JoinRow(c, Some(t)))
      == acc + [Balance(c.id, c.name, prev + [ListedAs(t, c)], SumOf(prev + [ListedAs(t, c)], AmountOf))]
  {
    var before := acc + [Balance(c.id, c.name, prev, SumOf(prev, AmountOf))];
    assert forall j :: 0 <= j < |acc| ==> before[j] == acc[j] && !HasCategoryId(c.id)(acc[j]);
    assert HasCategoryId(c.id)(before[|acc|]);
    assert EntryIndex(before, c.id) == Some(|acc|);
    assert (prev + [ListedAs(t, c)])[..|prev|] == prev;
  }

  /** Folding the rows of one category's transactions into an accumulator
      without an entry for it appends the entry they make up. */
  lemma {:induction false} AccumulateTransactions(acc: seq<Balance>, c: Category, ts: seq<TransactionRow>)
    requires ts != []
    requires EntryIndex(acc, c.id).None?
    ensures var listed := Map(ts, ListIn(c));
      AccumulateAll(acc, Map(ts, JoinWith(c))) == acc + [Balance(c.id, c.name, listed, SumOf(listed, AmountOf))]
    decreases |ts|
  {
    var init, last := ts[..|ts| - 1], ts[|ts| - 1];
    var rows := Map(ts, JoinWith(c));
    assert rows[..|rows| - 1] == Map(init, JoinWith(c));
    assert rows[|rows| - 1] == JoinRow(c, Some(last));
    var listed := Map(ts, ListIn(c));
    assert listed == Map(init, ListIn(c)) + [ListedAs(last, c)];
    if init == [] {
      assert Map(init, JoinWith(c)) == [];
      assert Map(init, ListIn(c)) == [];
      AccumulateOneMore(acc, c, [], last);
    } else {
      AccumulateTransactions(acc, c, init);
      AccumulateOneMore(acc, c, Map(init, ListIn(c)), last);
    }
  }

  lemma AccumulateCategory(acc: seq<Balance>, c: Category, txs: seq<TransactionRow>)
    requires EntryIndex(acc, c.id).None?
    ensures AccumulateAll(acc, CategoryRows(c, txs)) == acc + [ExpectedBalance(c, txs)]
  {
    var ts := Matching(c, txs);
    if ts == [] {
      assert CategoryRows(c, txs) == [JoinRow(c, None)];
      assert [JoinRow(c, None)][..0] == [];
      assert Map(ts, ListIn(c)) == [];
    } else {
      AccumulateTransactions(acc, c, ts);
    }
  }

  /** The `reduce` over the left join builds exactly the expected entries,
      in category order. */
  lemma {:induction false} AccumulateMatchesExpected(cats: seq<Category>, txs: seq<TransactionRow>)
    requires CategoriesOrdered(cats)
    ensures AccumulateAll([], LeftJoin(cats, txs)) == ExpectedBalances(cats, txs)
    decreases |cats|
  {
    if cats != [] {
      var init, last := cats[..|cats| - 1], cats[|cats| - 1];
      assert CategoriesOrdered(init);
      AccumulateMatchesExpected(init, txs);
      AccumulateAllAppend([], LeftJoin(init, txs), CategoryRows(last, txs));
      var acc := ExpectedBalances(init, txs);
      forall j | 0 <= j < |acc|
        ensures !HasCategoryId(last.id)(acc[j])
      {
        assert cats[j] == init[j];
      }
      AccumulateCategory(acc, last, txs);
    }
  }

  /** `getCategoryBalances`: the rows of the left join are folded into one
      entry per category, and the entries sorted by total, largest first. */
  method GetCategoryBalances(db: Database) returns (balances: seq<Balance>)
    requires db.Valid()
    ensures balances == CategoryBalances(db.categories, db.transactions)
  {
    var rows := LeftJoin(db.categories, db.transactions);
    var acc: seq<Balance> := [];
    var i := 0;
    while i < |rows|
      invariant 0 <= i <= |rows|
      invariant acc == AccumulateAll([], rows[..i])
    {
      var row := rows[i];
      var c := row.category;
      var found := EntryIndex(acc, c.id);
      var k: nat;
      if found.None? {
        acc := acc + [Balance(c.id, c.name, [], 0.0)];
        k := |acc| - 1;
      } else {
        k := found.value;
      }
      if row.transaction.Some? {
        acc := acc[k := Push(acc[k], ListedAs(row.transaction.value, c))];
      }
      assert rows[..i + 1][..i] == rows[..i];
      i := i + 1;
    }
    assert rows[..i] == rows;
    AccumulateMatchesExpected(db.categories, db.transactions);
    balances := StableSort.SortDesc(acc, TotalKey);
  }

  /** An entry of the result is the expected entry of some category. */
  lemma BalanceIsExpected(cats: seq<Category>, txs: seq<TransactionRow>, b: Balance) returns (k: nat)
    requires b in CategoryBalances(cats, txs)
    ensures k < |cats| && b == ExpectedBalance(cats[k], txs)
  {
    var e := ExpectedBalances(cats, txs);
    assert multiset(CategoryBalances(cats, txs)) == multiset(e);
    assert b in multiset(e);
    k :| 0 <= k < |e| && e[k] == b;
  }

  /** `getCategoryBalances` has exactly one entry per category: the entry of
      every category is there and nothing else is. */
  lemma BalancesOnePerCategory(cats: seq<Category>, txs: seq<TransactionRow>)
    ensures |CategoryBalances(cats, txs)| == |cats|
    ensures forall c :: c in cats ==> ExpectedBalance(c, txs) in CategoryBalances(cats, txs)
    ensures forall b :: b in CategoryBalances(cats, txs) ==> exists c :: c in cats && b == ExpectedBalance(c, txs)
  {
    var e := ExpectedBalances(cats, txs);
    var r := CategoryBalances(cats, txs);
    assert multiset(r) == multiset(e);
    forall c | c in cats
      ensures ExpectedBalance(c, txs) in r
    {
      var k :| 0 <= k < |cats| && cats[k] == c;
      assert e[k] in multiset(e);
    }
    forall b | b in r
      ensures exists c :: c in cats && b == ExpectedBalance(c, txs)
    {
      var k := BalanceIsExpected(cats, txs, b);
      assert cats[k] in cats;
    }
  }

  /** Two entries with the same category id are the same entry. */
  lemma SameIdSameEntry(cats: seq<Category>, txs: seq<TransactionRow>)
    requires CategoriesOrdered(cats)
    ensures var r := CategoryBalances(cats, txs);
      forall x, y :: x in r && y in r && x.categoryId == y.categoryId ==> x == y
  {
    var r := CategoryBalances(cats, txs);
    forall x, y | x in r && y in r && x.categoryId == y.categoryId
      ensures x == y
    {
      var a := BalanceIsExpected(cats, txs, x);
      var b := BalanceIsExpected(cats, txs, y);
      assert a < b ==> CategoryKey(cats[a]) < CategoryKey(cats[b]);
      assert b < a ==> CategoryKey(cats[b]) < CategoryKey(cats[a]);
    }
  }

  /** No category id appears in two entries. */
  lemma BalancesDistinctCategories(cats: seq<Category>, txs: seq<TransactionRow>)
    requires CategoriesOrdered(cats)
    ensures var r := CategoryBalances(cats, txs);
      forall i, j :: 0 <= i < j < |r| ==> r[i].categoryId != r[j].categoryId
  {
    var r := CategoryBalances(cats, txs);
    BalancesSorted(cats, txs);
    SameIdSameEntry(cats, txs);
    forall i, j | 0 <= i < j < |r|
      ensures r[i].categoryId != r[j].categoryId
    {
      assert StableSort.Precedes(r[i], r[j], TotalKey, BalanceKey);
      assert r[i] in r && r[j] in r;
    }
  }

  lemma ExpectedIdsAscending(cats: seq<Category>, txs: seq<TransactionRow>)
    requires CategoriesOrdered(cats)
    ensures StableSort.IdsAscending(ExpectedBalances(cats, txs), BalanceKey)
  {
    var e := ExpectedBalances(cats, txs);
    forall i, j | 0 <= i < j < |e|
      ensures BalanceKey(e[i]) < BalanceKey(e[j])
    {
      assert CategoryKey(cats[i]) < CategoryKey(cats[j]);
    }
  }

  /** Entries are ordered by total, largest first; equal totals keep
      ascending category ids, since the rows come ordered by category id and
      the sort is stable. */
  lemma BalancesSorted(cats: seq<Category>, txs: seq<TransactionRow>)
    requires CategoriesOrdered(cats)
    ensures StableSort.LexSorted(CategoryBalances(cats, txs), TotalKey, BalanceKey)
  {
    ExpectedIdsAscending(cats, txs);
    StableSort.SortDescLexSorted(ExpectedBalances(cats, txs), TotalKey, BalanceKey);
  }

  /** What one expected entry lists: rows of its own category only, and
      the sum of their amounts. */
  lemma ExpectedBalanceFacts(c: Category, txs: seq<TransactionRow>)
    ensures var b := ExpectedBalance(c, txs);
      && b.total == SumOf(b.transactions, AmountOf)
      && (b.transactions == [] ==> b.total == 0.0)
      && (forall bt :: bt in b.transactions ==> bt.categoryId == b.categoryId && InTable(bt, txs))
  {
    var b := ExpectedBalance(c, txs);
    var ts := Matching(c, txs);
    forall bt | bt in b.transactions
      ensures bt.categoryId == b.categoryId && InTable(bt, txs)
    {
      var m :| 0 <= m < |b.transactions| && b.transactions[m] == bt;
      assert ts[m] in ts;
    }
  }

  /** `bt` copies a row of `txs` of its category. */
  predicate InTable(bt: BalanceTransaction, txs: seq<TransactionRow>) {
    exists t :: t in txs && t.categoryId == bt.categoryId && t.id == bt.id && t.amount == bt.amount
  }

  /** Every entry's total is the sum of the raw amounts listed under it, and
      every listed transaction is a row of that category; a category without
      transactions has an empty list and total 0. */
  lemma BalanceTotals(cats: seq<Category>, txs: seq<TransactionRow>)
    ensures forall b :: b in CategoryBalances(cats, txs) ==>
      && b.total == SumOf(b.transactions, AmountOf)
      && (b.transactions == [] ==> b.total == 0.0)
      && (forall bt :: bt in b.transactions ==> bt.categoryId == b.categoryId && InTable(bt, txs))
  {
    forall b | b in CategoryBalances(cats, txs)
      ensures b.total == SumOf(b.transactions, AmountOf)
      ensures b.transactions == [] ==> b.total == 0.0
      ensures forall bt :: bt in b.transactions ==> bt.categoryId == b.categoryId && InTable(bt, txs)
    {
      var k := BalanceIsExpected(cats, txs, b);
      ExpectedBalanceFacts(cats[k], txs);
    }
  }

  /** Every transaction whose category exists is listed in that category's
      entry. */
  lemma BalancesListEveryTransaction(cats: seq<Category>, txs: seq<TransactionRow>)
    ensures forall t, c :: t in txs && c in cats && t.categoryId == c.id ==>
      exists b :: b in CategoryBalances(cats, txs) && b.categoryId == c.id && ListedAs(t, c) in b.transactions
  {
    BalancesOnePerCategory(cats, txs);
    forall t, c | t in txs && c in cats && t.categoryId == c.id
      ensures exists b :: b in CategoryBalances(cats, txs) && b.categoryId == c.id && ListedAs(t, c) in b.transactions
    {
      var ts := Matching(c, txs);
      assert t in ts;
      var m :| 0 <= m < |ts| && ts[m] == t;
      assert ExpectedBalance(c, txs).transactions[m] == ListedAs(t, c);
      assert ExpectedBalance(c, txs) in CategoryBalances(cats, txs);
    }
  }

  /** No two transactions share a category: what the insert rule keeps. */
  predicate OnePerCategory(txs: seq<TransactionRow>) {
    forall i, j :: 0 <= i < j < |txs| ==> txs[i].categoryId != txs[j].categoryId
  }

  lemma {:induction false} MatchingAtMostOne(c: Category, txs: seq<TransactionRow>)
    requires OnePerCategory(txs)
    ensures |Matching(c, txs)| <= 1
    decreases |txs|
  {
    if txs != [] {
      var init, last := txs[..|txs| - 1], txs[|txs| - 1];
      assert OnePerCategory(init);
      MatchingAtMostOne(c, init);
      assert txs == init + [last];
      if last.categoryId == c.id {
        forall x | x in init
          ensures !InCategory(c.id)(x)
        {
          var k :| 0 <= k < |init| && init[k] == x;
          assert txs[k] == x;
        }
        FilterNone(init, InCategory(c.id));
      }
    }
  }

  /** While the one-transaction-per-category rule holds, every entry lists
      at most one transaction. */
  lemma BalancesAtMostOne(cats: seq<Category>, txs: seq<TransactionRow>)
    requires OnePerCategory(txs)
    ensures forall b :: b in CategoryBalances(cats, txs) ==> |b.transactions| <= 1
  {
    forall b | b in CategoryBalances(cats, txs)
      ensures |b.transactions| <= 1
    {
      var k := BalanceIsExpected(cats, txs, b);
      MatchingAtMostOne(cats[k], txs);
    }
  }

  // ---------------------------------------------------------------------
  // The one-transaction-per-category insert rule
  // ---------------------------------------------------------------------

  /** The fields `createTransaction` inserts. */
  datatype NewTransaction = NewTransaction(
    amount: real,
    currency: string,
    date: string,
    description: string,
    categoryId: int)

  const OneToOneMessage := "Category already has a transaction. One-to-one relationship enforced."

  predicate CategoryTaken(txs: seq<TransactionRow>, categoryId: int) {
    exists t :: t in txs && t.categoryId == categoryId
  }

  lemma AppendTransaction(txs: seq<TransactionRow>, next: int, row: TransactionRow,
                           links: seq<LinkRow>, invs: seq<InvoiceRow>)
    requires TransactionIds(txs, next) && LinksReferenceParents(links, txs, invs) && row.id == next
    ensures TransactionIds(txs + [row], next + 1)
    ensures LinksReferenceParents(links, txs + [row], invs)
  {
    var r := txs + [row];
    assert forall i :: 0 <= i < |txs| ==> r[i] == txs[i];
    assert forall t :: t in txs ==> t in r;
    forall i, j | 0 <= i < j < |r|
      ensures TransactionKey(r[i]) < TransactionKey(r[j])
    {
      if j == |txs| {
        assert r[i] in txs;
      }
    }
  }

  lemma AppendKeepsOnePerCategory(txs: seq<TransactionRow>, row: TransactionRow)
    requires !CategoryTaken(txs, row.categoryId)
    ensures OnePerCategory(txs) ==> OnePerCategory(txs + [row])
  {
    var r := txs + [row];
    assert forall i :: 0 <= i < |txs| ==> r[i] == txs[i] && txs[i] in txs;
  }

  /** `createTransaction`: refuses a category that already has a transaction
      and otherwise inserts exactly one row, without timestamps, and returns
      it. */
  method CreateTransaction(db: Database, data: NewTransaction) returns (r: Result<TransactionRow, string>)
    requires db.Valid()
    modifies db
    ensures db.Valid()
    ensures db.categories == old(db.categories) && db.invoices == old(db.invoices) && db.links == old(db.links)
    ensures db.nextInvoiceId == old(db.nextInvoiceId) && db.nextLinkId == old(db.nextLinkId)
    ensures CategoryTaken(old(db.transactions), data.categoryId) ==>
      && r == Err(OneToOneMessage)
      && db.transactions == old(db.transactions)
      && db.nextTransactionId == old(db.nextTransactionId)
    ensures !CategoryTaken(old(db.transactions), data.categoryId) ==>
      var row := TransactionRow(old(db.nextTransactionId), data.amount, data.currency, data.date,
                                data.description, data.categoryId, None);
      && r == Ok(row)
      && db.transactions == old(db.transactions) + [row]
      && db.nextTransactionId == old(db.nextTransactionId) + 1
    ensures OnePerCategory(old(db.transactions)) ==> OnePerCategory(db.transactions)
  {
    var existing := Find(db.transactions, InCategory(data.categoryId));
    if existing.Some? {
      return Err(OneToOneMessage);
    }
    var row := TransactionRow(db.nextTransactionId, data.amount, data.currency, data.date,
                              data.description, data.categoryId, None);
    AppendTransaction(db.transactions, db.nextTransactionId, row, db.links, db.invoices);
    AppendKeepsOnePerCategory(db.transactions, row);
    var txs := db.transactions + [row];
    db.transactions := txs;
    db.nextTransactionId := db.nextTransactionId + 1;
    r := Ok(row);
  }

  // ---------------------------------------------------------------------
  // The joined listing
  // ---------------------------------------------------------------------

  /** A transaction joined with the name of its category. */
  datatype TransactionView = TransactionView(
    id: int,
    amount: real,
    currency: string,
    date: string,
    description: string,
    categoryId: int,
    categoryName: string,
    createdAt: Option<int>)

  function ViewOf(t: TransactionRow, c: Category): TransactionView {
    TransactionView(t.id, t.amount, t.currency, t.date, t.description, t.categoryId, c.name, t.createdAt)
  }

  function CategoryIdIs(id: int): Category -> bool {
    (c: Category) => c.id == id
  }

  /** `transactions JOIN categories`: a transaction whose category is
      missing has no row. */
  function JoinCategories(txs: seq<TransactionRow>, cats: seq<Category>): seq<TransactionView> {
    if txs == [] then []
    else
      var t := txs[|txs| - 1];
      JoinCategories(txs[..|txs| - 1], cats) +
        match Find(cats, CategoryIdIs(t.categoryId))
        case None => []
        case Some(c) => [ViewOf(t, c)]
  }

  function Untimed(v: TransactionView): bool { v.createdAt.None? }
  function Timed(v: TransactionView): bool { v.createdAt.Some? }
  function CreatedKey(v: TransactionView): real {
    if v.createdAt.Some? then v.createdAt.value as real else 0.0
  }
  function ViewKey(v: TransactionView): int { v.id }

  /** `getAllTransactions`: the join ordered by `created_at` descending, where
      the database puts rows without a timestamp first; equal timestamps
      keep table order. */
  function GetAllTransactions(cats: seq<Category>, txs: seq<TransactionRow>): seq<TransactionView> {
    var joined := JoinCategories(txs, cats);
    Filter(joined, Untimed) + StableSort.SortDesc(Filter(joined, Timed), CreatedKey)
  }

  /** The listing's order: untimed rows first by id, then timed rows newest
      first, equal timestamps by id. */
  predicate ListedBefore(a: TransactionView, b: TransactionView) {
    || (a.createdAt.None? && b.createdAt.Some?)
    || (a.createdAt.None? && b.createdAt.None? && a.id < b.id)
    || (a.createdAt.Some? && b.createdAt.Some? && StableSort.Precedes(a, b, CreatedKey, ViewKey))
  }

  lemma CategoryIdsDistinct(cats: seq<Category>)
    requires CategoriesOrdered(cats)
    ensures forall a, b :: 0 <= a < |cats| && 0 <= b < |cats| && a != b ==> cats[a].id != cats[b].id
  {
    forall a, b | 0 <= a < |cats| && 0 <= b < |cats| && a != b
      ensures cats[a].id != cats[b].id
    {
      if a < b {
        assert CategoryKey(cats[a]) < CategoryKey(cats[b]);
      } else {
        assert CategoryKey(cats[b]) < CategoryKey(cats[a]);
      }
    }
  }

  lemma {:induction false} JoinMembers(txs: seq<TransactionRow>, cats: seq<Category>)
    requires CategoriesOrdered(cats)
    ensures forall v :: v in JoinCategories(txs, cats) <==>
      exists t, c :: t in txs && c in cats && c.id == t.categoryId && v == ViewOf(t, c)
    decreases |txs|
  {
    if txs != [] {
      var init, t := txs[..|txs| - 1], txs[|txs| - 1];
      JoinMembers(init, cats);
      assert txs == init + [t];
      match Find(cats, CategoryIdIs(t.categoryId))
      case None =>
      case Some(c) =>
        CategoryIdsDistinct(cats);
        forall c' | c' in cats && c'.id == t.categoryId
          ensures c' == c
        {
          var a :| 0 <= a < |cats| && cats[a] == c';
          var b :| 0 <= b < |cats| && cats[b] == c;
        }
    }
  }

  /** Every row of the join comes from a transaction of the table. */
  lemma {:induction false} JoinFromTransactions(txs: seq<TransactionRow>, cats: seq<Category>)
    ensures forall v :: v in JoinCategories(txs, cats) ==> exists t :: t in txs && t.id == v.id
    decreases |txs|
  {
    if txs != [] {
      var init, t := txs[..|txs| - 1], txs[|txs| - 1];
      assert txs == init + [t];
      JoinFromTransactions(init, cats);
      var j := JoinCategories(init, cats);
      forall v | v in JoinCategories(txs, cats)
        ensures exists u :: u in txs && u.id == v.id
      {
        if v in j {
          var u :| u in init && u.id == v.id;
          assert u in txs;
        } else {
          assert v.id == t.id && t in txs;
        }
      }
    }
  }

  /** The join keeps the table's ascending id order. */
  lemma {:induction false} JoinIdsAscending(txs: seq<TransactionRow>, cats: seq<Category>)
    requires StableSort.IdsAscending(txs, TransactionKey)
    ensures StableSort.IdsAscending(JoinCategories(txs, cats), ViewKey)
    decreases |txs|
  {
    if txs != [] {
      var init, t := txs[..|txs| - 1], txs[|txs| - 1];
      assert txs == init + [t];
      assert StableSort.IdsAscending(init, TransactionKey);
      JoinIdsAscending(init, cats);
      JoinFromTransactions(init, cats);
      var j := JoinCategories(init, cats);
      forall v | v in j
        ensures ViewKey(v) < ViewKey(ViewOf(t, Category(0, "")))
      {
        var u :| u in init && u.id == v.id;
        var k :| 0 <= k < |init| && init[k] == u;
        assert txs[k] == u;
      }
      match Find(cats, CategoryIdIs(t.categoryId))
      case None =>
        assert JoinCategories(txs, cats) == j + [];
      case Some(c) =>
        assert JoinCategories(txs, cats) == j + [ViewOf(t, c)];
        StableSort.AppendIdsAscending(j, ViewOf(t, c), ViewKey);
    }
  }

  /** Splitting by timestamp and sorting one part loses and adds nothing. */
  lemma SplitMembers(joined: seq<TransactionView>)
    ensures forall v :: v in Filter(joined, Untimed) + StableSort.SortDesc(Filter(joined, Timed), CreatedKey) <==> v in joined
  {
    var timed := Filter(joined, Timed);
    var sorted := StableSort.SortDesc(timed, CreatedKey);
    assert forall v :: v in sorted <==> v in multiset(timed);
  }

  /** The listing holds exactly the transactions whose category exists, each
      with its category's name. */
  lemma AllTransactionsMembers(cats: seq<Category>, txs: seq<TransactionRow>)
    requires CategoriesOrdered(cats)
    ensures forall v :: v in GetAllTransactions(cats, txs) <==>
      exists t, c :: t in txs && c in cats && c.id == t.categoryId && v == ViewOf(t, c)
  {
    JoinMembers(txs, cats);
    SplitMembers(JoinCategories(txs, cats));
  }

  lemma ConcatListed(untimed: seq<TransactionView>, sorted: seq<TransactionView>)
    requires forall v :: v in untimed ==> v.createdAt.None?
    requires StableSort.IdsAscending(untimed, ViewKey)
    requires forall v :: v in sorted ==> v.createdAt.Some?
    requires StableSort.LexSorted(sorted, CreatedKey, ViewKey)
    ensures var r := untimed + sorted;
      forall i, j :: 0 <= i < j < |r| ==> ListedBefore(r[i], r[j])
  {
    var r := untimed + sorted;
    forall i, j | 0 <= i < j < |r|
      ensures ListedBefore(r[i], r[j])
    {
      if j < |untimed| {
        assert r[i] == untimed[i] && r[j] == untimed[j];
        assert ViewKey(untimed[i]) < ViewKey(untimed[j]);
      } else if i < |untimed| {
        assert r[i] == untimed[i] && r[j] == sorted[j - |untimed|];
      } else {
        assert r[i] == sorted[i - |untimed|] && r[j] == sorted[j - |untimed|];
        assert StableSort.Precedes(sorted[i - |untimed|], sorted[j - |untimed|], CreatedKey, ViewKey);
      }
    }
  }

  /** The listing is ordered by `created_at` descending, rows without a
      timestamp first, ties in table order. */
  lemma AllTransactionsOrdered(cats: seq<Category>, txs: seq<TransactionRow>)
    requires StableSort.IdsAscending(txs, TransactionKey)
    ensures var r := GetAllTransactions(cats, txs);
      forall i, j :: 0 <= i < j < |r| ==> ListedBefore(r[i], r[j])
  {
    var joined := JoinCategories(txs, cats);
    JoinIdsAscending(txs, cats);
    JoinFromTransactions(txs, cats);
    var timed := Filter(joined, Timed);
    StableSort.FilterIdsAscending(joined, Untimed, ViewKey);
    StableSort.FilterIdsAscending(joined, Timed, ViewKey);
    StableSort.SortDescLexSorted(timed, CreatedKey, ViewKey);
    var sorted := StableSort.SortDesc(timed, CreatedKey);
    forall v | v in sorted
      ensures v.createdAt.Some?
    {
      assert v in multiset(timed);
      assert Timed(v);
    }
    var untimed := Filter(joined, Untimed);
    assert forall v :: v in untimed ==> Untimed(v);
    ConcatListed(untimed, sorted);
    assert GetAllTransactions(cats, txs) == untimed + sorted;
  }
}

=== FILE: transaction_store.dfy ===
/** The front-end transaction store: its two getters (the balance total and
    the grouping by category name) and its actions, with the HTTP reply and
    the stored token passed in. */
module TransactionStore {
  import opened Wrappers
  import opened Strings
  import opened Seqs
  import opened Grouping
  import opened ApiReply

  /** A transaction as the backend lists it; `categoryName` may be missing. */
  datatype Transaction = Transaction(
    id: int,
    amount: real,
    currency: string,
    date: string,
    description: string,
    categoryId: int,
    categoryName: Option<string>)

  datatype CategoryBalance = CategoryBalance(categoryId: int, transactions: seq<Transaction>, total: real)

  function AmountOf(t: Transaction): real { t.amount }

  /** `totalBalance`: the sum of the amounts, 0 for no transactions. */
  function Total(ts: seq<Transaction>): real {
    SumOf(ts, AmountOf)
  }

  /** The total of a list built by appending is the sum of the parts'
      totals: appending one transaction adds its amount, negative or not. */
  lemma TotalAppend(a: seq<Transaction>, b: seq<Transaction>)
    ensures Total(a + b) == Total(a) + Total(b)
    ensures Total([]) == 0.0
    ensures |b| == 1 ==> Total(a + b) == Total(a) + b[0].amount
  {
    SumOfAppend(a, b, AmountOf);
    if |b| == 1 {
      assert b[..0] == [];
    }
  }

  /** `transaction.categoryName || \`Category ${transaction.categoryId}\``. */
  function CategoryLabel(t: Transaction): (r: string)
    ensures Truthy(t.categoryName) ==> r == t.categoryName.value
    ensures !Truthy(t.categoryName) ==> r == "Category " + IntToString(t.categoryId)
  {
    OrElse(t.categoryName, "Category " + IntToString(t.categoryId))
  }

  function Label(): Transaction -> string {
    (t: Transaction) => CategoryLabel(t)
  }

  /** `transactionsByCategory`. */
  function ByCategory(ts: seq<Transaction>): seq<Group<Transaction>> {
    GroupBy(ts, Label())
  }

  /** Every transaction lands in the group of its label and in no other;
      within a group the original order is kept, and the groups appear in
      the order their labels first occur. */
  lemma ByCategoryFacts(ts: seq<Transaction>)
    ensures var gs := ByCategory(ts);
      && Keys(gs) == Distinct(Map(ts, Label()))
      && (forall i :: 0 <= i < |gs| ==> gs[i].items == Filter(ts, HasKey(Label(), gs[i].key)))
      && (forall i, j :: 0 <= i < j < |gs| ==> gs[i].key != gs[j].key)
      && (forall t :: t in ts ==> t in Lookup(gs, CategoryLabel(t)))
  {
    GroupByFacts(ts, Label());
    var gs := ByCategory(ts);
    GroupedKeysDistinct(ts, Label(), gs);
    forall t | t in ts
      ensures t in Lookup(gs, CategoryLabel(t))
    {
      GroupLookup(ts, Label(), CategoryLabel(t));
      assert HasKey(Label(), CategoryLabel(t))(t);
    }
  }

  class Store {
    var transactions: seq<Transaction>
    var categoryBalances: seq<CategoryBalance>
    var loading: bool
    var error: Option<string>

    constructor ()
      ensures transactions == [] && categoryBalances == [] && !loading && error == None
    {
      transactions := [];
      categoryBalances := [];
      loading := false;
      error := None;
    }

    function TotalBalance(): real
      reads this
    {
      Total(transactions)
    }

    function TransactionsByCategory(): seq<Group<Transaction>>
      reads this
    {
      ByCategory(transactions)
    }

    /** `fetchTransactions`: the list is replaced by the reply's data. */
    method FetchTransactions(call: Call<seq<Transaction>>) returns (r: Settled<()>)
      modifies this
      ensures !loading && categoryBalances == old(categoryBalances)
      ensures match Settle(call, "Failed to fetch transactions")
        case Done(v) => transactions == v && error == None && r == Resolved(())
        case Failed(t, text) => transactions == old(transactions) && error == Some(text) && r == Raised(t)
    {
      loading := true;
      error := None;
      match Settle(call, "Failed to fetch transactions") {
        case Done(v) =>
          transactions := v;
          r := Resolved(());
        case Failed(t, text) =>
          error := Some(text);
          r := Raised(t);
      }
      loading := false;
    }

    /** `addTransaction`: refused without a stored token; on success the
        created transaction is pushed at the end and nothing else moves. */
    method AddTransaction(token: Option<string>, call: Call<Transaction>) returns (r: Settled<Transaction>)
      modifies this
      ensures !loading && categoryBalances == old(categoryBalances)
      ensures !Truthy(token) ==>
        && r == Raised(ErrorValue(NoTokenMessage))
        && error == Some(NoTokenMessage) && transactions == old(transactions)
      ensures Truthy(token) ==>
        match Settle(call, "Failed to add transaction")
        case Done(v) => transactions == old(transactions) + [v] && error == None && r == Resolved(v)
        case Failed(t, text) => transactions == old(transactions) && error == Some(text) && r == Raised(t)
    {
      loading := true;
      error := None;
      if !Truthy(token) {
        error := Some(NoTokenMessage);
        r := Raised(ErrorValue(NoTokenMessage));
      } else {
        match Settle(call, "Failed to add transaction") {
          case Done(v) =>
            transactions := transactions + [v];
            r := Resolved(v);
          case Failed(t, text) =>
            error := Some(text);
            r := Raised(t);
        }
      }
      loading := false;
    }

    /** `fetchCategoryBalances`: the balances are replaced by the reply's data. */
    method FetchCategoryBalances(call: Call<seq<CategoryBalance>>) returns (r: Settled<()>)
      modifies this
      ensures !loading && transactions == old(transactions)
      ensures match Settle(call, "Failed to fetch category balances")
        case Done(v) => categoryBalances == v && error == None && r == Resolved(())
        case Failed(t, text) => categoryBalances == old(categoryBalances) && error == Some(text) && r == Raised(t)
    {
      loading := true;
      error := None;
      match Settle(call, "Failed to fetch category balances") {
        case Done(v) =>
          categoryBalances := v;
          r := Resolved(());
        case Failed(t, text) =>
          error := Some(text);
          r := Raised(t);
      }
      loading := false;
    }

    method ClearError()
      modifies this
      ensures error == None
      ensures transactions == old(transactions) && categoryBalances == old(categoryBalances)
      ensures loading == old(loading)
    {
      error := None;
    }
  }

  /** After a successful `addTransaction` the balance total has grown by the
      new transaction's amount. */
  lemma AddTransactionTotal(before: seq<Transaction>, v: Transaction)
    ensures Total(before + [v]) == Total(before) + v.amount
  {
    TotalAppend(before, [v]);
  }
}

=== FILE: transactions_controller.dfy ===
/** The transactions controller: request validation and the mapping of each
    service outcome to a status and an envelope. */
module TransactionsController {
  import opened Wrappers
  import opened Envelope
  import opened Schema
  import TransactionService

  /** `error instanceof Error ? error.message : 'Unknown error'`. */
  function ErrorText(t: Thrown): (r: string)
    ensures t.ErrorValue? ==> r == t.message
    ensures t.NonError? ==> r == "Unknown error"
  {
    match t
    case ErrorValue(m) => m
    case NonError => "Unknown error"
  }

  /** The envelope of an action that returns its service result as `data`
      with the default status, or 500 with `failMessage`. */
  function Wrap<T>(o: Outcome<T>, failMessage: string): (r: Reply<T>)
    ensures r.body.success <==> o.Returned?
    ensures o.Returned? ==> r == Success(OK, None, Some(o.value))
    ensures o.Threw? ==> r == Failure(INTERNAL_SERVER_ERROR, failMessage, Some(ErrorText(o.thrown)))
  {
    match o
    case Returned(v) => Success(OK, None, Some(v))
    case Threw(t) => Failure(INTERNAL_SERVER_ERROR, failMessage, Some(ErrorText(t)))
  }

  /** `index`. */
  function Index(o: Outcome<seq<TransactionService.TransactionView>>): (r: Reply<seq<TransactionService.TransactionView>>)
    ensures o.Returned? ==> r.status == OK && r.body.success && r.body.data == Some(o.value)
    ensures o.Threw? ==>
      && r.status == INTERNAL_SERVER_ERROR && !r.body.success
      && r.body.message == Some("Failed to fetch transactions") && r.body.error == Some(ErrorText(o.thrown))
  {
    Wrap(o, "Failed to fetch transactions")
  }

  /** `getBalanceByCategory`. */
  function GetBalanceByCategory(o: Outcome<seq<TransactionService.Balance>>): (r: Reply<seq<TransactionService.Balance>>)
    ensures o.Returned? ==> r.status == OK && r.body.success && r.body.data == Some(o.value)
    ensures o.Threw? ==>
      && r.status == INTERNAL_SERVER_ERROR && !r.body.success
      && r.body.message == Some("Failed to fetch balance by category") && r.body.error == Some(ErrorText(o.thrown))
  {
    Wrap(o, "Failed to fetch balance by category")
  }

  /** The fields `store` reads from the request. */
  datatype StoreRequest = StoreRequest(amount: Field, currency: Field, date: Field, description: Field, categoryId: Field)

  /** `!amount || !currency || !date || !description || !category_id`. */
  predicate MissingField(q: StoreRequest) {
    !FieldTruthy(q.amount) || !FieldTruthy(q.currency) || !FieldTruthy(q.date)
    || !FieldTruthy(q.description) || !FieldTruthy(q.categoryId)
  }

  /** `store`: 400 when a field is falsy, otherwise the outcome of
      `createTransaction` (`o`) as 201 or 500. */
  function Store(q: StoreRequest, o: Outcome<TransactionRow>): (r: Reply<TransactionRow>)
    ensures MissingField(q) ==> r == Failure(BAD_REQUEST, "All fields are required", None)
    ensures !MissingField(q) && o.Returned? ==> r.status == CREATED && r.body == Body(true, None, Some(o.value), None)
    ensures !MissingField(q) && o.Threw? ==>
      && r.status == INTERNAL_SERVER_ERROR && !r.body.success
      && r.body.message == Some("Failed to create transaction") && r.body.error == Some(ErrorText(o.thrown))
  {
    if MissingField(q) then Failure(BAD_REQUEST, "All fields are required", None)
    else
      match o
      case Returned(t) => Success(CREATED, None, Some(t))
      case Threw(t) => Failure(INTERNAL_SERVER_ERROR, "Failed to create transaction", Some(ErrorText(t)))
  }

  /** A rejected request never looks at the service: its reply is the same
      whatever the service would have done. */
  lemma StoreRejectsBeforeService(q: StoreRequest, o1: Outcome<TransactionRow>, o2: Outcome<TransactionRow>)
    requires MissingField(q)
    ensures Store(q, o1) == Store(q, o2) && Store(q, o1).status == BAD_REQUEST
  {
  }

  /** A thrown non-`Error` is reported as 'Unknown error' by all three
      actions. */
  lemma UnknownErrorEverywhere(q: StoreRequest)
    requires !MissingField(q)
    ensures Index(Threw(NonError)).body.error == Some("Unknown error")
    ensures GetBalanceByCategory(Threw(NonError)).body.error == Some("Unknown error")
    ensures Store(q, Threw(NonError)).body.error == Some("Unknown error")
  {
  }

  /** The one-per-category rejection of `createTransaction` reaches the
      client as a 500 carrying the service's message. */
  lemma StoreReportsServiceError(q: StoreRequest, r: Result<TransactionRow, string>)
    requires !MissingField(q) && r.Err?
    ensures Store(q, FromResult(r)).status == INTERNAL_SERVER_ERROR
    ensures Store(q, FromResult(r)).body.error == Some(r.error)
  {
  }
}

=== FILE: wrappers.dfy ===
/** Optional values and success/failure results, used wherever the source
    returns `null`, leaves a field `undefined` or throws. */
module Wrappers {

  datatype Option<+T> = None | Some(value: T) {
    function GetOr(default: T): T {
      match this
      case Some(v) => v
      case None => default
    }
  }

  datatype Result<+T, +E> = Ok(value: T) | Err(error: E)

  /** A thrown JavaScript value: an `Error` with its message, or anything
      else. */
  datatype Thrown = ErrorValue(message: string) | NonError
}

=== FILE: xero_service.dfy ===
/** The mock Xero client: the fixed invoice feed, the mapping of external
    records to internal invoice fields, pagination and the status and type
    filters. Every operation is a pure function of the feed it is given. */
module XeroService {
  import opened Wrappers
  import opened Strings
  import opened Seqs
  import opened InvoiceTypes

  datatype MockContact = MockContact(name: string, emailAddress: Option<string>)

  /** A record of the simplified mock feed (`MockXeroInvoiceResponse`). */
  datatype MockXeroInvoice = MockXeroInvoice(
    invoiceId: string,
    invoiceNumber: string,
    contact: MockContact,
    subTotal: real,
    totalTax: real,
    total: real,
    currencyCode: string,
    status: string,
    date: string,
    dueDate: Option<string>,
    paidDate: Option<string>,
    description: Option<string>,
    reference: Option<string>,
    invoiceType: string)

  /** The five invoices the mock API serves. */
  const MockInvoices: seq<MockXeroInvoice> := [
    MockXeroInvoice("xero-inv-001", "INV-2024-001",
      MockContact("Acme Corporation", Some("billing@acme.com")),
      1000.0, 130.0, 1130.0, "CAD", "PAID", "2024-01-15",
      Some("2024-02-15"), Some("2024-01-20"),
      Some("Web development services for Q1 2024"), Some("PO-2024-001"), "ACCREC"),
    MockXeroInvoice("xero-inv-002", "INV-2024-002",
      MockContact("TechStart Inc", Some("accounts@techstart.com")),
      2500.0, 325.0, 2825.0, "CAD", "SENT", "2024-01-20",
      Some("2024-02-20"), None,
      Some("Mobile app development project"), Some("PO-2024-002"), "ACCREC"),
    MockXeroInvoice("xero-inv-003", "INV-2024-003",
      MockContact("Office Supplies Co", Some("orders@officesupplies.com")),
      150.0, 19.5, 169.5, "CAD", "DRAFT", "2024-01-25",
      None, None,
      Some("Office supplies and equipment"), None, "ACCPAY"),
    MockXeroInvoice("xero-inv-004", "INV-2024-004",
      MockContact("Cloud Services Ltd", Some("billing@cloudservices.com")),
      500.0, 65.0, 565.0, "CAD", "PAID", "2024-01-10",
      Some("2024-02-10"), Some("2024-01-12"),
      Some("Monthly cloud hosting services"), Some("CS-2024-001"), "ACCPAY"),
    MockXeroInvoice("xero-inv-005", "INV-2024-005",
      MockContact("Marketing Agency", Some("billing@marketing.com")),
      3000.0, 390.0, 3390.0, "CAD", "VOIDED", "2024-01-05",
      None, None,
      Some("Digital marketing campaign (cancelled)"), Some("MA-2024-001"), "ACCREC")
  ]

  /** `statusMap[xeroStatus] || InvoiceStatus.DRAFT`. */
  function ConvertStatus(xeroStatus: string): (r: InvoiceStatus)
    ensures (exists st :: StatusName(st) == xeroStatus) ==> StatusName(r) == xeroStatus
    ensures (forall st :: StatusName(st) != xeroStatus) ==> r == DRAFT
  {
    if xeroStatus == "DRAFT" then DRAFT
    else if xeroStatus == "SUBMITTED" then SUBMITTED
    else if xeroStatus == "AUTHORISED" then AUTHORISED
    else if xeroStatus == "PAID" then PAID
    else if xeroStatus == "VOIDED" then VOIDED
    else if xeroStatus == "DELETED" then DELETED
    else DRAFT
  }

  /** Every internal status survives a trip through its string value. */
  lemma ConvertStatusOfName(st: InvoiceStatus)
    ensures ConvertStatus(StatusName(st)) == st
  {
    StatusNameInjective(ConvertStatus(StatusName(st)), st);
  }

  /** The mock feed's 'SENT' is not an internal status and becomes DRAFT. */
  lemma ConvertStatusSent()
    ensures ConvertStatus("SENT") == DRAFT
  {
  }

  function ConvertType(xeroType: string): (r: InvoiceType)
    ensures r == ACCPAY <==> xeroType == "ACCPAY"
  {
    if xeroType == "ACCPAY" then ACCPAY else ACCREC
  }

  lemma ConvertTypeOfName(t: InvoiceType)
    ensures ConvertType(TypeName(t)) == t
  {
  }

  /** `convertToInternalFormat`: copy the identifiers and amounts, flatten the
      contact, map status and type, and turn missing or empty optional
      strings into null. */
  function ConvertToInternalFormat(x: MockXeroInvoice): (r: InvoiceFields)
    ensures r.xeroInvoiceId == x.invoiceId
    ensures r.contactName == x.contact.name
    ensures r.invoiceNumber == x.invoiceNumber && r.currency == x.currencyCode && r.invoiceDate == x.date
    ensures r.subTotal == x.subTotal && r.taxAmount == x.totalTax && r.totalAmount == x.total
    ensures r.status == ConvertStatus(x.status) && r.invoiceType == ConvertType(x.invoiceType)
    ensures r.contactEmail.Some? <==> Truthy(x.contact.emailAddress)
    ensures Truthy(x.contact.emailAddress) ==> r.contactEmail == x.contact.emailAddress
    ensures r.dueDate.Some? <==> Truthy(x.dueDate)
    ensures Truthy(x.dueDate) ==> r.dueDate == x.dueDate
    ensures r.paidDate.Some? <==> Truthy(x.paidDate)
    ensures Truthy(x.paidDate) ==> r.paidDate == x.paidDate
    ensures r.description.Some? <==> Truthy(x.description)
    ensures Truthy(x.description) ==> r.description == x.description
    ensures r.reference.Some? <==> Truthy(x.reference)
    ensures Truthy(x.reference) ==> r.reference == x.reference
  {
    InvoiceFields(
      x.invoiceId, x.invoiceNumber, x.contact.name, OrNull(x.contact.emailAddress),
      x.subTotal, x.totalTax, x.total, x.currencyCode, ConvertStatus(x.status),
      x.date, OrNull(x.dueDate), OrNull(x.paidDate), OrNull(x.description),
      OrNull(x.reference), ConvertType(x.invoiceType))
  }

  /** Internal fields whose optional strings are null or non-empty: exactly
      the values the mapping can produce. */
  predicate Normalized(f: InvoiceFields) {
    && (f.contactEmail.Some? ==> f.contactEmail.value != "")
    && (f.dueDate.Some? ==> f.dueDate.value != "")
    && (f.paidDate.Some? ==> f.paidDate.value != "")
    && (f.description.Some? ==> f.description.value != "")
    && (f.reference.Some? ==> f.reference.value != "")
  }

  /** The external record that carries exactly the given internal fields. */
  function ToMock(f: InvoiceFields): MockXeroInvoice {
    MockXeroInvoice(
      f.xeroInvoiceId, f.invoiceNumber, MockContact(f.contactName, f.contactEmail),
      f.subTotal, f.taxAmount, f.totalAmount, f.currency, StatusName(f.status),
      f.invoiceDate, f.dueDate, f.paidDate, f.description, f.reference, TypeName(f.invoiceType))
  }

  /** The mapping loses nothing on normalized fields: every such field set is
      the image of a feed record, and the mapping always yields one. */
  lemma ConvertToInternalFormatRoundTrip(f: InvoiceFields)
    requires Normalized(f)
    ensures ConvertToInternalFormat(ToMock(f)) == f
  {
    ConvertStatusOfName(f.status);
    ConvertTypeOfName(f.invoiceType);
  }

  lemma ConvertToInternalFormatNormalized(x: MockXeroInvoice)
    ensures Normalized(ConvertToInternalFormat(x))
  {
  }

  // ----- the full Xero record (`XeroInvoiceResponse`), every field optional -----

  datatype XeroContact = XeroContact(name: string, emailAddress: Option<string>)
  datatype XeroLineItem = XeroLineItem(description: Option<string>)

  datatype XeroInvoice = XeroInvoice(
    invoiceType: Option<string>,
    contact: Option<XeroContact>,
    date: Option<string>,
    dueDate: Option<string>,
    status: Option<string>,
    lineItems: Option<seq<XeroLineItem>>,
    subTotal: Option<real>,
    totalTax: Option<real>,
    total: Option<real>,
    currencyCode: Option<string>,
    invoiceId: Option<string>,
    invoiceNumber: Option<string>,
    reference: Option<string>,
    fullyPaidOnDate: Option<string>)

  /** JavaScript `n || 0` on an optional number. */
  function NumberOrZero(n: Option<real>): (r: real)
    ensures n.Some? ==> r == n.value
    ensures n.None? ==> r == 0.0
  {
    if n.Some? && n.value != 0.0 then n.value else 0.0
  }

  /** `LineItems?.[0]?.Description || null`. */
  function FirstLineDescription(items: Option<seq<XeroLineItem>>): (r: Option<string>)
    ensures r.Some? <==> items.Some? && |items.value| > 0 && Truthy(items.value[0].description)
    ensures r.Some? ==> r == items.value[0].description
  {
    if items.Some? && |items.value| > 0 then OrNull(items.value[0].description) else None
  }

  /** `convertFullXeroToInternalFormat`; `today` stands for the current date
      that the source reads from the clock when the record has none. */
  function ConvertFullXeroToInternalFormat(x: XeroInvoice, today: string): (r: InvoiceFields)
    ensures r.xeroInvoiceId == (if Truthy(x.invoiceId) then x.invoiceId.value else "")
    ensures r.invoiceNumber == (if Truthy(x.invoiceNumber) then x.invoiceNumber.value else "")
    ensures r.contactName == (if x.contact.Some? then x.contact.value.name else "")
    ensures r.subTotal == x.subTotal.GetOr(0.0) && r.taxAmount == x.totalTax.GetOr(0.0)
    ensures r.totalAmount == x.total.GetOr(0.0)
    ensures r.currency == (if Truthy(x.currencyCode) then x.currencyCode.value else "CAD")
    ensures r.status == (if Truthy(x.status) then ConvertStatus(x.status.value) else DRAFT)
    ensures r.invoiceType == (if Truthy(x.invoiceType) then ConvertType(x.invoiceType.value) else ACCREC)
    ensures r.invoiceDate == (if Truthy(x.date) then x.date.value else today)
    ensures r.contactEmail.Some? <==> x.contact.Some? && Truthy(x.contact.value.emailAddress)
    ensures r.contactEmail.Some? ==> r.contactEmail == x.contact.value.emailAddress
    ensures r.dueDate.Some? <==> Truthy(x.dueDate)
    ensures r.dueDate.Some? ==> r.dueDate == x.dueDate
    ensures r.paidDate.Some? <==> Truthy(x.fullyPaidOnDate)
    ensures r.paidDate.Some? ==> r.paidDate == x.fullyPaidOnDate
    ensures r.reference.Some? <==> Truthy(x.reference)
    ensures r.reference.Some? ==> r.reference == x.reference
    ensures r.description.Some? <==> x.lineItems.Some? && |x.lineItems.value| > 0
                                      && Truthy(x.lineItems.value[0].description)
    ensures r.description.Some? ==> r.description == x.lineItems.value[0].description
    ensures Normalized(r)
  {
    InvoiceFields(
      OrElse(x.invoiceId, ""),
      OrElse(x.invoiceNumber, ""),
      if x.contact.Some? then x.contact.value.name else "",
      if x.contact.Some? then OrNull(x.contact.value.emailAddress) else None,
      NumberOrZero(x.subTotal),
      NumberOrZero(x.totalTax),
      NumberOrZero(x.total),
      OrElse(x.currencyCode, "CAD"),
      ConvertStatus(OrElse(x.status, "DRAFT")),
      OrElse(x.date, today),
      OrNull(x.dueDate),
      OrNull(x.fullyPaidOnDate),
      FirstLineDescription(x.lineItems),
      OrNull(x.reference),
      ConvertType(OrElse(x.invoiceType, "ACCREC")))
  }

  // ----- pagination -----

  datatype Page = Page(
    invoices: seq<MockXeroInvoice>,
    total: nat,
    page: int,
    limit: int,
    totalPages: Option<int>)   // None: `Math.ceil(n / 0)`, Infinity or NaN

  /** Where `Array.prototype.slice` starts or stops for the argument `k`. */
  function SliceIndex(k: int, len: nat): (r: nat)
    ensures r <= len
    ensures 0 <= k <= len ==> r == k
  {
    if k < 0 then (if len + k < 0 then 0 else len + k)
    else if k > len then len
    else k
  }

  /** `s.slice(start, end)`. */
  function Slice<T>(s: seq<T>, start: int, end: int): (r: seq<T>)
    ensures 0 <= start <= end <= |s| ==> r == s[start..end]
  {
    var a, b := SliceIndex(start, |s|), SliceIndex(end, |s|);
    if a < b then s[a..b] else []
  }

  /** `Math.ceil(n / limit)`; None when `limit` is 0. */
  function CeilDiv(n: nat, limit: int): (r: Option<int>)
    ensures r.None? <==> limit == 0
    ensures limit > 0 ==> r.Some? && r.value >= 0 && n <= r.value * limit && (r.value - 1) * limit < n
    ensures limit > 0 && n == 0 ==> r == Some(0)
  {
    if limit > 0 then
      var q := (n + limit - 1) / limit;
      assert q * limit <= n + limit - 1 < q * limit + limit;
      Some(q)
    else if limit < 0 then Some(-(n / -limit))
    else None
  }

  /** `fetchInvoicesPaginated(page = 1, limit = 10)`, over the given feed. */
  function FetchInvoicesPaginated(feed: seq<MockXeroInvoice>, page: Option<int>, limit: Option<int>): (r: Page)
    ensures r.total == |feed| && r.page == page.GetOr(1) && r.limit == limit.GetOr(10)
    ensures r.totalPages == CeilDiv(|feed|, r.limit)
    ensures r.page >= 1 && r.limit >= 1 ==>
      r.invoices == feed[Min(PageStart(r.page, r.limit), |feed|)..Min(PageStart(r.page, r.limit) + r.limit, |feed|)]
  {
    var p, l := page.GetOr(1), limit.GetOr(10);
    var startIndex := PageStart(p, l);
    Page(Slice(feed, startIndex, startIndex + l), |feed|, p, l, CeilDiv(|feed|, l))
  }

  function Min(a: int, b: int): int {
    if a <= b then a else b
  }

  /** `(page - 1) * limit`. */
  function PageStart(page: int, limit: int): (r: int)
    ensures page >= 1 && limit >= 0 ==> r >= 0
  {
    MulNonNegative(page - 1, limit);
    (page - 1) * limit
  }

  lemma MulNonNegative(a: int, b: int)
    ensures a >= 0 && b >= 0 ==> a * b >= 0
  {
  }

  /** With a positive limit, the record at index `j` is on page `j / limit + 1`
      at position `j % limit`, and that page is within `totalPages`. */
  lemma PaginationCoversFeed(feed: seq<MockXeroInvoice>, limit: int, j: nat)
    requires limit >= 1 && j < |feed|
    ensures var r := FetchInvoicesPaginated(feed, Some(j / limit + 1), Some(limit));
      j % limit < |r.invoices| && r.invoices[j % limit] == feed[j]
      && r.totalPages.Some? && j / limit + 1 <= r.totalPages.value
  {
    var q, m := j / limit, j % limit;
    PageOfIndex(j, limit);
    var start := PageStart(q + 1, limit);
    var r := FetchInvoicesPaginated(feed, Some(q + 1), Some(limit));
    assert r.invoices == feed[start..Min(start + limit, |feed|)];
    assert r.invoices[m] == feed[start + m];
    PagesCoverIndex(|feed|, limit, j);
  }

  /** Index `j` is at offset `j % limit` of page `j / limit + 1`. */
  lemma PageOfIndex(j: nat, limit: int)
    requires limit >= 1
    ensures var start := PageStart(j / limit + 1, limit);
      start >= 0 && start + j % limit == j && 0 <= j % limit < limit
  {
    DivMod(j, limit);
  }

  /** The page holding index `j < n` is within `totalPages`. */
  lemma PagesCoverIndex(n: nat, limit: int, j: nat)
    requires limit >= 1 && j < n
    ensures CeilDiv(n, limit).Some? && j / limit + 1 <= CeilDiv(n, limit).value
  {
    var q := j / limit;
    DivMod(j, limit);
    assert (q + 1) * limit == q * limit + limit;
    assert n + limit - 1 >= (q + 1) * limit;
    DivAtLeast(n + limit - 1, limit, q + 1);
  }

  lemma DivMod(j: nat, l: int)
    requires l >= 1
    ensures j == j / l * l + j % l && 0 <= j % l < l && j / l >= 0
    ensures (j / l + 1 - 1) * l == j / l * l
  {
  }

  lemma DivAtLeast(a: int, l: int, q: int)
    requires l >= 1 && a >= q * l
    ensures a / l >= q
  {
    var d := a / l;
    assert a == d * l + a % l && a % l < l;
    assert d * l > (q - 1) * l;
    MulCancel(d, q - 1, l);
  }

  lemma MulCancel(x: int, y: int, l: int)
    requires l >= 1 && x * l > y * l
    ensures x > y
  {
  }

  // ----- lookups and filters over the feed -----

  /** `mockInvoices.find(i => i.InvoiceID === invoiceId) || null`. */
  function FetchInvoiceById(feed: seq<MockXeroInvoice>, invoiceId: string): (r: Option<MockXeroInvoice>)
    ensures r.Some? ==> r.value.invoiceId == invoiceId
    ensures r.Some? ==> exists k :: (0 <= k < |feed| && feed[k] == r.value
                          && forall j :: 0 <= j < k ==> feed[j].invoiceId != invoiceId)
    ensures r.None? <==> forall j :: 0 <= j < |feed| ==> feed[j].invoiceId != invoiceId
  {
    match FindIndex(feed, (x: MockXeroInvoice) => x.invoiceId == invoiceId)
    case None => None
    case Some(k) => Some(feed[k])
  }

  function FetchInvoicesByStatus(feed: seq<MockXeroInvoice>, status: string): (r: seq<MockXeroInvoice>)
    ensures forall x :: x in r ==> StatusName(ConvertStatus(x.status)) == status
    ensures forall x :: multiset(r)[x] == (if StatusName(ConvertStatus(x.status)) == status then multiset(feed)[x] else 0)
  {
    var p := (x: MockXeroInvoice) => StatusName(ConvertStatus(x.status)) == status;
    FilterMultiset(feed, p);
    Filter(feed, p)
  }

  function FetchInvoicesByType(feed: seq<MockXeroInvoice>, invoiceType: string): (r: seq<MockXeroInvoice>)
    ensures forall x :: x in r ==> TypeName(ConvertType(x.invoiceType)) == invoiceType
    ensures forall x :: multiset(r)[x] == (if TypeName(ConvertType(x.invoiceType)) == invoiceType then multiset(feed)[x] else 0)
  {
    var p := (x: MockXeroInvoice) => TypeName(ConvertType(x.invoiceType)) == invoiceType;
    FilterMultiset(feed, p);
    Filter(feed, p)
  }
  /** Both filters keep feed order: any relation that holds between every
      earlier and later record of the feed still holds in the result. */
  lemma FiltersKeepOrder(feed: seq<MockXeroInvoice>, status: string, invoiceType: string,
                         rel: (MockXeroInvoice, MockXeroInvoice) -> bool)
    requires Pairwise(feed, rel)
    ensures Pairwise(FetchInvoicesByStatus(feed, status), rel)
    ensures Pairwise(FetchInvoicesByType(feed, invoiceType), rel)
  {
    FilterPairwise(feed, (x: MockXeroInvoice) => StatusName(ConvertStatus(x.status)) == status, rel);
    FilterPairwise(feed, (x: MockXeroInvoice) => TypeName(ConvertType(x.invoiceType)) == invoiceType, rel);
  }
}
